=== FILE: README.md ===
# Grocery expense tracker — a Dafny model of its core logic

This project models the logic of a grocery-expense tracker: a React
frontend backed by a FastAPI service over SQLite. Every part below is an
immutable datatype with pure functions. The model covers:

- The **cross-store price comparison**. Items are grouped by their trimmed,
  lower-cased name. A group is kept when it was bought at more than one
  store. The cheapest and the dearest item come from a stable sort by price.
  Groups with no saving are dropped, and the rest are ordered by saving.
- The **per-store spending summary**. The same reduce appears in the real
  API client and in the in-memory mock API. The summary view adds the grand
  total, the card order, the expand/collapse toggle and the collapsed
  preview.
- The **grocery list**: items grouped by date and shown newest date first.
- The **inline item editor** shared by the list and the summary view.
- The **in-memory mock store**: add, update and delete by id, with `nextId`.
- The **receipt scanner**. This covers the three-stage store-name matcher,
  the file guards, the automatic store choice, and the transform applied to
  confirmed items. On the server side it covers the receipt-analysis mapping
  with its fallbacks, and the confirmation endpoint.
- The **forms and state machines**:
  - the add-item form;
  - the four-mode sign-in card (sign in, sign up, forgot password, reset
    password);
  - the admin user panel.
- The **backend request guards**:
  - access-token expiry;
  - the admin check;
  - the upload guard;
  - public registration with its email pattern;
  - password reset;
  - user update and delete.
- The **accounts and grocery tables** as in-memory sequences:
  - user creation and its integrity errors;
  - the field list of a user update;
  - the password-reset token lifecycle;
  - per-user scoping of grocery rows.
- The **settings** read from the environment, and their production
  validation.

Some things become parameters of the functions that need them, so the model
makes no claim about them:

- the clock (`now`, `today`). A confirmation reads it once per insert, so
  there `now` and `today` are functions of the entry's index;
- password hashing (`hash`) and token and uuid generation (`token`, `uuid`);
- JavaScript `parseFloat` and `Number.prototype.toString` (`parse`,
  `showPrice`, `showNumber`);
- `new Date(...)` read as a number (`day`);
- the text of a SQLite integrity error (`errorText`);
- `str()` of an exception (`shown`, `insertError`), and whether saving the
  scan record raises (`scanError`);
- the environment (`getenv`).

Prices are `real`. Timestamps are whole seconds.

Module layout:

| file | module | what it holds |
|---|---|---|
| wrappers.dfy | `Wrappers` | `Option`, `Result`, `HttpError` |
| text.dfy | `Text` | JS `trim`/`toLowerCase`, `includes`, `split`/`join`, text after the last separator |
| seqs.dfy | `Seqs` | `Filter`, `Map`, `Sum`, `Flatten`, `Select`, `FirstWhere` and their lemmas |
| sorting.dfy | `Sorting` | the stable sort used for every JS `Array.prototype.sort` |
| grouping.dfy | `Grouping` | the "reduce into an object of arrays" pattern and its partition property |
| items.dfy | `Items` | the grocery item the frontend works on |
| compare.dfy | `Compare` | the price comparison |
| store_aggregate.dfy | `StoreAggregate` | `getStoreSummary` |
| store_summary.dfy | `StoreSummaryView` | the summary view |
| grocery_list.dfy | `GroceryListView` | the date-grouped list |
| item_editing.dfy | `ItemEditing` | the inline editor |
| mock_store.dfy | `MockStore` | the mock API |
| grocery_form.dfy | `GroceryForm` | the add-item form |
| receipt_processor.dfy | `ReceiptProcessor` | the backend receipt mapping |
| receipt_scanner.dfy | `ReceiptScanner` | the scanner component |
| login.dfy | `Login` | the sign-in card |
| user_management.dfy | `UserManagement` | the admin user panel |
| accounts.dfy | `Accounts` | the users and reset-token tables |
| grocery_table.dfy | `GroceryTable` | the grocery-items table |
| email_pattern.dfy | `EmailPattern` | the registration email regex |
| server.dfy | `Server` | the API endpoints and guards |
| config.dfy | `Config` | the settings |
| flows.dfy | `Flows` | two requests followed from component to endpoint |

## Model

| member | source | states |
|---|---|---|
| Grouping.GroupByCorrect | frontend/src/components/Compare.jsx:8-15 | Grouping puts every input item in exactly one group, the one whose key is the item's key. Keys are distinct. Each group keeps the input order of its items. Together the groups are a permutation of the input. |
| Grouping.KeyHasGroup | frontend/src/components/Compare.jsx:8-15 | A key has a group exactly when some input item carries that key. |
| Grouping.FlattenPermutation | frontend/src/api.js:106-121 | Reordering the groups (as the display sorts do) keeps the multiset of all their members. |
| Sorting.SortDescCorrect | frontend/src/components/Compare.jsx:26 | The stable sort returns a permutation of its input, ordered by key. Items with equal keys keep their input order. |
| Sorting.SortedFirst | frontend/src/components/Compare.jsx:26-27 | The first element after the sort is the earliest input element with the largest key. |
| Sorting.SortedLast | frontend/src/components/Compare.jsx:26-28 | The last element after the sort is the latest input element with the smallest key. |
| Compare.CheapestIndex | frontend/src/components/Compare.jsx:27 | The index of a lowest price in a non-empty group, and the first such index. |
| Compare.MostExpensiveIndex | frontend/src/components/Compare.jsx:28 | The index of a highest price in a non-empty group, and the last such index. |
| Compare.SortedFirstIsCheapest | frontend/src/components/Compare.jsx:26-27 | The first item of the ascending price sort is the earliest of the cheapest items. |
| Compare.SortedLastIsMostExpensive | frontend/src/components/Compare.jsx:26-28 | The last item of the ascending price sort is the latest of the dearest items. |
| Compare.ComparableGroups | frontend/src/components/Compare.jsx:18-23 | A group is kept exactly when its items come from at least two stores, compared as exact strings. |
| Compare.Summaries | frontend/src/components/Compare.jsx:24-41 | One comparison is built per kept group, and nothing else. |
| Compare.WithSavings | frontend/src/components/Compare.jsx:42 | A comparison survives exactly when its saving is positive. |
| Compare.SummarizeFields | frontend/src/components/Compare.jsx:26-40 | A comparison holds the group's cheapest and dearest items and the spread between them. It also lists every item of the group. |
| Compare.SummarizeSound | frontend/src/components/Compare.jsx:24-41 | A comparison built from a group of same-named items seen at two stores is sound. Sound means: its items are all the input items with that name, its item name is the first one's original spelling, its count is the group size (not the number of stores), its cheapest and dearest are members bounding every price, and its saving is their difference. |
| Compare.CompareSound | frontend/src/components/Compare.jsx:8-43 | Every comparison in the output is sound in the sense above. |
| Compare.CompareComplete | frontend/src/components/Compare.jsx:8-43 | A normalised name appears in the output exactly when its items come from two or more stores and their prices differ. |
| Compare.CompareEmits | frontend/src/components/Compare.jsx:18-42 | A name whose items come from two stores at different prices is emitted. |
| Compare.OutputMembers | frontend/src/components/Compare.jsx:18-43 | The output holds exactly the summaries of the multi-store groups that have a positive saving. |
| Compare.CompareOrdered | frontend/src/components/Compare.jsx:43 | The output is ordered by saving, highest first. Comparisons with equal savings keep the order of their groups. |
| Compare.PercentageBounds | frontend/src/components/Compare.jsx:30 | With non-negative prices, every emitted percentage is finite and in (0, 100]. It is exactly 100 when the cheapest item is free. |
| Compare.TotalSavingsPositive | frontend/src/components/Compare.jsx:45-59 | The total potential saving is positive exactly when there is something to compare. |
| StoreAggregate.SummaryIsGrouping | frontend/src/api.js:106-121 | The store summary is the store grouping, one summary per group, in the same order. |
| StoreAggregate.GetStoreSummaryCorrect | frontend/src/api.js:106-121 | There is one summary per distinct store, and every item's store has one. Each summary's total is the sum of prices of exactly that store's items, and its count is how many there are. Its items are those items in input order. All item lists together are a permutation of the input. An empty input gives an empty summary. |
| StoreAggregate.SummaryItemsShareStore | frontend/src/api.js:107-117 | Every item listed under a summary is an input item bought at that summary's store. |
| StoreAggregate.TotalsAddUp | frontend/src/api.js:115 | The per-store totals add up to the price of all items. |
| MockStore.MockSummaryCorrect | frontend/src/mock.js:109-126 | The mock summary has the same distinct-store, per-store sum and count, partition and total properties as the real one. |
| StoreSummaryView.GrandTotalIsSpend | frontend/src/components/StoreSummary.jsx:99 | The grand total shown is what all the items cost. |
| StoreSummaryView.DisplayOrderCorrect | frontend/src/components/StoreSummary.jsx:121-122 | The cards are a permutation of the summary, in non-increasing total order. Equal totals keep their order, and the grand total is unchanged. |
| StoreSummaryView.HandleStoreClick | frontend/src/components/StoreSummary.jsx:27-30 | Clicking the open card closes it and clicking any other card opens that one. Either way the editor closes. |
| StoreSummaryView.ClickTwice | frontend/src/components/StoreSummary.jsx:27-30 | Two clicks on one card return it to its original expanded-or-not state. |
| StoreSummaryView.PreviewOf | frontend/src/components/StoreSummary.jsx:162-171 | The preview shows the first min(4, n) item names. A "+(n−4) more" badge appears exactly when n > 4. Badge and names together account for every item. |
| ItemEditing.HandleEdit | frontend/src/components/StoreSummary.jsx:32-40 | Editing copies the item's name, store and quantity, and the text form of its price. The same code is at GroceryList.jsx:26-34. |
| ItemEditing.HandleCancelEdit | frontend/src/components/StoreSummary.jsx:42-45 | Cancelling always leaves no item being edited. |
| ItemEditing.SavePayload | frontend/src/components/StoreSummary.jsx:49-54 | A save sends the typed text fields and the parsed price. The same code is at GroceryList.jsx:43-48. |
| ItemEditing.AfterSave | frontend/src/components/StoreSummary.jsx:47-69 | A successful save closes the editor. A failed one leaves the edit state as it was. |
| ItemEditing.EditSaveRoundTrip | frontend/src/components/StoreSummary.jsx:32-54 | Saving an untouched edit sends the item's own fields back, whenever the price text parses back to the price. |
| ItemEditing.EditThenLeave | frontend/src/components/GroceryList.jsx:26-64 | Cancelling, or saving successfully, returns to the state before editing. A failed save keeps the editor open. |
| GroceryListView.GroupByDateCorrect | frontend/src/components/GroceryList.jsx:95-102 | Every item is in exactly one date group, the one keyed by its own date string, in input order. |
| GroceryListView.OrderByDateCorrect | frontend/src/components/GroceryList.jsx:135-136 | The date groups are shown newest first, with none lost or repeated. |
| GroceryListView.Render | frontend/src/components/GroceryList.jsx:82-92 | The empty state is shown exactly when there are no items. Otherwise the header counts every item. |
| GroceryListView.CountMatchesGroups | frontend/src/components/GroceryList.jsx:130-137 | The header count equals the number of items the date groups show. |
| MockStore.FindIndex | frontend/src/mock.js:90 | The first position holding the id, or none exactly when no item has it. |
| MockStore.GetGroceryItems | frontend/src/mock.js:73-75 | The copy returned equals the current list. |
| MockStore.AddGroceryItem | frontend/src/mock.js:78-86 | Adding appends exactly one item with the old `nextId` and today's date, increments `nextId`, and leaves existing items as they were. |
| MockStore.UpdateGroceryItem | frontend/src/mock.js:89-96 | An absent id is refused with no change, and a present id always succeeds. Only the first match changes: given fields override, the rest are kept. |
| MockStore.DeleteGroceryItem | frontend/src/mock.js:99-106 | An absent id is refused with no change, and a present id always succeeds. Exactly the first match is removed and returned, and the rest keep their order. |
| MockStore.InitialValid | frontend/src/mock.js:2-69 | The seeded list (ids 1 to 8, `nextId` 9) has distinct ids, all below `nextId`. |
| MockStore.AddPreservesValid | frontend/src/mock.js:78-86 | Adding keeps the ids distinct and below `nextId`. |
| MockStore.UpdatePreservesValid | frontend/src/mock.js:89-96 | Updating keeps the ids distinct and below `nextId`. |
| MockStore.DeletePreservesValid | frontend/src/mock.js:99-106 | Deleting keeps the ids distinct and below `nextId`. |
| MockStore.AddThenDelete | frontend/src/mock.js:78-106 | Deleting the item just added returns that item and restores the list. Only `nextId` has moved on. |
| MockStore.UpdateHitsTheItem | frontend/src/mock.js:89-96 | In a valid store, updating an existing id changes exactly that item and returns its new value. |
| MockStore.DeleteHitsTheItem | frontend/src/mock.js:99-106 | In a valid store, deleting an existing id removes exactly that item, wherever it is, and returns it. |
| GroceryForm.Validate | frontend/src/components/GroceryForm.jsx:35-69 | A missing field is reported first. A non-positive or unparsable quantity is reported next, then such a price. An accepted draft carries the name, the store, "value unit" as quantity and the parsed positive price. |
| GroceryForm.ValidateAccepts | frontend/src/components/GroceryForm.jsx:35-60 | The form submits exactly when all four fields are filled and both numbers parse to positive values. A price of 0 is refused. |
| GroceryForm.AfterSubmit | frontend/src/components/GroceryForm.jsx:71-88 | A successful add resets the form to empty fields with unit "kg". A failure keeps the form. |
| GroceryForm.ResetFormIsRefused | frontend/src/components/GroceryForm.jsx:35-42 | The reset form cannot be submitted again without input. |
| GroceryForm.SubmitAddsItem | frontend/src/components/GroceryForm.jsx:64-69 | Submitting an accepted form to the mock store adds exactly one item with the typed fields, the joined quantity, a positive price, the next id and today's date. |
| ReceiptScanner.MatchStoreName | frontend/src/components/ReceiptScanner.jsx:37-81 | A missing or empty name matches nothing. Any match is one of the eight store options. Each stage is characterised by the lemmas below. |
| ReceiptScanner.ExactMatchWins | frontend/src/components/ReceiptScanner.jsx:40-47 | A name that trims and lower-cases to an option's lower-case form selects that option. |
| ReceiptScanner.FirstOverlapWins | frontend/src/components/ReceiptScanner.jsx:50-60 | Without an exact match, the first option in list order that contains, or is contained in, the normalised name is chosen. |
| ReceiptScanner.BlankNameIsTesco | frontend/src/components/ReceiptScanner.jsx:38-60 | A non-empty, whitespace-only name selects "Tesco": it normalises to the empty string, which every option contains. |
| ReceiptScanner.EmptyNameIsTesco | frontend/src/components/ReceiptScanner.jsx:50-60 | The empty normalised name is matched by the first option. |
| ReceiptScanner.VariationsSelectBigFour | frontend/src/components/ReceiptScanner.jsx:63-78 | The variations stage can only pick Tesco, Asda, Aldi or Lidl. |
| ReceiptScanner.NoOptionFallsToVariations | frontend/src/components/ReceiptScanner.jsx:40-78 | When the normalised name overlaps no option, so neither the exact nor the containment stage fires, the result is what the spellings stage gives. |
| ReceiptScanner.VariationsStageDecides | frontend/src/components/ReceiptScanner.jsx:63-80 | The spellings stage selects the first store, in table order, that has a spelling containing or contained in the name. If no store has one, the matcher returns null. |
| ReceiptScanner.FirstStoreStep | frontend/src/components/ReceiptScanner.jsx:70-77 | The first store of the table is chosen when one of its spellings overlaps the name, and skipped otherwise. |
| ReceiptScanner.VariationsSelectAt | frontend/src/components/ReceiptScanner.jsx:70-77 | The store at index k is chosen when it has an overlapping spelling and no earlier store has one. |
| ReceiptScanner.VariationsSelectNone | frontend/src/components/ReceiptScanner.jsx:70-77 | When no store has an overlapping spelling, nothing is chosen. |
| ReceiptScanner.VariationsSelectFirst | frontend/src/components/ReceiptScanner.jsx:70-77 | Over any spellings table whose keys name options, the first entry with an overlapping spelling is chosen. Without one, nothing is chosen. |
| ReceiptScanner.SpellingsSelect | frontend/src/components/ReceiptScanner.jsx:71-76 | One store's spellings select that store exactly when some spelling overlaps the name. |
| ReceiptScanner.CheckFile | frontend/src/components/ReceiptScanner.jsx:94-111 | A file is accepted exactly when its type starts with "image/" and it is at most 10·1024·1024 bytes. The type test comes first. |
| ReceiptScanner.AutoSelect | frontend/src/components/ReceiptScanner.jsx:137-141 | A store is chosen only for a non-empty extracted name other than "Unknown Store", and only one the matcher accepts. |
| ReceiptScanner.UnknownStoreNeverSelected | frontend/src/components/ReceiptScanner.jsx:137-141 | A fallback scan, or one whose merchant defaulted to "Unknown Store", never selects a store. |
| ReceiptScanner.Transform | frontend/src/components/ReceiptScanner.jsx:186-190 | Each field is the first truthy candidate: name is itemName, then name, then "Unknown Item". Quantity falls back to "1 pcs". Price is price, then total_price, then 0. |
| ReceiptScanner.HandleConfirmItems | frontend/src/components/ReceiptScanner.jsx:172-190 | Confirmation is refused unless there is a scan and a chosen store. An accepted request carries that store and one transformed item per scanned item, in order. |
| ReceiptScanner.ConfirmKeepsParsedItems | frontend/src/components/ReceiptScanner.jsx:186-190 | Confirming a backend scan keeps each parsed item's price and non-empty quantity, and its name unless it is empty. |
| ReceiptProcessor.FallbackWith | backend/services/receipt_processor.py:55-66 | The fallback result has store "Unknown Store", no items, total 0, confidence 0.1 and an unclear store. |
| ReceiptProcessor.ToReceiptItem | backend/services/receipt_processor.py:131-143 | A missing description, quantity or price defaults to "Unknown Item", 1 or 0. The quantity text ends in " pcs". Each item carries the merchant name as store. |
| ReceiptProcessor.ToReceiptItems | backend/services/receipt_processor.py:128-143 | There is exactly one output item per analysed item, in order. |
| ReceiptProcessor.ParseAnalysis | backend/services/receipt_processor.py:114-154 | No documents gives the fallback. Any document gives a parsed result, built from the first document: the merchant (default "Unknown Store"), the total (default 0) and confidence 0.9. Item k is entry k's description (default "Unknown Item"), its quantity with " pcs" (default "1") and its total price (default 0), under that store. |
| ReceiptProcessor.ProcessReceipt | backend/services/receipt_processor.py:160-181 | A preprocessing failure or an analysis failure gives the fallback, with the matching error text. Otherwise the parsed analysis is returned. |
| ReceiptProcessor.ProcessedItemsCarryStore | backend/services/receipt_processor.py:114-181 | Every result either is a fallback with no items and an unclear store, or lists only items of its own store. |
| Login.StepKeepsOneMode | frontend/src/components/Login.jsx:324-369 | No action sets a second mode flag, because each link is offered only in modes it cannot clash with. |
| Login.RunKeepsOneMode | frontend/src/components/Login.jsx:324-369 | Any sequence of actions keeps at most one mode flag set. |
| Login.ReachableHasOneMode | frontend/src/components/Login.jsx:17-19 | Every state reachable from the initial card has at most one mode. |
| Login.Validate | frontend/src/components/Login.jsx:41-84 | Forgot mode needs the email. Reset mode needs the token and the password. Sign-in needs the username and password, and sign-up also the email. The message names the first missing field. |
| Login.RequestOf | frontend/src/components/Login.jsx:88-101 | Each mode posts only its own fields. |
| Login.FailureMessage | frontend/src/components/Login.jsx:159 | The message is the first non-empty of detail and message, else "Operation failed". |
| Login.TitleNamesMode | frontend/src/components/Login.jsx:181-186 | With at most one mode set, the title names that mode. |
| Login.ForgotThenReset | frontend/src/components/Login.jsx:117-132 | A forgot request answered with a token moves to reset mode with the token filled in. Without a token the mode stays. |
| Login.SuccessReturnsToSignIn | frontend/src/components/Login.jsx:133-147 | A successful reset or sign-up lands on plain sign-in with an empty form. A reset also drops the token. |
| Login.SignInNeedsCredentials | frontend/src/components/Login.jsx:64-73 | The user is signed in only from plain sign-in mode, with both fields filled and an accepted reply. |
| Login.FailureKeepsMode | frontend/src/components/Login.jsx:158-166 | A refused submission changes only the message, which is never empty. |
| Login.TypingClearsError | frontend/src/components/Login.jsx:25-34 | Typing in a shown field clears the message. Typing the token does not. |
| UserManagement.AddRequest | frontend/src/components/UserManagement.jsx:42-52 | A user is created exactly when both username and password are filled. The role is never checked. |
| UserManagement.AfterAdd | frontend/src/components/UserManagement.jsx:51-58 | A successful add resets the form to role "user" and hides it. A failure changes nothing. |
| UserManagement.HandleEditUser | frontend/src/components/UserManagement.jsx:69-71 | The editor opens on the listed user with an empty password. |
| UserManagement.BuildUpdateData | frontend/src/components/UserManagement.jsx:77-85 | The update always carries username and role. It carries the password exactly when one was typed. |
| UserManagement.SaveRequest | frontend/src/components/UserManagement.jsx:73-87 | Nothing is sent when no user is being edited. |
| UserManagement.AfterSaveEdit | frontend/src/components/UserManagement.jsx:87-92 | A successful save closes the editor. |
| UserManagement.EditWithoutPasswordKeepsHash | frontend/src/components/UserManagement.jsx:69-87 | Opening a user and saving without a password changes no stored hash. It never meets "No fields to update". |
| UserManagement.EditWithPasswordSetsHash | frontend/src/components/UserManagement.jsx:77-87 | Saving with a typed password, as an admin, stores the hash of exactly that password for the user. |
| Server.TokenExpiry | backend/server.py:92-98 | A token expires at now plus the given delta, or 15 minutes later when none is given. |
| Server.LoginTokenExpiry | backend/server.py:154-162 | Login tokens live 30 minutes, twice the default. |
| Server.RequireAdmin | backend/server.py:117-123 | Admin routes pass exactly the role "admin". Any other role, or none, gets 403. |
| Server.CheckUpload | backend/server.py:324-340 | An upload passes exactly when it has a name whose lower-cased text after the last '.' is jpg, jpeg or png, and it is at most 10 MiB. An oversized allowed file gets 413, every other refusal 400. |
| Server.ExtensionIsLastPart | backend/server.py:327 | The extension is the lower-cased text after the last dot. |
| Server.NoDotIsOwnExtension | backend/server.py:327 | A name with no dot is its own extension. |
| Server.RegisterPublic | backend/server.py:170-191 | As written. Registration succeeds exactly when all three fields are filled, Python's `re.match` of the pattern accepts the email (one final line feed allowed), and username and email are free. It then adds one user with role "user". Any refusal is a 400 and changes nothing, and a rejected email reads "Invalid email format". |
| Server.RegisterPublicIntended | backend/server.py:170-191 | Corrected version: the same, but the whole email must match the pattern, so a stored email never ends in a line feed. |
| Server.RegisterStoresTrailingLineFeed | backend/server.py:178-184 | With free credentials, "ab@cd.ef\n" is stored as written. The corrected endpoint refuses it as "Invalid email format". |
| Server.RegisterAgreesAwayFromLineFeed | backend/server.py:178-179 | On every email not ending in a line feed, the endpoint as written and the corrected one give the same reply and database. |
| Server.RegisterMakesPlainUsers | backend/server.py:182-183 | Public registration never creates an admin. |
| Server.ResetPasswordEndpoint | backend/server.py:233-250 | A password under 6 characters is refused with 400 before the token is looked at. Otherwise the reset succeeds exactly when the table accepts the token, and a refused token is a 400 "Invalid or expired reset token". |
| Server.ShortPasswordKeepsToken | backend/server.py:236-240 | A refused short password leaves the token as usable as before. |
| Server.UpdateUserEndpoint | backend/server.py:258-277 | Non-admins get 403 with no change. Otherwise the request succeeds exactly when the table update does. A failure is a 400 carrying the table's message and changes nothing. |
| Server.DeleteUserEndpoint | backend/server.py:279-300 | Non-admins get 403 and an admin deleting their own id gets 400. Otherwise the request succeeds exactly when the user exists, and an unknown id gets 404 "User not found". |
| Server.CallerSurvivesDelete | backend/server.py:285-290 | The calling admin's own row is never removed. |
| Server.AddAll | backend/server.py:380-391 | Each item becomes one appended row with the request's store, in order. Entry k gets the k-th generated id and the date and creation time read at its own insert. Each insert commits on its own, so the loop stops at the first entry whose generated id is taken and keeps the rows already inserted. |
| Server.ConfirmReceiptItems | backend/server.py:359-416 | Corrected version: no items is a 400 and changes nothing. A save appends one row per item, all under the request's store (default "Unknown Store") and the caller's id. Each row's date and creation time are read from the clock at its own insert. The total is the sum of total_price and the count is the number of items. Any other failure is a 500 that keeps the rows inserted before it. If an insert failed, those are the rows before the entry whose id was taken. If the scan record failed, they are all the rows. |
| Server.ConfirmReceiptItemsAsWritten | backend/server.py:367-416 | As written: the 400 for no items is caught by the catch-all and resurfaces as a 500. |
| Server.EmptyItemsStatus | backend/server.py:373-374 | No items gives 500 as written and 400 once corrected. With items, both versions agree. |
| Server.LastConfirmedListedFirst | backend/server.py:380-391 | When the clock moves forward between inserts and the caller's earlier rows are older, the caller's listing after a save starts with the last item confirmed, as `ORDER BY created_at DESC` puts it. |
| Server.TotalCoversEachRow | backend/server.py:392-401 | With non-negative prices, no saved row costs more than the reported total. |
| EmailPattern.CheckIsPattern | backend/server.py:178 | The direct character-by-character test accepts exactly the strings the pattern describes: a local part of [A-Za-z0-9._%+-], '@', a domain of [A-Za-z0-9.-], '.', and at least two letters. |
| EmailPattern.AsWrittenIsPython | backend/server.py:178-179 | `re.match` with `$` accepts a matching body, optionally followed by one final line feed. |
| EmailPattern.EmailMatchesIntended | backend/server.py:178-179 | The corrected test accepts exactly the pattern, never a trailing line feed. Away from a final line feed it agrees with the code as written. |
| EmailPattern.TrailingLineFeedAccepted | backend/server.py:178-179 | "ab@cd.ef\n" passes the pattern as written and fails the corrected test. |
| EmailPattern.BodyEndsInLetter | backend/server.py:178 | An accepted address ends in a letter. |
| Accounts.Conflict | backend/database.py:24-27 | The email is reported taken when it is given and some user has it. The username is reported taken only when the email is free and some user has that username. SQLite checks UNIQUE indexes in reverse declaration order, and `email` is declared after `username`. |
| Accounts.IntegrityMessage | backend/database.py:183-194 | An integrity error whose lower-cased text mentions "email" reads "Email already exists". Any other reads "Username already exists". |
| Accounts.CreateUser | backend/database.py:159-194 | Creation succeeds exactly when there is no conflict, and then appends one user with the next id and the password's hash. A refusal changes nothing and maps the reported constraint's error text to its message. |
| Accounts.UsernameRegisteredOnce | backend/database.py:183-194 | After a successful creation, a second with the same username is refused and changes nothing. The reply is "Email already exists" when its email is held by any user, including the first, and "Username already exists" otherwise. |
| Accounts.BothTakenReportsEmail | backend/database.py:183-189 | Creating a user with an existing user's username and email is refused as "Email already exists". |
| Accounts.CreatePreservesValid | backend/database.py:159-194 | Creation keeps the table valid. Valid means: ids and usernames are unique, emails are unique where present, ids lie between 1 and the next id, and reset tokens are unique. |
| Accounts.UpdateFields | backend/database.py:347-362 | Exactly the given fields are set, in the order username, password, role. |
| Accounts.UpdateUser | backend/database.py:339-391 | No fields gives "No fields to update" and an unknown id gives "User not found". A clashing username is refused. Success overwrites only the given fields of that user, and every failure leaves the table unchanged. |
| Accounts.UpdatePreservesValid | backend/database.py:339-391 | Updating keeps the table valid. |
| Accounts.DeleteUser | backend/database.py:393-415 | Deleting succeeds exactly when the user exists. It removes only that user, keeps every other one, and names the deleted user in the message. |
| Accounts.DeletePreservesValid | backend/database.py:393-415 | Deleting keeps the table valid. |
| Accounts.CreatePasswordResetToken | backend/database.py:244-262 | A fresh token is stored for the user, expiring one hour after now. A token already in the table cannot be inserted. |
| Accounts.VerifyResetToken | backend/database.py:264-287 | An unknown, used or expired token gives nothing. Otherwise the result is the token's user. |
| Accounts.TokenValidForOneHour | backend/database.py:244-287 | A new token verifies to its user until exactly one hour after creation, and not after. |
| Accounts.ResetPassword | backend/database.py:289-320 | A reset succeeds exactly when the token verifies to a user. It then sets that user's hash and marks the token used. A failure changes nothing. |
| Accounts.ResetIsOneShot | backend/database.py:289-320 | After a successful reset, the same token no longer verifies and a second reset with it fails. |
| Accounts.ResetPreservesValid | backend/database.py:289-320 | A reset keeps the table valid. |
| Accounts.UserIdZeroIsRefused | backend/database.py:293-298 | A token that belongs to user id 0 is treated as invalid, because the truthiness test treats 0 as false. |
| GroceryTable.AddGroceryItem | backend/database.py:557-587 | Missing fields default to "Unknown Item", "Unknown Store", "1 kg", price 0 and today's date. The row gets the caller's id and the creation time and is appended. A taken id makes the insert fail. |
| GroceryTable.AddPreservesValid | backend/database.py:557-587 | Adding keeps row ids unique. |
| GroceryTable.GetGroceryItems | backend/database.py:589-610 | Only the caller's rows are listed, newest first, up to the limit. No row is listed more often than it occurs in the table. |
| GroceryTable.GetReturnsAll | backend/database.py:589-610 | Under the limit, the listing holds exactly the caller's rows. |
| GroceryTable.GetKeepsNewest | backend/database.py:589-610 | A row cut off by the limit is no newer than any listed row. |
| GroceryTable.NewestListedFirst | backend/database.py:589-610 | Rows appended with increasing creation times, the last newer than all the caller's rows: the caller's listing starts with the last appended row. |
| GroceryTable.AddThenGet | backend/database.py:557-610 | A row just added appears in the owner's listing when there is room under the limit. |
| GroceryTable.UpdateGroceryItem | backend/database.py:612-646 | The update finds nothing exactly when no row matches both id and user, and then nothing changes. Otherwise the first matching row in the table becomes the returned item: given fields override, and id, owner, date and creation time stay. Every matching row gets the four written columns, and no other row changes. |
| GroceryTable.UpdateWritesTheRow | backend/database.py:618-646 | With unique ids, the caller's row of that id is rewritten with the given fields. The row in the table equals the row returned. |
| GroceryTable.UpdatePreservesValid | backend/database.py:612-646 | Updating keeps row ids unique. |
| GroceryTable.UpdateIsScoped | backend/database.py:617-622 | Another user's row cannot be updated. |
| GroceryTable.DeleteGroceryItem | backend/database.py:648-654 | The delete reports true exactly when a row matching id and user existed. Only such rows go, and a miss changes nothing. |
| GroceryTable.DeletePreservesValid | backend/database.py:648-654 | Deleting keeps row ids unique. |
| GroceryTable.DeleteIsScoped | backend/database.py:648-654 | A delete never changes any other user's listing. |
| GroceryTable.AddIsScoped | backend/database.py:557-610 | Adding never changes any other user's listing. |
| Config.Load | backend/config.py:15-33 | Each setting is its variable or its default. The CORS origins split at every comma, and joining them gives the variable back. |
| Config.Validate | backend/config.py:65-80 | Outside production nothing is checked. In production the key passes exactly when it is not the development default and has at least 32 characters, and the default key gets its own message. Errors come without warnings. A warning appears exactly when an Azure setting is empty, or the joined origins mention localhost. |
| Config.Starts | backend/config.py:98-104 | The settings module loads exactly when validation raises no error. |
| Config.EnvironmentDefaults | backend/config.py:15-67 | An unset environment is development, not production, and starts with no warnings. |
| Config.DefaultKeyNeedsEqualityTest | backend/config.py:69-73 | The default key is long enough to pass the length test, so only the equality test keeps it out of production. |
| Config.CorsWarningFollowsVariable | backend/config.py:26-29 | In production the localhost warning follows whether the raw variable contains "localhost". |
| Config.DefaultOriginsWarn | backend/config.py:26-29 | In production the default origins set off the localhost warning. |
| Flows.ConfirmedScanIsSaved | backend/server.py:367-413 | Confirming a scan with a store either fails with a 500 or saves one row per scanned item, in order. Each row has the chosen store, the caller's id and the transformed name, quantity and price. |
| Flows.ShortResetShowsServerDetail | backend/server.py:236-240 | A short new password sent from the reset card is refused with 400 and no change. The card shows the server's message and stays in reset mode with the token kept. |

## Left out

- Network, rendering and I/O: `fetch`, toasts, `localStorage`, the FastAPI
  routing, dependency injection and middleware, the Azure HTTP call and its
  polling loop, image preprocessing and base64 encoding. Only their inputs
  and outputs appear, as parameters.
- JWT encoding and decoding, SHA-256, `secrets.token_urlsafe` and
  `uuid.uuid4`: all library calls, each replaced by a parameter.
- SQL text, connections, schema creation and migration. The tables are
  sequences of rows. The SQLite integrity error is modelled by the unique
  username and email constraint, with its text as a parameter.
- `get_user_activity_stats`, `authenticate_user`, `get_user_by_email`,
  `get_users`, the status-check endpoints, the admin registration endpoint,
  `forgot_password`, and the thin grocery endpoints around the table
  functions. They pass values through or aggregate in SQL.
- `save_receipt_scan` and the `scan_id` it returns: confirmation models the
  rows added, the total and count that go into the scan record, and whether
  saving the record raised, but not the record itself.
- `App.js`, `AdminDashboard.jsx`, `init_database.py` and `start_server.py`:
  view switching, display of server-computed statistics, and scripts.
- The date formatting in the list (Today/Yesterday, `toLocaleDateString`) and
  `new Date(...)`, which is the parameter `day`.
- Settings other than the environment, key, CORS origins and Azure
  endpoint/key (database path, host, port, log level, rate limits, upload
  size, allowed extensions): none of them reaches `validate`.
- Compare.PercentageBounds: the percentage is the unrounded real. The
  `toFixed(1)` string and its rounding are not modelled, because they are
  floating-point display.
- Grouping.GroupByCorrect: the source reduces into a plain `{}`. An item
  name such as "constructor" or "__proto__" finds an inherited, truthy
  value, so `Compare` throws a TypeError at `.push`. The model groups every
  name, because prototype lookup is not modelled.
- StoreAggregate.GetStoreSummaryCorrect: a store named "toString",
  "constructor", "valueOf" or another inherited key makes the live and mock
  `getStoreSummary` throw at `.items.push`. The model summarises such a store
  like any other.
- Compare.CompareComplete: the comparison key is lower-cased on ASCII
  letters only. JavaScript's full Unicode `toLowerCase` merges names such
  as "ÄPFEL" and "äpfel" into one group, which the model keeps apart. The
  same holds for Compare.CompareEmits and Compare.CompareSound.
- StoreAggregate.GetStoreSummaryCorrect: summaries come in first-seen store
  order. JavaScript enumerates integer-like object keys first, in numeric
  order, and that ordering is not modelled. The same holds for the name
  groups in `Compare` and the date groups in `GroceryListView`. The date
  groups are then sorted, so only the order of equal dates is affected.
- ReceiptScanner.MatchStoreName: `toLowerCase` is modelled on ASCII letters
  only. `trim` uses the JavaScript whitespace set.
- Server.CheckUpload: the same ASCII-only lower-casing applies to the
  extension. The read of the file content is the parameter `size`.
- GroceryForm.Validate: `parseFloat` is the parameter `parse`. Its NaN
  result is `None`, and its prefix-parsing quirks are not modelled.
- ItemEditing.SavePayload: `parseFloat` of the price box is the parameter
  `parse`. A NaN price is `None`, which the source would send as NaN.
- ReceiptProcessor.ParseAnalysis: the `except` branch for malformed
  responses is not modelled. Fields are already optional values, so the
  parse cannot raise. `float(...)` is the identity on reals.
- GroceryTable.GetGroceryItems: SQLite fixes no order among rows with equal
  `created_at`. The model lists them in table order, which is one order the
  database may choose, and its contract promises only the descending order.
- Server.ConfirmReceiptItems: `float(...)` of `total_price` is assumed to
  succeed. Items are records with optional fields. An insert fails only
  when its generated id is already taken, and `insertError` is that error's
  text. A failing `save_receipt_scan` is the parameter `scanError`. Either
  way the rows already inserted stay in the table. The scan record itself is
  not modelled.
- Accounts.VerifyResetToken: timestamps are whole seconds compared as
  integers, where the source parses ISO strings.
- Config.Validate: the printed warnings are modelled as a list of messages,
  without the emoji prefix. The printed configuration error is not modelled.
- Floating-point arithmetic in general: prices and sums are exact reals.

## Findings

| source | as written | input that shows it | evidently intended | confidence | as-written member | corrected member |
|---|---|---|---|---|---|---|
| backend/server.py:373-416 | The 400 raised for an empty `items` list is caught by `except Exception` and re-raised as a 500 "Failed to add items: 400: No items provided". | a body `{"items": []}` | a 400 "No items provided" reply | not executed | Server.ConfirmReceiptItemsAsWritten, Server.EmptyItemsStatus | Server.ConfirmReceiptItems |
| backend/server.py:178-179 | `re.match` with a trailing `$` also matches just before a final line feed, so an email ending in "\n" is accepted and stored. | the email "ab@cd.ef\n" | the email is refused as "Invalid email format" | not executed | EmailPattern.EmailMatchesAsWritten, EmailPattern.TrailingLineFeedAccepted, Server.RegisterPublic, Server.RegisterStoresTrailingLineFeed | EmailPattern.EmailMatches, EmailPattern.EmailMatchesIntended, Server.RegisterPublicIntended |

=== FILE: accounts.dfy ===
/** The backend's `users` and `password_reset_tokens` tables with the account
    operations of the database layer: creating, updating and deleting users,
    and the password-reset token lifecycle. Clock values are whole seconds
    passed in; `hash` stands for SHA-256 and the token text for
    `secrets.token_urlsafe`. Each operation returns the database after the call
    and the `{success, message}` pair the source returns. */
module Accounts {
  import opened Wrappers
  import opened Seqs
  import opened Text

  datatype User = User(id: int, username: string, email: Option<string>, passwordHash: string, role: string)

  datatype ResetToken = ResetToken(userId: int, token: string, expiresAt: int, createdAt: int, used: bool)

  /** `nextUserId` is the next AUTOINCREMENT value of `users.id`. */
  datatype Db = Db(users: seq<User>, nextUserId: int, tokens: seq<ResetToken>)

  datatype Reply = Reply(db: Db, success: bool, message: string)

  /** Which UNIQUE constraint of `users` an insert violates. */
  datatype Violation = UsernameTaken | EmailTaken

  /** A reset token stays valid for one hour. */
  const ResetTokenLifetime: int := 60 * 60

  const InvalidToken: string := "Invalid or expired reset token"

  /** The table constraints: positive, distinct ids below the AUTOINCREMENT
      counter; UNIQUE usernames; UNIQUE emails where present; UNIQUE tokens. */
  ghost predicate Valid(db: Db) {
    && db.nextUserId >= 1
    && (forall i :: 0 <= i < |db.users| ==> 1 <= db.users[i].id < db.nextUserId)
    && (forall i, j :: 0 <= i < j < |db.users| ==> db.users[i].id != db.users[j].id)
    && (forall i, j :: 0 <= i < j < |db.users| ==> db.users[i].username != db.users[j].username)
    && (forall i, j :: 0 <= i < j < |db.users| && db.users[i].email.Some? ==> db.users[i].email != db.users[j].email)
    && TokensUnique(db.tokens)
  }

  ghost predicate TokensUnique(tokens: seq<ResetToken>) {
    forall i, j :: 0 <= i < j < |tokens| ==> tokens[i].token != tokens[j].token
  }

  // ---------------------------------------------------------------------------
  // create_user

  /** The constraint a new user would break. SQLite checks a table's UNIQUE
      indexes in reverse order of declaration, and `email` is declared after
      `username`, so a taken email is the one reported when both are taken. */
  function Conflict(db: Db, username: string, email: Option<string>): (r: Option<Violation>)
    ensures r == Some(EmailTaken) <==> email.Some? && exists i :: 0 <= i < |db.users| && db.users[i].email == email
    ensures r == Some(UsernameTaken) <==>
              && (email.None? || forall i :: 0 <= i < |db.users| ==> db.users[i].email != email)
              && exists i :: 0 <= i < |db.users| && db.users[i].username == username
  {
    if email.Some? && exists i :: 0 <= i < |db.users| && db.users[i].email == email then Some(EmailTaken)
    else if exists i :: 0 <= i < |db.users| && db.users[i].username == username then Some(UsernameTaken)
    else None
  }

  /** The message for a failed insert: decided by whether the lower-cased
      database error text mentions `email`. */
  function IntegrityMessage(error: string): (r: string)
    ensures r == "Email already exists" || r == "Username already exists"
    ensures r == "Email already exists" <==> exists i :: OccursAt(Lower(error), "email", i)
  {
    ContainsIff(Lower(error), "email");
    if Contains(Lower(error), "email") then "Email already exists" else "Username already exists"
  }

  /** `create_user`: inserts the user with the next id and the password's hash,
      or reports the violated constraint through `errorText`, the database's
      error text for it. */
  function CreateUser(db: Db, username: string, password: string, role: string, email: Option<string>,
                      hash: string -> string, errorText: Violation -> string): (r: Reply)
    ensures r.success <==> Conflict(db, username, email).None?
    ensures !r.success ==> r.db == db && r.message == IntegrityMessage(errorText(Conflict(db, username, email).value))
    ensures r.success ==> r.message == "User created successfully"
    ensures r.success ==>
              && r.db.users == db.users + [User(db.nextUserId, username, email, hash(password), role)]
              && r.db.nextUserId == db.nextUserId + 1 && r.db.tokens == db.tokens
  {
    match Conflict(db, username, email)
    case Some(v) => Reply(db, false, IntegrityMessage(errorText(v)))
    case None =>
      var u := User(db.nextUserId, username, email, hash(password), role);
      Reply(db.(users := db.users + [u], nextUserId := db.nextUserId + 1), true, "User created successfully")
  }

  // ---------------------------------------------------------------------------
  // update_user

  /** The position of a column in `update_user`'s SET clause order. */
  function Rank(column: string): int {
    if column == "username" then 0 else if column == "password_hash" then 1 else 2
  }

  /** The columns of the SET clause: one per given field, in the order
      username, password hash, role. */
  function UpdateFields(username: Option<string>, password: Option<string>, role: Option<string>): (r: seq<string>)
    ensures "username" in r <==> username.Some?
    ensures "password_hash" in r <==> password.Some?
    ensures "role" in r <==> role.Some?
    ensures forall c :: c in r ==> c in ["username", "password_hash", "role"]
    ensures forall i, j :: 0 <= i < j < |r| ==> Rank(r[i]) < Rank(r[j])
  {
    (if username.Some? then ["username"] else [])
    + (if password.Some? then ["password_hash"] else [])
    + (if role.Some? then ["role"] else [])
  }

  /** The row after the update: given fields replace stored ones. */
  function Overwrite(u: User, username: Option<string>, password: Option<string>, role: Option<string>, hash: string -> string): User {
    u.(username := username.GetOr(u.username),
       passwordHash := if password.Some? then hash(password.value) else u.passwordHash,
       role := role.GetOr(u.role))
  }

  /** `update_user`: with nothing to set it fails first; an id no row carries
      touches nothing (`rowcount == 0`); a username another user holds fails
      the UNIQUE constraint; otherwise only that user's given fields change. */
  function UpdateUser(db: Db, userId: int, username: Option<string>, password: Option<string>, role: Option<string>,
                      hash: string -> string): (r: Reply)
    ensures UpdateFields(username, password, role) == [] ==> r == Reply(db, false, "No fields to update")
    ensures (UpdateFields(username, password, role) != [] && forall i :: 0 <= i < |db.users| ==> db.users[i].id != userId)
              ==> r == Reply(db, false, "User not found")
    ensures r.success <==>
              && UpdateFields(username, password, role) != []
              && (exists i :: 0 <= i < |db.users| && db.users[i].id == userId)
              && !UsernameClash(db, userId, username)
    ensures !r.success ==> r.db == db
    ensures r.success ==>
              && r.message == "User updated successfully"
              && r.db.tokens == db.tokens && r.db.nextUserId == db.nextUserId && |r.db.users| == |db.users|
              && forall j :: 0 <= j < |db.users| ==>
                   r.db.users[j] == if db.users[j].id == userId then Overwrite(db.users[j], username, password, role, hash) else db.users[j]
  {
    if UpdateFields(username, password, role) == [] then Reply(db, false, "No fields to update")
    else if forall i :: 0 <= i < |db.users| ==> db.users[i].id != userId then Reply(db, false, "User not found")
    else if UsernameClash(db, userId, username) then Reply(db, false, "Username already exists")
    else
      var users := Map(db.users, (u: User) => if u.id == userId then Overwrite(u, username, password, role, hash) else u);
      Reply(db.(users := users), true, "User updated successfully")
  }

  /** The new username already belongs to a different user. */
  predicate UsernameClash(db: Db, userId: int, username: Option<string>) {
    username.Some? && exists i :: 0 <= i < |db.users| && db.users[i].id != userId && db.users[i].username == username.value
  }

  // ---------------------------------------------------------------------------
  // delete_user

  /** `delete_user`: removes the user with that id and names them in the
      message, or fails with "User not found". Reset tokens are left alone. */
  function DeleteUser(db: Db, userId: int): (r: Reply)
    ensures r.success <==> exists i :: 0 <= i < |db.users| && db.users[i].id == userId
    ensures !r.success ==> r == Reply(db, false, "User not found")
    ensures r.success ==>
              && r.db.tokens == db.tokens && r.db.nextUserId == db.nextUserId
              && (forall i :: 0 <= i < |r.db.users| ==> r.db.users[i] in db.users && r.db.users[i].id != userId)
              && (forall i :: 0 <= i < |db.users| && db.users[i].id != userId ==> db.users[i] in r.db.users)
              && exists i :: 0 <= i < |db.users| && db.users[i].id == userId
                   && r.message == "User '" + db.users[i].username + "' deleted successfully"
  {
    match FirstWhere(db.users, (u: User) => u.id == userId)
    case None => Reply(db, false, "User not found")
    case Some(i) =>
      var kept := Filter(db.users, (u: User) => u.id != userId);
      Reply(db.(users := kept), true, "User '" + db.users[i].username + "' deleted successfully")
  }

  // ---------------------------------------------------------------------------
  // Password-reset tokens

  /** `create_password_reset_token`: a new unused token for `userId` that
      expires one hour from `now`; `None` when the token text is already in
      the table, where the insert raises. */
  function CreatePasswordResetToken(db: Db, userId: int, token: string, now: int): (r: Option<Db>)
    ensures r.None? <==> exists i :: 0 <= i < |db.tokens| && db.tokens[i].token == token
    ensures r.Some? ==> r.value.users == db.users && r.value.nextUserId == db.nextUserId
    ensures r.Some? ==> r.value.tokens == db.tokens + [ResetToken(userId, token, now + ResetTokenLifetime, now, false)]
  {
    if exists i :: 0 <= i < |db.tokens| && db.tokens[i].token == token then None
    else Some(db.(tokens := db.tokens + [ResetToken(userId, token, now + ResetTokenLifetime, now, false)]))
  }

  function TokenIs(token: string): ResetToken -> bool {
    (t: ResetToken) => t.token == token
  }

  /** `verify_reset_token`: the token's user while the token is unused and
      its expiry is not before `now`. */
  function VerifyResetToken(db: Db, token: string, now: int): (r: Option<int>)
    ensures (forall i :: 0 <= i < |db.tokens| ==> db.tokens[i].token != token) ==> r.None?
    ensures r.Some? ==> exists i :: 0 <= i < |db.tokens| && db.tokens[i].token == token
                          && !db.tokens[i].used && now <= db.tokens[i].expiresAt && db.tokens[i].userId == r.value
    ensures TokensUnique(db.tokens) ==>
              forall i :: 0 <= i < |db.tokens| && db.tokens[i].token == token ==>
                r == if !db.tokens[i].used && now <= db.tokens[i].expiresAt then Some(db.tokens[i].userId) else None
  {
    match FirstWhere(db.tokens, TokenIs(token))
    case None => None
    case Some(i) =>
      if db.tokens[i].used then None
      else if db.tokens[i].expiresAt < now then None
      else Some(db.tokens[i].userId)
  }

  /** `reset_password`: a token that verifies to a (truthy, so non-zero) user
      id sets that user's password hash and marks the token used; any other
      token fails and changes nothing. */
  function ResetPassword(db: Db, token: string, newPassword: string, hash: string -> string, now: int): (r: Reply)
    ensures r.success <==> VerifyResetToken(db, token, now).Some? && VerifyResetToken(db, token, now).value != 0
    ensures !r.success ==> r == Reply(db, false, InvalidToken)
    ensures r.success ==>
              var uid := VerifyResetToken(db, token, now).value;
              && r.message == "Password reset successfully"
              && r.db.nextUserId == db.nextUserId
              && |r.db.users| == |db.users| && |r.db.tokens| == |db.tokens|
              && (forall j :: 0 <= j < |db.users| ==>
                    r.db.users[j] == if db.users[j].id == uid then db.users[j].(passwordHash := hash(newPassword)) else db.users[j])
              && (forall j :: 0 <= j < |db.tokens| ==>
                    r.db.tokens[j] == if db.tokens[j].token == token then db.tokens[j].(used := true) else db.tokens[j])
  {
    match VerifyResetToken(db, token, now)
    case None => Reply(db, false, InvalidToken)
    case Some(uid) =>
      if uid == 0 then Reply(db, false, InvalidToken)
      else
        var users := Map(db.users, (u: User) => if u.id == uid then u.(passwordHash := hash(newPassword)) else u);
        var tokens := Map(db.tokens, (t: ResetToken) => if t.token == token then t.(used := true) else t);
        Reply(Db(users, db.nextUserId, tokens), true, "Password reset successfully")
  }

  // ---------------------------------------------------------------------------
  // Properties

  lemma {:induction false} CreatePreservesValid(db: Db, username: string, password: string, role: string, email: Option<string>,
                             hash: string -> string, errorText: Violation -> string)
    requires Valid(db)
    ensures Valid(CreateUser(db, username, password, role, email, hash, errorText).db)
  {
  }

  /** A username can be registered once: a second attempt fails and changes
      nothing. When the database's texts name their column, the reply is
      "Email already exists" if the second email is held by a user (the first
      one included), and "Username already exists" otherwise. */
  lemma {:induction false} UsernameRegisteredOnce(db: Db, username: string, password: string, role: string, email: Option<string>,
                               hash: string -> string, errorText: Violation -> string,
                               password2: string, email2: Option<string>)
    requires forall i :: !OccursAt(Lower(errorText(UsernameTaken)), "email", i)
    requires exists i :: OccursAt(Lower(errorText(EmailTaken)), "email", i)
    ensures var first := CreateUser(db, username, password, role, email, hash, errorText);
            var second := CreateUser(first.db, username, password2, role, email2, hash, errorText);
            var emailHeld := email2.Some? && exists i :: 0 <= i < |first.db.users| && first.db.users[i].email == email2;
            first.success ==>
              second == Reply(first.db, false, if emailHeld then "Email already exists" else "Username already exists")
  {
    var first := CreateUser(db, username, password, role, email, hash, errorText);
    if first.success {
      assert first.db.users[|db.users|].username == username;
    }
  }

  /** Registering again with an existing user's username and email is
      refused with the email message, as SQLite reports `users.email`. */
  lemma {:induction false} BothTakenReportsEmail(db: Db, k: nat, password: string, role: string,
                              hash: string -> string, errorText: Violation -> string)
    requires k < |db.users| && db.users[k].email.Some?
    requires exists i :: OccursAt(Lower(errorText(EmailTaken)), "email", i)
    ensures CreateUser(db, db.users[k].username, password, role, db.users[k].email, hash, errorText)
            == Reply(db, false, "Email already exists")
  {
    assert Conflict(db, db.users[k].username, db.users[k].email) == Some(EmailTaken);
  }

  lemma {:induction false} UpdatePreservesValid(db: Db, userId: int, username: Option<string>, password: Option<string>, role: Option<string>,
                             hash: string -> string)
    requires Valid(db)
    ensures Valid(UpdateUser(db, userId, username, password, role, hash).db)
  {
    var r := UpdateUser(db, userId, username, password, role, hash);
    if r.success {
      RenameKeepsValid(db, r.db, userId, username);
    }
  }

  /** A table whose rows keep their ids and emails and where only the rows of
      `userId` may take the username `name`, free among the other rows, stays valid. */
  lemma {:induction false} RenameKeepsValid(db: Db, db': Db, userId: int, name: Option<string>)
    requires Valid(db) && !UsernameClash(db, userId, name)
    requires db'.tokens == db.tokens && db'.nextUserId == db.nextUserId && |db'.users| == |db.users|
    requires forall k :: 0 <= k < |db.users| ==> db'.users[k].id == db.users[k].id && db'.users[k].email == db.users[k].email
    requires forall k :: 0 <= k < |db.users| && db.users[k].id != userId ==> db'.users[k] == db.users[k]
    requires forall k :: 0 <= k < |db.users| && db.users[k].id == userId ==> db'.users[k].username == name.GetOr(db.users[k].username)
    ensures Valid(db')
  {
    var us, us' := db.users, db'.users;
    forall i, j | 0 <= i < j < |us'| ensures us'[i].username != us'[j].username {
      if us[i].id == userId {
        assert us[j].id != userId;
      } else if us[j].id == userId {
        assert us[i].id != userId;
      }
    }
  }

  lemma {:induction false} DeletePreservesValid(db: Db, userId: int)
    requires Valid(db)
    ensures Valid(DeleteUser(db, userId).db)
  {
    var r := DeleteUser(db, userId);
    if r.success {
      FilterKeepsUsersValid(db, (u: User) => u.id != userId);
    }
  }

  /** Two rows of `users` that may both be in the table. */
  predicate Compatible(x: User, y: User) {
    x.id != y.id && x.username != y.username && (x.email.Some? ==> x.email != y.email)
  }

  lemma {:induction false} FilterKeepsUsersValid(db: Db, p: User -> bool)
    requires Valid(db)
    ensures Valid(db.(users := Filter(db.users, p)))
  {
    assert forall a, b :: 0 <= a < b < |db.users| ==> Compatible(db.users[a], db.users[b]);
    FilterKeepsPairs(db.users, p, Compatible);
    var t := Filter(db.users, p);
    assert forall i :: 0 <= i < |t| ==> t[i] in db.users;
  }

  /** A fresh token verifies to its user exactly until one hour after it was
      created, and not after. */
  lemma {:induction false} TokenValidForOneHour(db: Db, userId: int, token: string, now: int, later: int)
    requires Valid(db)
    requires forall i :: 0 <= i < |db.tokens| ==> db.tokens[i].token != token
    ensures CreatePasswordResetToken(db, userId, token, now).Some?
    ensures var db' := CreatePasswordResetToken(db, userId, token, now).value;
            VerifyResetToken(db', token, later) == if later <= now + 3600 then Some(userId) else None
  {
    var db' := CreatePasswordResetToken(db, userId, token, now).value;
    assert db'.tokens[|db.tokens|].token == token;
    assert TokensUnique(db'.tokens);
  }

  /** A token resets a password at most once: afterwards it no longer
      verifies, and a second reset fails without changing anything. */
  lemma {:induction false} ResetIsOneShot(db: Db, token: string, p1: string, p2: string, hash: string -> string, now: int, later: int)
    ensures var r := ResetPassword(db, token, p1, hash, now);
            r.success ==>
              && VerifyResetToken(r.db, token, later).None?
              && ResetPassword(r.db, token, p2, hash, later) == Reply(r.db, false, InvalidToken)
  {
    var r := ResetPassword(db, token, p1, hash, now);
    if r.success {
      var v := VerifyResetToken(r.db, token, later);
    }
  }

  /** A reset with a verifying token of a stored user changes exactly that
      user's password hash and keeps the table constraints. */
  lemma {:induction false} ResetPreservesValid(db: Db, token: string, newPassword: string, hash: string -> string, now: int)
    requires Valid(db)
    ensures Valid(ResetPassword(db, token, newPassword, hash, now).db)
  {
    var r := ResetPassword(db, token, newPassword, hash, now);
    if r.success {
      assert forall j :: 0 <= j < |db.users| ==>
        (r.db.users[j].id == db.users[j].id && r.db.users[j].username == db.users[j].username
         && r.db.users[j].email == db.users[j].email);
      assert forall j :: 0 <= j < |db.tokens| ==> r.db.tokens[j].token == db.tokens[j].token;
    }
  }

  /** Python's `not user_id` also refuses user id 0: a live token issued for
      id 0 never resets anything. */
  lemma {:induction false} UserIdZeroIsRefused(db: Db, token: string, newPassword: string, hash: string -> string, now: int)
    requires VerifyResetToken(db, token, now) == Some(0)
    ensures ResetPassword(db, token, newPassword, hash, now) == Reply(db, false, InvalidToken)
  {
  }
}

=== FILE: compare.dfy ===
/** The cross-store price comparator of the Compare view: items are grouped by
    lower-cased, trimmed name; groups bought at fewer than two distinct stores
    are dropped; each remaining group's cheapest and most expensive purchase is
    read off a stable ascending sort by price; groups without a positive price
    spread are dropped; the result is ordered by savings, highest first. */
module Compare {
  import opened Wrappers
  import opened Seqs
  import opened Grouping
  import opened Sorting
  import opened Items
  import Text

  /** `item.itemName.toLowerCase().trim()`. */
  function NameKey(x: GroceryItem): string { Text.Normalize(x.itemName) }

  /** The distinct store strings of a group, compared exactly. */
  function Stores(g: seq<GroceryItem>): set<string> {
    set x | x in g :: x.store
  }

  /** `new Set(itemGroup.map(item => item.store)).size > 1`. */
  predicate HasSeveralStores(g: seq<GroceryItem>) {
    |Stores(g)| > 1
  }

  /** The unrounded `(savings / mostExpensive.price) * 100`; JavaScript yields
      Infinity when the divisor is 0, which needs a negative price to happen. */
  datatype Percentage = Finite(value: real) | Infinite

  datatype Comparison = Comparison(
    itemName: string,
    cheapest: GroceryItem,
    mostExpensive: GroceryItem,
    savings: real,
    savingsPercentage: Percentage,
    allStores: seq<GroceryItem>,
    storeCount: nat)

  function NegPrice(x: GroceryItem): real { -x.price }

  function SavingsOf(c: Comparison): real { c.savings }

  /** `[...itemGroup].sort((a, b) => a.price - b.price)`: a stable ascending
      sort, i.e. a stable descending sort on the negated price. */
  function SortedByPrice(g: seq<GroceryItem>): (r: seq<GroceryItem>)
    ensures |r| == |g|
  {
    SortDesc(g, NegPrice)
  }

  /** Reference definition: the position of the earliest item of minimal price. */
  function CheapestIndex(g: seq<GroceryItem>): (i: nat)
    requires |g| > 0
    ensures i < |g|
    ensures forall j :: 0 <= j < |g| ==> g[i].price <= g[j].price
    ensures forall j :: 0 <= j < i ==> g[j].price > g[i].price
  {
    if |g| == 1 then 0
    else
      var k := CheapestIndex(g[..|g| - 1]);
      if g[|g| - 1].price < g[k].price then |g| - 1 else k
  }

  /** Reference definition: the position of the latest item of maximal price. */
  function MostExpensiveIndex(g: seq<GroceryItem>): (i: nat)
    requires |g| > 0
    ensures i < |g|
    ensures forall j :: 0 <= j < |g| ==> g[j].price <= g[i].price
    ensures forall j :: i < j < |g| ==> g[j].price < g[i].price
  {
    if |g| == 1 then 0
    else
      var k := MostExpensiveIndex(g[..|g| - 1]);
      if g[|g| - 1].price >= g[k].price then |g| - 1 else k
  }

  /** The spread of a group: highest price minus lowest price. */
  function Spread(g: seq<GroceryItem>): real
    requires |g| > 0
  {
    g[MostExpensiveIndex(g)].price - g[CheapestIndex(g)].price
  }

  function Percent(savings: real, mostExpensivePrice: real): Percentage {
    if savings > 0.0 then
      (if mostExpensivePrice == 0.0 then Infinite else Finite(savings / mostExpensivePrice * 100.0))
    else Finite(0.0)
  }

  /** The `.map` stage: one comparison built from a non-empty group. */
  function Summarize(g: seq<GroceryItem>): Comparison
    requires |g| > 0
  {
    var sorted := SortedByPrice(g);
    var cheapest := sorted[0];
    var mostExpensive := sorted[|sorted| - 1];
    var savings := mostExpensive.price - cheapest.price;
    Comparison(g[0].itemName, cheapest, mostExpensive, savings,
               Percent(savings, mostExpensive.price), g, |g|)
  }

  /** The first `.filter` stage: groups seen at two or more distinct stores. */
  function ComparableGroups(gs: seq<Group<string, GroceryItem>>): (r: seq<Group<string, GroceryItem>>)
    ensures forall g :: g in r <==> g in gs && HasSeveralStores(g.members)
  {
    if |gs| == 0 then []
    else (if HasSeveralStores(gs[0].members) then [gs[0]] else []) + ComparableGroups(gs[1..])
  }

  function Summaries(gs: seq<Group<string, GroceryItem>>): (r: seq<Comparison>)
    requires forall g :: g in gs ==> |g.members| > 0
    ensures forall c :: c in r <==> exists g :: g in gs && c == Summarize(g.members)
  {
    if |gs| == 0 then []
    else [Summarize(gs[0].members)] + Summaries(gs[1..])
  }

  /** The second `.filter` stage: comparisons with a positive price spread. */
  function WithSavings(cs: seq<Comparison>): (r: seq<Comparison>)
    ensures forall c :: c in r <==> c in cs && c.savings > 0.0
  {
    if |cs| == 0 then []
    else (if cs[0].savings > 0.0 then [cs[0]] else []) + WithSavings(cs[1..])
  }

  /** The comparisons before the final sort, in group-discovery order. */
  function Unsorted(items: seq<GroceryItem>): seq<Comparison> {
    GroupByCorrect(items, NameKey);
    var gs := ComparableGroups(GroupBy(items, NameKey));
    WithSavings(Summaries(gs))
  }

  /** `comparableItems`: the whole pipeline, ending with the stable sort by savings, highest first. */
  function CompareAcrossStores(items: seq<GroceryItem>): seq<Comparison> {
    SortDesc(Unsorted(items), SavingsOf)
  }

  /** `totalPotentialSavings`. */
  function TotalPotentialSavings(cs: seq<Comparison>): real {
    Sum(cs, SavingsOf)
  }

  // ---------------------------------------------------------------------------
  // Properties

  /** The stable ascending sort puts the earliest cheapest item first. */
  lemma {:induction false} SortedFirstIsCheapest(g: seq<GroceryItem>)
    requires |g| > 0
    ensures SortedByPrice(g)[0] == g[CheapestIndex(g)]
  {
    SortedFirst(g, NegPrice, CheapestIndex(g));
  }

  /** The stable ascending sort puts the latest most expensive item last. */
  lemma {:induction false} SortedLastIsMostExpensive(g: seq<GroceryItem>)
    requires |g| > 0
    ensures SortedByPrice(g)[|g| - 1] == g[MostExpensiveIndex(g)]
  {
    SortedLast(g, NegPrice, MostExpensiveIndex(g));
  }

  /** What every emitted comparison satisfies, stated against the input. */
  ghost predicate Sound(items: seq<GroceryItem>, c: Comparison) {
    && |c.allStores| > 0
    // the group is exactly the input items sharing one normalised name, in input order
    && c.allStores == Select(items, NameKey, NameKey(c.allStores[0]))
    && c.itemName == c.allStores[0].itemName
    && c.storeCount == |c.allStores|
    && |Stores(c.allStores)| >= 2
    // cheapest: earliest of minimal price; most expensive: latest of maximal price
    && c.cheapest == c.allStores[CheapestIndex(c.allStores)]
    && c.mostExpensive == c.allStores[MostExpensiveIndex(c.allStores)]
    && c.savings == c.mostExpensive.price - c.cheapest.price
    && c.savings > 0.0
  }

  /** The fields `Summarize` reads off the sorted group, by the reference definitions. */
  lemma {:induction false} SummarizeFields(g: seq<GroceryItem>)
    requires |g| > 0
    ensures Summarize(g).cheapest == g[CheapestIndex(g)]
    ensures Summarize(g).mostExpensive == g[MostExpensiveIndex(g)]
    ensures Summarize(g).savings == Spread(g)
    ensures Summarize(g).allStores == g
  {
    SortedFirstIsCheapest(g);
    SortedLastIsMostExpensive(g);
  }

  lemma {:induction false} SummarizeSound(items: seq<GroceryItem>, g: Group<string, GroceryItem>)
    requires g.members == Select(items, NameKey, g.key) && g.members != []
    requires HasSeveralStores(g.members)
    requires Summarize(g.members).savings > 0.0
    ensures Sound(items, Summarize(g.members))
  {
    SummarizeFields(g.members);
    assert NameKey(g.members[0]) == g.key;
  }

  /** Every emitted comparison is sound. */
  lemma {:induction false} CompareSound(items: seq<GroceryItem>)
    ensures forall c :: c in CompareAcrossStores(items) ==> Sound(items, c)
  {
    GroupByCorrect(items, NameKey);
    forall c | c in CompareAcrossStores(items) ensures Sound(items, c) {
      OutputMembers(items, c);
      var g :| g in GroupBy(items, NameKey) && HasSeveralStores(g.members) && c == Summarize(g.members) && c.savings > 0.0;
      SummarizeSound(items, g);
    }
  }

  /** The output is ordered by savings, highest first, and equal savings keep
      their group-discovery order. */
  lemma {:induction false} CompareOrdered(items: seq<GroceryItem>)
    ensures NonIncreasing(CompareAcrossStores(items), SavingsOf)
    ensures forall v :: Select(CompareAcrossStores(items), SavingsOf, v) == Select(Unsorted(items), SavingsOf, v)
  {
    SortDescCorrect(Unsorted(items), SavingsOf);
  }

  /** Membership in the output, stage by stage: the final sort only permutes,
      so a comparison is emitted exactly when it summarises a comparable group
      with positive savings. */
  lemma {:induction false} OutputMembers(items: seq<GroceryItem>, c: Comparison)
    ensures c in CompareAcrossStores(items) <==>
              exists g :: g in GroupBy(items, NameKey) && HasSeveralStores(g.members)
                          && c == Summarize(g.members) && c.savings > 0.0
  {
    var u := Unsorted(items);
    SortDescCorrect(u, SavingsOf);
    assert c in CompareAcrossStores(items) <==> c in multiset(u);
  }

  /** A normalised name gets a comparison exactly when its items were bought at
      two or more distinct stores and their prices are not all equal. */
  lemma {:induction false} CompareComplete(items: seq<GroceryItem>, k: string)
    ensures (exists c :: c in CompareAcrossStores(items) && Text.Normalize(c.itemName) == k)
        <==> (var g := Select(items, NameKey, k); |g| > 0 && HasSeveralStores(g) && Spread(g) > 0.0)
  {
    var sel := Select(items, NameKey, k);
    if exists c :: c in CompareAcrossStores(items) && Text.Normalize(c.itemName) == k {
      var c :| c in CompareAcrossStores(items) && Text.Normalize(c.itemName) == k;
      CompareSound(items);
      assert Sound(items, c);
      assert c.allStores == sel;
    }
    if |sel| > 0 && HasSeveralStores(sel) && Spread(sel) > 0.0 {
      CompareEmits(items, k);
    }
  }

  lemma {:induction false} CompareEmits(items: seq<GroceryItem>, k: string)
    requires var g := Select(items, NameKey, k); |g| > 0 && HasSeveralStores(g) && Spread(g) > 0.0
    ensures exists c :: c in CompareAcrossStores(items) && Text.Normalize(c.itemName) == k
  {
    var g := GroupOf(items, k);
    var c := Summarize(g.members);
    SummarizeFields(g.members);
    OutputMembers(items, c);
    assert c in CompareAcrossStores(items);
    assert c.allStores[0] == g.members[0];
    assert Text.Normalize(c.itemName) == k;
  }

  /** The group of a key that some item carries. */
  lemma {:induction false} GroupOf(items: seq<GroceryItem>, k: string) returns (g: Group<string, GroceryItem>)
    requires |Select(items, NameKey, k)| > 0
    ensures g in GroupBy(items, NameKey) && g.key == k && g.members == Select(items, NameKey, k)
  {
    GroupByCorrect(items, NameKey);
    var gs := GroupBy(items, NameKey);
    var sel := Select(items, NameKey, k);
    assert sel[0] in items;
    assert k in KeysOf(gs);
    var i :| 0 <= i < |gs| && KeysOf(gs)[i] == k;
    g := gs[i];
  }

  /** With non-negative prices, every emitted percentage is finite and lies in
      (0, 100], reaching 100 exactly when the cheapest price is 0. */
  lemma {:induction false} PercentageBounds(items: seq<GroceryItem>)
    requires PricesNonNegative(items)
    ensures forall c :: c in CompareAcrossStores(items) ==>
              && c.savingsPercentage.Finite?
              && 0.0 < c.savingsPercentage.value <= 100.0
              && (c.savingsPercentage.value == 100.0 <==> c.cheapest.price == 0.0)
  {
    CompareSound(items);
    GroupByCorrect(items, NameKey);
    var u := Unsorted(items);
    SortDescCorrect(u, SavingsOf);
    forall c | c in CompareAcrossStores(items)
      ensures c.savingsPercentage.Finite?
      ensures 0.0 < c.savingsPercentage.value <= 100.0
      ensures c.savingsPercentage.value == 100.0 <==> c.cheapest.price == 0.0
    {
      assert c in multiset(u);
      var g :| g in ComparableGroups(GroupBy(items, NameKey)) && c == Summarize(g.members);
      assert c.cheapest in items;
      PercentOfNonNegative(c.savings, c.cheapest.price, c.mostExpensive.price);
    }
  }

  lemma {:induction false} PercentOfNonNegative(savings: real, low: real, high: real)
    requires 0.0 <= low && savings == high - low && savings > 0.0
    ensures Percent(savings, high).Finite?
    ensures 0.0 < Percent(savings, high).value <= 100.0
    ensures Percent(savings, high).value == 100.0 <==> low == 0.0
  {
    var q := savings / high;
    assert q * high == savings;
    assert q <= 1.0;
  }

  /** The total potential savings is the sum of the savings, so it is positive
      exactly when there is something to compare. */
  lemma {:induction false} TotalSavingsPositive(items: seq<GroceryItem>)
    ensures CompareAcrossStores(items) != [] <==> TotalPotentialSavings(CompareAcrossStores(items)) > 0.0
  {
    CompareSound(items);
    SumPositive(CompareAcrossStores(items), SavingsOf);
  }
}

=== FILE: config.dfy ===
/** The backend's settings: the values read from the environment with their
    defaults, the two environment tests, and the start-up validation that
    refuses a weak signing key in production and only warns about the rest.
    The environment is the lookup function `getenv`. */
module Config {
  import opened Wrappers
  import opened Text

  const DefaultEnvironment := "development"
  const DefaultSecretKey := "dev-secret-key-change-in-production"
  const DefaultCorsOrigins := "http://localhost:3000,http://localhost:3001"
  const MinSecretKeyLength := 32

  const KeyUnchanged := "JWT_SECRET_KEY must be changed in production!"
  const KeyTooShort := "JWT_SECRET_KEY must be at least 32 characters long!"
  const AzureWarning := "Warning: Azure Document Intelligence not configured. Receipt scanning will not work."
  const CorsWarning := "Warning: localhost in CORS origins for production environment!"

  datatype Settings = Settings(
    environment: string,
    jwtSecretKey: string,
    corsOrigins: seq<string>,
    azureEndpoint: string,
    azureKey: string)

  /** The outcome of `validate`: the error it raises, if any, and the
      warnings it prints before returning. */
  datatype Report = Report(error: Option<string>, warnings: seq<string>)

  /** The class attributes: each variable or its default; the CORS origins
      are the variable split at every comma. */
  function Load(getenv: string -> Option<string>): (r: Settings)
    ensures r.environment == getenv("ENVIRONMENT").GetOr(DefaultEnvironment)
    ensures r.jwtSecretKey == getenv("JWT_SECRET_KEY").GetOr(DefaultSecretKey)
    ensures Join(r.corsOrigins, ",") == getenv("CORS_ORIGINS").GetOr(DefaultCorsOrigins)
    ensures forall i :: 0 <= i < |r.corsOrigins| ==> ',' !in r.corsOrigins[i]
  {
    var cors := getenv("CORS_ORIGINS").GetOr(DefaultCorsOrigins);
    SplitJoin(cors, ',');
    Settings(
      getenv("ENVIRONMENT").GetOr(DefaultEnvironment),
      getenv("JWT_SECRET_KEY").GetOr(DefaultSecretKey),
      Split(cors, ','),
      getenv("AZURE_DOCUMENT_INTELLIGENCE_ENDPOINT").GetOr(""),
      getenv("AZURE_DOCUMENT_INTELLIGENCE_KEY").GetOr(""))
  }

  predicate IsProduction(s: Settings) {
    s.environment == "production"
  }

  predicate IsDevelopment(s: Settings) {
    s.environment == "development"
  }

  /** `validate`: outside production nothing is checked; in production the
      default key and then a short key are errors, and a missing Azure
      setting or a localhost origin only print a warning. */
  function Validate(s: Settings): (r: Report)
    ensures !IsProduction(s) ==> r == Report(None, [])
    ensures IsProduction(s) ==>
              (r.error.None? <==> s.jwtSecretKey != DefaultSecretKey && |s.jwtSecretKey| >= MinSecretKeyLength)
    ensures IsProduction(s) && s.jwtSecretKey == DefaultSecretKey ==> r.error == Some(KeyUnchanged)
    ensures r.error.Some? ==> r.warnings == []
    ensures r.error.None? && IsProduction(s) ==>
              && (AzureWarning in r.warnings <==> s.azureEndpoint == "" || s.azureKey == "")
              && (CorsWarning in r.warnings <==> Contains(Join(s.corsOrigins, ","), "localhost"))
  {
    if !IsProduction(s) then Report(None, [])
    else if s.jwtSecretKey == DefaultSecretKey then Report(Some(KeyUnchanged), [])
    else if |s.jwtSecretKey| < MinSecretKeyLength then Report(Some(KeyTooShort), [])
    else
      var joined := Join(s.corsOrigins, ",");
      var azure := if s.azureEndpoint == "" || s.azureKey == "" then [AzureWarning] else [];
      var cors := if Contains(joined, "localhost") then [CorsWarning] else [];
      assert |AzureWarning| != |CorsWarning|;
      assert CorsWarning in azure + cors <==> CorsWarning in cors;
      assert AzureWarning in azure + cors <==> AzureWarning in azure;
      Report(None, azure + cors)
  }

  /** The import-time call: a validation error stops the server only in
      production, which is the only place one can arise. */
  function Starts(s: Settings): (r: bool)
    ensures r <==> Validate(s).error.None?
  {
    Validate(s).error.None? || !IsProduction(s)
  }

  /** The two environment tests never both hold, and an unset environment is
      development, which always starts. */
  lemma {:induction false} EnvironmentDefaults(getenv: string -> Option<string>)
    requires getenv("ENVIRONMENT").None?
    ensures IsDevelopment(Load(getenv)) && !IsProduction(Load(getenv))
    ensures Starts(Load(getenv)) && Validate(Load(getenv)).warnings == []
  {
  }

  /** The default key is long enough to pass the length test, so it is the
      equality test that keeps it out of production. */
  lemma {:induction false} DefaultKeyNeedsEqualityTest()
    ensures |DefaultSecretKey| >= MinSecretKeyLength
    ensures Validate(Settings("production", DefaultSecretKey, [], "e", "k")).error == Some(KeyUnchanged)
  {
  }

  /** In production the localhost warning appears exactly when the raw
      `CORS_ORIGINS` value mentions localhost, since joining the split
      origins with a comma gives the value back. */
  lemma {:induction false} CorsWarningFollowsVariable(getenv: string -> Option<string>)
    requires getenv("ENVIRONMENT") == Some("production")
    requires var key := getenv("JWT_SECRET_KEY").GetOr(DefaultSecretKey);
             key != DefaultSecretKey && |key| >= MinSecretKeyLength
    ensures var raw := getenv("CORS_ORIGINS").GetOr(DefaultCorsOrigins);
            CorsWarning in Validate(Load(getenv)).warnings <==> exists i :: OccursAt(raw, "localhost", i)
  {
    ContainsIff(getenv("CORS_ORIGINS").GetOr(DefaultCorsOrigins), "localhost");
  }

  /** With nothing configured but the environment and a good key, the
      default origins set off the localhost warning. */
  lemma {:induction false} DefaultOriginsWarn(getenv: string -> Option<string>)
    requires getenv("ENVIRONMENT") == Some("production") && getenv("CORS_ORIGINS").None?
    requires var key := getenv("JWT_SECRET_KEY").GetOr(DefaultSecretKey);
             key != DefaultSecretKey && |key| >= MinSecretKeyLength
    ensures CorsWarning in Validate(Load(getenv)).warnings
  {
    CorsWarningFollowsVariable(getenv);
    DefaultOriginsMentionLocalhost();
  }

  lemma {:induction false} DefaultOriginsMentionLocalhost()
    ensures OccursAt(DefaultCorsOrigins, "localhost", 7)
  {
    var w := "localhost";
    assert DefaultCorsOrigins == "http://" + w + ":3000,http://localhost:3001";
    assert DefaultCorsOrigins[7..16] == w;
  }
}

=== FILE: email_pattern.dfy ===
/** The registration endpoint's email check,
    `re.match(r'^[a-zA-Z0-9._%+-]+@[a-zA-Z0-9.-]+\.[a-zA-Z]{2,}$', email)`:
    the pattern's meaning as a decomposition of the string, a direct character-by-character test,
    and the proof that the two agree. */
module EmailPattern {
  import opened Text

  predicate Letter(c: char) {
    ('a' <= c <= 'z') || ('A' <= c <= 'Z')
  }

  predicate Alnum(c: char) {
    Letter(c) || ('0' <= c <= '9')
  }

  /** `[a-zA-Z0-9._%+-]` */
  predicate LocalChar(c: char) {
    Alnum(c) || c == '.' || c == '_' || c == '%' || c == '+' || c == '-'
  }

  /** `[a-zA-Z0-9.-]` */
  predicate DomainChar(c: char) {
    Alnum(c) || c == '.' || c == '-'
  }

  predicate AllLocal(s: string) { forall k :: 0 <= k < |s| ==> LocalChar(s[k]) }

  predicate AllDomain(s: string) { forall k :: 0 <= k < |s| ==> DomainChar(s[k]) }

  predicate AllLetters(s: string) { forall k :: 0 <= k < |s| ==> Letter(s[k]) }

  /** The pattern between the anchors matches all of `b`: a non-empty local
      part, `@` at `i`, a non-empty domain, the `.` at `j`, and at least two
      letters to the end. */
  predicate SplitsAt(b: string, i: int, j: int) {
    && 0 < i && i + 1 < j && j + 2 < |b| + 1
    && AllLocal(b[..i]) && b[i] == '@'
    && AllDomain(b[i + 1..j]) && b[j] == '.'
    && |b| - (j + 1) >= 2 && AllLetters(b[j + 1..])
  }

  ghost predicate PatternBody(b: string) {
    exists i, j :: SplitsAt(b, i, j)
  }

  /** What `re.match` with `^…$` accepts: `$` also matches just before a
      final line feed, so the body may be followed by one `"\n"`. */
  ghost predicate PythonMatch(s: string) {
    PatternBody(s) || (|s| > 0 && s[|s| - 1] == '\n' && PatternBody(s[..|s| - 1]))
  }

  /** The direct check: the top-level domain is the part after the last dot,
      the domain the part between the last `@` and that dot, and the local
      part whatever precedes the `@`. */
  predicate Check(b: string) {
    var t := AfterLast(b, '.');
    && |t| < |b| && |t| >= 2 && AllLetters(t)
    && var head := b[..|b| - |t| - 1];
       var d := AfterLast(head, '@');
       && |d| < |head| && |d| >= 1 && AllDomain(d)
       && var l := head[..|head| - |d| - 1];
          |l| >= 1 && AllLocal(l)
  }

  /** The check accepts exactly the strings the anchored pattern matches. */
  lemma {:induction false} CheckIsPattern(b: string)
    ensures Check(b) <==> PatternBody(b)
  {
    if Check(b) {
      CheckSplits(b);
    }
    if PatternBody(b) {
      var i, j :| SplitsAt(b, i, j);
      SplitIsChecked(b, i, j);
    }
  }

  /** The cut points the check finds are a decomposition of the pattern. */
  lemma {:induction false} CheckSplits(b: string)
    requires Check(b)
    ensures PatternBody(b)
  {
    var t := AfterLast(b, '.');
    var j := |b| - |t| - 1;
    var head := b[..j];
    var d := AfterLast(head, '@');
    var i := |head| - |d| - 1;
    assert head[..i] == b[..i];
    assert d == b[i + 1..j];
    assert t == b[j + 1..];
    assert SplitsAt(b, i, j);
  }

  /** Every decomposition is the one the check finds, so the check accepts. */
  lemma {:induction false} SplitIsChecked(b: string, i: int, j: int)
    requires SplitsAt(b, i, j)
    ensures Check(b)
  {
    LastDotAt(b, i, j);
    var t := AfterLast(b, '.');
    var head := b[..|b| - |t| - 1];
    assert head == b[..j];
    LastAtSignAt(b, i, j);
    var d := AfterLast(head, '@');
    var l := head[..|head| - |d| - 1];
    assert l == b[..i];
    assert |t| < |b| && |t| >= 2 && AllLetters(t);
    assert |d| < |head| && |d| >= 1 && AllDomain(d);
    assert |l| >= 1 && AllLocal(l);
  }

  /** The top-level domain of a decomposition is what follows the last dot. */
  lemma {:induction false} LastDotAt(b: string, i: int, j: int)
    requires SplitsAt(b, i, j)
    ensures AfterLast(b, '.') == b[j + 1..]
  {
    assert '.' !in b[j + 1..] by {
      forall k | j + 1 <= k < |b| ensures b[k] != '.' {
        assert Letter(b[j + 1..][k - j - 1]);
      }
    }
    AfterLastAt(b, '.', j);
  }

  /** The domain of a decomposition is what follows the last `@` before the dot. */
  lemma {:induction false} LastAtSignAt(b: string, i: int, j: int)
    requires SplitsAt(b, i, j)
    ensures AfterLast(b[..j], '@') == b[i + 1..j]
  {
    var head := b[..j];
    assert '@' !in head[i + 1..] by {
      forall k | i + 1 <= k < j ensures head[k] != '@' {
        assert DomainChar(b[i + 1..j][k - i - 1]);
      }
    }
    AfterLastAt(head, '@', i);
    assert head[i + 1..] == b[i + 1..j];
  }

  /** The accepted strings end in a letter. */
  lemma {:induction false} BodyEndsInLetter(b: string)
    requires PatternBody(b)
    ensures |b| > 0 && Letter(b[|b| - 1])
  {
    var i, j :| SplitsAt(b, i, j);
    assert b[|b| - 1] == b[j + 1..][|b| - 1 - (j + 1)];
  }

  /** `re.match` as written: the check on the string or on the string without
      one final line feed. */
  predicate EmailMatchesAsWritten(s: string) {
    Check(s) || (|s| > 0 && s[|s| - 1] == '\n' && Check(s[..|s| - 1]))
  }

  /** The evidently intended whole-string match. */
  predicate EmailMatches(s: string) {
    Check(s)
  }

  lemma {:induction false} AsWrittenIsPython(s: string)
    ensures EmailMatchesAsWritten(s) <==> PythonMatch(s)
  {
    CheckIsPattern(s);
    if |s| > 0 {
      CheckIsPattern(s[..|s| - 1]);
    }
  }

  /** No string ending in a line feed passes the intended check. */
  lemma {:induction false} FinalLineFeedRefused(s: string)
    requires |s| > 0 && s[|s| - 1] == '\n'
    ensures !EmailMatches(s)
  {
    CheckIsPattern(s);
    if PatternBody(s) {
      BodyEndsInLetter(s);
    }
  }

  /** The intended check never admits a line feed at the end, and it is the
      as-written check on every string that does not end in one. */
  lemma {:induction false} EmailMatchesIntended(s: string)
    ensures EmailMatches(s) <==> PatternBody(s)
    ensures EmailMatches(s) ==> s[|s| - 1] != '\n'
    ensures (|s| == 0 || s[|s| - 1] != '\n') ==> (EmailMatches(s) <==> EmailMatchesAsWritten(s))
  {
    CheckIsPattern(s);
    if EmailMatches(s) {
      BodyEndsInLetter(s);
    }
  }

  /** `"ab@cd.ef\n"` passes the pattern as written although it is not an
      email address of the intended shape. */
  lemma {:induction false} TrailingLineFeedAccepted()
    ensures EmailMatchesAsWritten("ab@cd.ef\n")
    ensures !EmailMatches("ab@cd.ef\n")
  {
    var s := "ab@cd.ef\n";
    var b := "ab@cd.ef";
    assert s[..|s| - 1] == b;
    assert SplitsAt(b, 2, 5) by {
      assert b[..2] == "ab" && b[3..5] == "cd" && b[6..] == "ef";
    }
    SplitIsChecked(b, 2, 5);
    FinalLineFeedRefused(s);
  }
}

=== FILE: flows.dfy ===
/** Two requests followed from the browser component that builds them to the
    endpoint that answers them: the scanner's confirmation saved by
    `confirm_receipt_items`, and the sign-in card's reset refused by
    `reset_password`. */
module Flows {
  import opened Wrappers
  import opened Seqs
  import ReceiptScanner
  import Server
  import Login
  import Accounts
  import GroceryTable

  /** The JSON body the scanner posts: every key is present. */
  function ToEntry(c: ReceiptScanner.ConfirmItem): Server.ConfirmEntry {
    Server.ConfirmEntry(Some(c.name), Some(c.quantity), Some(c.totalPrice))
  }

  function ToBody(req: ReceiptScanner.ConfirmRequest): (b: Server.ConfirmBody)
    ensures b.items.Some? && |b.items.value| == |req.items|
    ensures b.storeName == Some(req.storeName)
  {
    Server.ConfirmBody(Some(Map(req.items, ToEntry)), Some(req.storeName))
  }

  /** A confirmed scan that the table accepts is saved as one row per
      scanned item, in order, each under the chosen store with the
      transformed item's name, quantity and price, and the scan record
      counts every item. */
  lemma {:induction false} ConfirmedScanIsSaved(scan: seq<ReceiptScanner.ScannedItem>, store: string,
                             rows: seq<GroceryTable.Row>, userId: int,
                             uuid: nat -> string, today: nat -> string, now: nat -> int, insertError: string,
                             scanError: Option<string>)
    requires store != "" && scan != []
    ensures var req := ReceiptScanner.HandleConfirmItems(Some(scan), store);
            var r := Server.ConfirmReceiptItems(rows, ToBody(req.value), Some(userId), uuid, today, now, insertError, scanError);
            && req.Success?
            && (r.Saved? || r.error.status == 500)
            && (r.Saved? ==>
                  && r.itemsCount == |scan| == |r.added|
                  && r.rows == rows + r.added
                  && forall k :: 0 <= k < |scan| ==>
                       var c := ReceiptScanner.Transform(scan[k]);
                       && r.added[k].store == store && r.added[k].userId == userId
                       && r.added[k].itemName == c.name && r.added[k].quantity == c.quantity
                       && r.added[k].price == c.totalPrice)
  {
    var req := ReceiptScanner.HandleConfirmItems(Some(scan), store);
    var body := ToBody(req.value);
    var r := Server.ConfirmReceiptItems(rows, body, Some(userId), uuid, today, now, insertError, scanError);
    assert body.items.value != [];
    if r.Saved? {
      forall k | 0 <= k < |scan|
        ensures r.added[k].itemName == ReceiptScanner.Transform(scan[k]).name
        ensures r.added[k].price == ReceiptScanner.Transform(scan[k]).totalPrice
      {
        assert body.items.value[k] == ToEntry(req.value.items[k]);
      }
    }
  }

  /** A reset with a password under six characters, sent from the card with
      both fields filled, is refused by the endpoint with the database
      untouched; the card shows the endpoint's detail and stays in reset
      mode with the token kept for another try. */
  lemma {:induction false} ShortResetShowsServerDetail(s: Login.State, db: Accounts.Db, hash: string -> string, now: int)
    requires Login.AtMostOneMode(s) && s.isResetPassword
    requires s.resetToken != "" && s.form.password != "" && |s.form.password| < 6
    ensures var req := Login.RequestOf(s);
            var out := Server.ResetPasswordEndpoint(db, req.token, req.newPassword, hash, now);
            var t := Login.Step(s, Login.Submit(Login.NotOk(Some(out.error.value.detail), None)));
            && req.ResetRequest?
            && out.db == db && out.error.Some? && out.error.value.status == 400
            && t.errorMessage == "Password must be at least 6 characters long"
            && t.isResetPassword && t.resetToken == s.resetToken && t.form == s.form
  {
  }
}

=== FILE: grocery_form.dfy ===
/** The add-item form: its four validation checks in the order the handler runs
    them, the draft it builds from a valid form and the reset after a
    successful add. `parseFloat` is a parameter that yields `None` for NaN. */
module GroceryForm {
  import opened Wrappers
  import opened Items
  import MockStore

  datatype FormData = FormData(
    itemName: string,
    store: string,
    quantityValue: string,
    quantityUnit: string,
    price: string)

  /** What one press of the submit button leads to: one of the three refusal
      toasts, or a call to `onAdd` with the draft. */
  datatype Outcome = MissingInformation | InvalidQuantity | InvalidPrice | Submit(draft: ItemDraft)

  /** The form as first shown and as reset after an add. */
  function EmptyForm(): FormData {
    FormData("", "", "", "kg", "")
  }

  /** `parseFloat(s)` is a number greater than zero. */
  predicate Positive(parse: string -> Option<real>, s: string) {
    parse(s).Some? && parse(s).value > 0.0
  }

  /** The checks of `handleSubmit`, first failure wins: an empty field, then
      the quantity, then the price. The quantity unit is never checked. */
  function Validate(f: FormData, parse: string -> Option<real>): (r: Outcome)
    ensures r == MissingInformation <==> f.itemName == [] || f.store == [] || f.quantityValue == [] || f.price == []
    ensures r == InvalidQuantity <==>
              f.itemName != [] && f.store != [] && f.quantityValue != [] && f.price != []
              && !Positive(parse, f.quantityValue)
    ensures r == InvalidPrice <==>
              f.itemName != [] && f.store != [] && f.quantityValue != [] && f.price != []
              && Positive(parse, f.quantityValue) && !Positive(parse, f.price)
    ensures r.Submit? ==>
              && r.draft.itemName == f.itemName && r.draft.store == f.store
              && r.draft.quantity == f.quantityValue + " " + f.quantityUnit
              && parse(f.price) == Some(r.draft.price) && r.draft.price > 0.0
  {
    if f.itemName == [] || f.store == [] || f.quantityValue == [] || f.price == [] then MissingInformation
    else if !Positive(parse, f.quantityValue) then InvalidQuantity
    else if !Positive(parse, f.price) then InvalidPrice
    else Submit(ItemDraft(f.itemName, f.store, f.quantityValue + " " + f.quantityUnit, parse(f.price).value))
  }

  /** The form after `onAdd` settles: cleared on success, untouched on failure. */
  function AfterSubmit(f: FormData, succeeded: bool): (r: FormData)
    ensures succeeded ==> r == FormData([], [], [], "kg", [])
    ensures !succeeded ==> r == f
  {
    if succeeded then EmptyForm() else f
  }

  /** A form passes exactly when all four fields are filled in and both numbers
      parse to values above zero; a zero price is refused. */
  lemma {:induction false} ValidateAccepts(f: FormData, parse: string -> Option<real>)
    ensures Validate(f, parse).Submit? <==>
              && f.itemName != [] && f.store != [] && f.quantityValue != [] && f.price != []
              && Positive(parse, f.quantityValue) && Positive(parse, f.price)
    ensures parse(f.price) == Some(0.0) ==> !Validate(f, parse).Submit?
  {
  }

  /** Once an add has succeeded, pressing submit again on the cleared form is
      refused as missing information, whatever the parser does. */
  lemma {:induction false} ResetFormIsRefused(f: FormData, parse: string -> Option<real>)
    ensures Validate(AfterSubmit(f, true), parse) == MissingInformation
  {
  }

  /** A submitted draft reaches the in-memory store as the new last item with
      the draft's fields, the next id and today's date. */
  lemma {:induction false} SubmitAddsItem(f: FormData, parse: string -> Option<real>, st: MockStore.Store, today: string)
    requires Validate(f, parse).Submit?
    ensures var r := MockStore.AddGroceryItem(st, Validate(f, parse).draft, today);
            && |r.state.items| == |st.items| + 1
            && var added := r.state.items[|st.items|];
            && added.itemName == f.itemName && added.store == f.store
            && added.quantity == f.quantityValue + " " + f.quantityUnit
            && added.price > 0.0 && added.id == st.nextId && added.date == today
  {
  }
}

=== FILE: grocery_list.dfy ===
/** The grocery-list view: items grouped by their date string, the date groups
    ordered newest first, and the empty state. */
module GroceryListView {
  import opened Seqs
  import opened Grouping
  import opened Sorting
  import opened Items

  type DateGroup = Group<string, GroceryItem>

  /** The reduce into `groupedItems`, keyed by the exact `date` string. */
  function GroupByDate(items: seq<GroceryItem>): seq<DateGroup> {
    GroupBy(items, DateOf)
  }

  /** Every item sits in exactly one date group, the one keyed by its own date
      string, and each group keeps the input order of its items. */
  lemma {:induction false} GroupByDateCorrect(items: seq<GroceryItem>)
    ensures Partitions(GroupByDate(items), items, DateOf)
    ensures forall i, j :: 0 <= i < |GroupByDate(items)| && 0 <= j < |GroupByDate(items)[i].members| ==>
              GroupByDate(items)[i].members[j].date == GroupByDate(items)[i].key
  {
    GroupByCorrect(items, DateOf);
  }

  /** `Object.entries(groupedItems).sort(([a], [b]) => new Date(b) - new Date(a))`:
      `day` stands for `new Date(...)` read as a number. */
  function OrderByDate(groups: seq<DateGroup>, day: string -> real): (r: seq<DateGroup>)
    ensures |r| == |groups|
  {
    SortDesc(groups, (g: DateGroup) => day(g.key))
  }

  /** The date groups are shown newest first and none is lost or repeated. */
  lemma {:induction false} OrderByDateCorrect(groups: seq<DateGroup>, day: string -> real)
    ensures multiset(OrderByDate(groups, day)) == multiset(groups)
    ensures forall i, j :: 0 <= i < j < |groups| ==>
              day(OrderByDate(groups, day)[i].key) >= day(OrderByDate(groups, day)[j].key)
  {
    SortDescCorrect(groups, (g: DateGroup) => day(g.key));
  }

  /** What the list renders: the empty state, or the header count and the groups. */
  datatype ListView = NoItems | Listing(count: nat, groups: seq<DateGroup>)

  function Render(items: seq<GroceryItem>, day: string -> real): (v: ListView)
    ensures v.NoItems? <==> |items| == 0
    ensures v.Listing? ==> v.count == |items|
  {
    if |items| == 0 then NoItems else Listing(|items|, OrderByDate(GroupByDate(items), day))
  }

  /** The header count is the number of items the groups show. */
  lemma {:induction false} CountMatchesGroups(items: seq<GroceryItem>, day: string -> real)
    requires |items| > 0
    ensures Render(items, day).count == |Flatten(MembersOf(Render(items, day).groups))|
  {
    var gs := GroupByDate(items);
    GroupByCorrect(items, DateOf);
    OrderByDateCorrect(gs, day);
    var shown := OrderByDate(gs, day);
    FlattenPermutation(shown, gs);
    assert |multiset(Flatten(MembersOf(shown)))| == |Flatten(MembersOf(shown))|;
    assert |multiset(items)| == |items|;
  }
}

=== FILE: grocery_table.dfy ===
/** The backend's `grocery_items` table and its four per-user operations, over
    an in-memory sequence of rows. Every read and write is scoped by the
    caller's `user_id`; `id` is the table's primary key. The uuid, today's
    date and the current time are parameters. */
module GroceryTable {
  import opened Wrappers
  import opened Seqs
  import opened Sorting

  datatype Row = Row(
    id: string,
    itemName: string,
    store: string,
    quantity: string,
    price: real,
    date: string,
    createdAt: int,
    userId: int)

  /** The JSON body of an add or update: each key may be missing. */
  datatype ItemData = ItemData(
    itemName: Option<string>,
    store: Option<string>,
    quantity: Option<string>,
    price: Option<real>,
    date: Option<string>)

  /** The table after an add, and the row the call returns. */
  datatype Added = Added(rows: seq<Row>, item: Row)

  /** The table after an update, and the row returned (`None` when nothing matched). */
  datatype Updated = Updated(rows: seq<Row>, item: Option<Row>)

  /** The table after a delete, and whether a row was removed. */
  datatype Deleted = Deleted(rows: seq<Row>, deleted: bool)

  /** `get_grocery_items`' default `limit`. */
  const DefaultLimit: nat := 1000

  /** The primary key: no id occurs twice. */
  ghost predicate Valid(rows: seq<Row>) {
    forall i, j :: 0 <= i < j < |rows| ==> rows[i].id != rows[j].id
  }

  function OwnedBy(userId: int): Row -> bool {
    (x: Row) => x.userId == userId
  }

  /** `WHERE id = ? AND user_id = ?`. */
  function Matches(itemId: string, userId: int): Row -> bool {
    (x: Row) => x.id == itemId && x.userId == userId
  }

  function CreatedKey(x: Row): real { x.createdAt as real }

  /** `add_grocery_item`: missing fields take their defaults and the row is
      inserted; `None` when the generated id is already taken, where the
      insert raises. */
  function AddGroceryItem(rows: seq<Row>, data: ItemData, userId: int, uuid: string, today: string, now: int): (r: Option<Added>)
    ensures r.None? <==> exists i :: 0 <= i < |rows| && rows[i].id == uuid
    ensures r.Some? ==> r.value.rows == rows + [r.value.item]
    ensures r.Some? ==>
              var x := r.value.item;
              && x.id == uuid && x.userId == userId && x.createdAt == now
              && x.itemName == data.itemName.GetOr("Unknown Item")
              && x.store == data.store.GetOr("Unknown Store")
              && x.quantity == data.quantity.GetOr("1 kg")
              && x.price == data.price.GetOr(0.0)
              && x.date == data.date.GetOr(today)
  {
    if exists i :: 0 <= i < |rows| && rows[i].id == uuid then None
    else
      var x := Row(uuid, data.itemName.GetOr("Unknown Item"), data.store.GetOr("Unknown Store"),
                   data.quantity.GetOr("1 kg"), data.price.GetOr(0.0), data.date.GetOr(today), now, userId);
      Some(Added(rows + [x], x))
  }

  /** `get_grocery_items`: the caller's rows, newest `created_at` first, at most
      `limit` of them. The database does not fix an order among rows with equal
      `created_at`; the model's stable sort keeps their table order, one order
      the database may choose. */
  function GetGroceryItems(rows: seq<Row>, userId: int, limit: nat): (r: seq<Row>)
    ensures var n := |Filter(rows, OwnedBy(userId))|;
            |r| == if n <= limit then n else limit
    ensures forall i :: 0 <= i < |r| ==> r[i] in rows && r[i].userId == userId
    ensures NonIncreasing(r, CreatedKey)
    ensures multiset(r) <= multiset(Filter(rows, OwnedBy(userId)))
  {
    var s := SortDesc(Filter(rows, OwnedBy(userId)), CreatedKey);
    SortedOwnRows(rows, userId);
    if |s| <= limit then s
    else
      assert forall i :: 0 <= i < limit ==> s[..limit][i] == s[i];
      PrefixSubMultiset(s, limit);
      s[..limit]
  }

  /** Rows appended in clock order, the last newer than all the caller's
      rows: the caller's listing starts with the last appended row. */
  lemma {:induction false} NewestListedFirst(rows: seq<Row>, added: seq<Row>, userId: int, limit: nat)
    requires limit > 0 && added != []
    requires forall j :: 0 <= j < |added| ==> added[j].userId == userId
    requires forall j :: 0 <= j < |added| - 1 ==> added[j].createdAt < added[|added| - 1].createdAt
    requires forall i :: 0 <= i < |rows| && rows[i].userId == userId ==> rows[i].createdAt < added[|added| - 1].createdAt
    ensures var listed := GetGroceryItems(rows + added, userId, limit);
            listed != [] && listed[0] == added[|added| - 1]
  {
    var f := Filter(rows + added, OwnedBy(userId));
    NewestSortsFirst(rows, added, userId);
    var s := SortDesc(f, CreatedKey);
    assert GetGroceryItems(rows + added, userId, limit)[0] == s[0];
  }

  /** The sorting step of `NewestListedFirst`. */
  lemma {:induction false} NewestSortsFirst(rows: seq<Row>, added: seq<Row>, userId: int)
    requires added != []
    requires forall j :: 0 <= j < |added| ==> added[j].userId == userId
    requires forall j :: 0 <= j < |added| - 1 ==> added[j].createdAt < added[|added| - 1].createdAt
    requires forall i :: 0 <= i < |rows| && rows[i].userId == userId ==> rows[i].createdAt < added[|added| - 1].createdAt
    ensures var f := Filter(rows + added, OwnedBy(userId));
            f != [] && SortDesc(f, CreatedKey)[0] == added[|added| - 1]
  {
    var own := OwnedBy(userId);
    var earlier := Filter(rows, own);
    FilterAppend(rows, added, own);
    FilterAll(added, own);
    var f := earlier + added;
    var x := added[|added| - 1];
    forall j | 0 <= j < |f| - 1
      ensures CreatedKey(f[j]) < CreatedKey(x)
    {
      if j < |earlier| {
        assert f[j] == earlier[j];
        assert earlier[j] in rows && earlier[j].userId == userId;
        var i :| 0 <= i < |rows| && rows[i] == earlier[j];
      } else {
        assert f[j] == added[j - |earlier|];
      }
    }
    assert f[|f| - 1] == x;
    assert forall j :: 0 <= j < |f| ==> CreatedKey(f[j]) <= CreatedKey(f[|f| - 1]);
    SortedFirst(f, CreatedKey, |f| - 1);
  }

  /** A prefix holds no element more often than the whole sequence. */
  lemma {:induction false} PrefixSubMultiset<T>(s: seq<T>, k: nat)
    requires k <= |s|
    ensures multiset(s[..k]) <= multiset(s)
  {
    assert s == s[..k] + s[k..];
  }

  /** Sorting the caller's rows keeps them the caller's rows. */
  lemma {:induction false} SortedOwnRows(rows: seq<Row>, userId: int)
    ensures var s := SortDesc(Filter(rows, OwnedBy(userId)), CreatedKey);
            && (forall i :: 0 <= i < |s| ==> s[i] in rows && s[i].userId == userId)
            && NonIncreasing(s, CreatedKey)
            && multiset(s) == multiset(Filter(rows, OwnedBy(userId)))
  {
    var mine := Filter(rows, OwnedBy(userId));
    var s := SortDesc(mine, CreatedKey);
    SortDescCorrect(mine, CreatedKey);
    forall i | 0 <= i < |s| ensures s[i] in rows && s[i].userId == userId {
      assert s[i] in multiset(mine);
      var k :| 0 <= k < |mine| && mine[k] == s[i];
    }
  }

  /** `update_grocery_item`: when a row of that id belongs to the caller, its
      name, store, quantity and price take the given values or keep their
      own; id, date, creation time and owner never change. */
  function UpdateGroceryItem(rows: seq<Row>, itemId: string, data: ItemData, userId: int): (r: Updated)
    ensures r.item.None? <==> forall j :: 0 <= j < |rows| ==> !Matches(itemId, userId)(rows[j])
    ensures r.item.None? ==> r.rows == rows
    ensures |r.rows| == |rows|
    ensures r.item.Some? ==>
              exists i :: 0 <= i < |rows| && Matches(itemId, userId)(rows[i]) && Overrides(rows[i], data, r.item.value)
                          && r.rows[i] == r.item.value
    ensures r.item.Some? ==>
              forall j :: 0 <= j < |rows| && Matches(itemId, userId)(rows[j]) ==> Written(rows[j], r.item.value, r.rows[j])
    ensures forall j :: 0 <= j < |rows| && !Matches(itemId, userId)(rows[j]) ==> r.rows[j] == rows[j]
    ensures forall j :: 0 <= j < |rows| ==> SameIdentity(rows[j], r.rows[j])
  {
    match FirstWhere(rows, Matches(itemId, userId))
    case None => Updated(rows, None)
    case Some(i) =>
      var e := rows[i];
      var n := e.(itemName := data.itemName.GetOr(e.itemName), store := data.store.GetOr(e.store),
                  quantity := data.quantity.GetOr(e.quantity), price := data.price.GetOr(e.price));
      var rows' := Map(rows, (x: Row) => if Matches(itemId, userId)(x)
                                         then x.(itemName := n.itemName, store := n.store, quantity := n.quantity, price := n.price)
                                         else x);
      Updated(rows', Some(n))
  }

  /** `after` is `before` with the present fields of `data` written over it. */
  ghost predicate Overrides(before: Row, data: ItemData, after: Row) {
    && SameIdentity(before, after)
    && after.itemName == data.itemName.GetOr(before.itemName)
    && after.store == data.store.GetOr(before.store)
    && after.quantity == data.quantity.GetOr(before.quantity)
    && after.price == data.price.GetOr(before.price)
  }

  /** `after` is `before` with the four columns the UPDATE sets taken from `item`. */
  ghost predicate Written(before: Row, item: Row, after: Row) {
    && SameIdentity(before, after)
    && after.itemName == item.itemName && after.store == item.store
    && after.quantity == item.quantity && after.price == item.price
  }

  /** The columns an update never writes. */
  ghost predicate SameIdentity(before: Row, after: Row) {
    && after.id == before.id && after.date == before.date
    && after.createdAt == before.createdAt && after.userId == before.userId
  }

  /** `delete_grocery_item`: drops the caller's rows with that id and reports
      whether any row went. */
  function DeleteGroceryItem(rows: seq<Row>, itemId: string, userId: int): (r: Deleted)
    ensures r.deleted <==> exists j :: 0 <= j < |rows| && Matches(itemId, userId)(rows[j])
    ensures forall i :: 0 <= i < |r.rows| ==> r.rows[i] in rows && !Matches(itemId, userId)(r.rows[i])
    ensures forall j :: 0 <= j < |rows| && !Matches(itemId, userId)(rows[j]) ==> rows[j] in r.rows
    ensures !r.deleted ==> r.rows == rows
  {
    var kept := Filter(rows, (x: Row) => !Matches(itemId, userId)(x));
    var deleted := exists j :: 0 <= j < |rows| && Matches(itemId, userId)(rows[j]);
    if !deleted then
      FilterAll(rows, (x: Row) => !Matches(itemId, userId)(x));
      Deleted(rows, false)
    else
      Deleted(kept, true)
  }

  /** Filtering by a condition every element meets changes nothing. */
  lemma {:induction false} FilterAll<T>(s: seq<T>, p: T -> bool)
    requires forall j :: 0 <= j < |s| ==> p(s[j])
    ensures Filter(s, p) == s
  {
    if |s| > 0 {
      FilterAll(s[1..], p);
      assert s == [s[0]] + s[1..];
    }
  }

  // ---------------------------------------------------------------------------
  // Properties

  /** Every operation keeps the primary key unique. */
  lemma {:induction false} AddPreservesValid(rows: seq<Row>, data: ItemData, userId: int, uuid: string, today: string, now: int)
    requires Valid(rows)
    ensures var r := AddGroceryItem(rows, data, userId, uuid, today, now);
            r.Some? ==> Valid(r.value.rows)
  {
  }

  lemma {:induction false} UpdatePreservesValid(rows: seq<Row>, itemId: string, data: ItemData, userId: int)
    requires Valid(rows)
    ensures Valid(UpdateGroceryItem(rows, itemId, data, userId).rows)
  {
  }

  /** With a unique primary key the update rewrites exactly the caller's row
      of that id, and the row in the table is the one returned. */
  lemma {:induction false} UpdateWritesTheRow(rows: seq<Row>, itemId: string, data: ItemData, userId: int)
    requires Valid(rows)
    ensures var r := UpdateGroceryItem(rows, itemId, data, userId);
            forall j :: 0 <= j < |rows| && Matches(itemId, userId)(rows[j]) ==>
              r.item.Some? && Overrides(rows[j], data, r.rows[j]) && r.rows[j] == r.item.value
  {
    var r := UpdateGroceryItem(rows, itemId, data, userId);
    forall j | 0 <= j < |rows| && Matches(itemId, userId)(rows[j])
      ensures r.item.Some? && Overrides(rows[j], data, r.rows[j]) && r.rows[j] == r.item.value
    {
      var i :| 0 <= i < |rows| && Matches(itemId, userId)(rows[i]) && Overrides(rows[i], data, r.item.value)
               && r.rows[i] == r.item.value;
      assert i == j;
    }
  }

  lemma {:induction false} DeletePreservesValid(rows: seq<Row>, itemId: string, userId: int)
    requires Valid(rows)
    ensures Valid(DeleteGroceryItem(rows, itemId, userId).rows)
  {
    var r := DeleteGroceryItem(rows, itemId, userId);
    if r.deleted {
      FilterKeepsDistinct(rows, (x: Row) => !Matches(itemId, userId)(x));
    }
  }

  lemma {:induction false} FilterKeepsDistinct(rows: seq<Row>, p: Row -> bool)
    requires Valid(rows)
    ensures Valid(Filter(rows, p))
  {
    if |rows| > 0 {
      FilterKeepsDistinct(rows[1..], p);
      var t := Filter(rows[1..], p);
      assert forall i :: 0 <= i < |t| ==> t[i] in rows[1..];
      assert forall x :: x in rows[1..] ==> x.id != rows[0].id;
    }
  }

  /** Another user's row is out of reach: the update finds nothing and the
      table is unchanged. */
  lemma {:induction false} UpdateIsScoped(rows: seq<Row>, itemId: string, data: ItemData, userId: int, k: nat)
    requires Valid(rows) && k < |rows| && rows[k].id == itemId && rows[k].userId != userId
    ensures UpdateGroceryItem(rows, itemId, data, userId) == Updated(rows, None)
  {
    forall j | 0 <= j < |rows| ensures !Matches(itemId, userId)(rows[j]) {
      if j != k {
        assert rows[j].id != rows[k].id || j == k;
      }
    }
  }

  /** Deleting or adding on behalf of one user leaves every other user's
      listing exactly as it was. */
  lemma {:induction false} DeleteIsScoped(rows: seq<Row>, itemId: string, userId: int, other: int, limit: nat)
    requires other != userId
    ensures GetGroceryItems(DeleteGroceryItem(rows, itemId, userId).rows, other, limit) == GetGroceryItems(rows, other, limit)
  {
    var p := (x: Row) => !Matches(itemId, userId)(x);
    if DeleteGroceryItem(rows, itemId, userId).deleted {
      FilterImplied(rows, p, OwnedBy(other));
    }
  }

  lemma {:induction false} AddIsScoped(rows: seq<Row>, data: ItemData, userId: int, uuid: string, today: string, now: int, other: int, limit: nat)
    requires other != userId
    ensures var r := AddGroceryItem(rows, data, userId, uuid, today, now);
            r.Some? ==> GetGroceryItems(r.value.rows, other, limit) == GetGroceryItems(rows, other, limit)
  {
    var r := AddGroceryItem(rows, data, userId, uuid, today, now);
    if r.Some? {
      FilterAppend(rows, [r.value.item], OwnedBy(other));
      assert Filter([r.value.item], OwnedBy(other)) == [];
      assert Filter(r.value.rows, OwnedBy(other)) == Filter(rows, OwnedBy(other));
    }
  }

  /** While the caller has fewer than `limit` rows, the listing holds all of
      them, each as often as the table does. */
  lemma {:induction false} GetReturnsAll(rows: seq<Row>, userId: int, limit: nat)
    requires |Filter(rows, OwnedBy(userId))| <= limit
    ensures multiset(GetGroceryItems(rows, userId, limit)) == multiset(Filter(rows, OwnedBy(userId)))
  {
    SortDescCorrect(Filter(rows, OwnedBy(userId)), CreatedKey);
  }

  /** The limit cuts off the oldest rows: a row of the caller's that is left
      out was created no later than every row that is listed. */
  lemma {:induction false} GetKeepsNewest(rows: seq<Row>, userId: int, limit: nat, x: Row)
    requires x in rows && x.userId == userId
    requires x !in GetGroceryItems(rows, userId, limit)
    ensures forall y :: y in GetGroceryItems(rows, userId, limit) ==> x.createdAt <= y.createdAt
  {
    var mine := Filter(rows, OwnedBy(userId));
    var s := SortDesc(mine, CreatedKey);
    SortDescCorrect(mine, CreatedKey);
    var k :| 0 <= k < |rows| && rows[k] == x;
    assert x in mine;
    assert x in multiset(s);
    var j :| 0 <= j < |s| && s[j] == x;
    var r := GetGroceryItems(rows, userId, limit);
    if |s| <= limit {
      assert false;
    }
    assert j >= limit;
    forall y | y in r ensures x.createdAt <= y.createdAt {
      var i :| 0 <= i < limit && r[i] == y;
      assert CreatedKey(s[i]) >= CreatedKey(s[j]);
    }
  }

  /** A newly added row shows up in its owner's listing while the owner had
      fewer than `limit` rows before. */
  lemma {:induction false} AddThenGet(rows: seq<Row>, data: ItemData, userId: int, uuid: string, today: string, now: int, limit: nat)
    requires |Filter(rows, OwnedBy(userId))| < limit
    ensures var r := AddGroceryItem(rows, data, userId, uuid, today, now);
            r.Some? ==> r.value.item in GetGroceryItems(r.value.rows, userId, limit)
  {
    var r := AddGroceryItem(rows, data, userId, uuid, today, now);
    if r.Some? {
      var x := r.value.item;
      FilterAppend(rows, [x], OwnedBy(userId));
      assert Filter([x], OwnedBy(userId)) == [x];
      GetReturnsAll(r.value.rows, userId, limit);
      assert x in multiset(Filter(r.value.rows, OwnedBy(userId)));
    }
  }
}

=== FILE: grouping.dfy ===
/** The source's "group by key" idiom,

      items.reduce((acc, item) => { (acc[key(item)] ||= []).push(item); return acc }, {})

    modelled as an ordered list of groups, built one item at a time and kept in
    the order their keys are first seen. */
module Grouping {
  import opened Wrappers
  import opened Seqs

  datatype Group<K, T> = Group(key: K, members: seq<T>)

  function KeysOf<K, T>(gs: seq<Group<K, T>>): seq<K> {
    seq(|gs|, i requires 0 <= i < |gs| => gs[i].key)
  }

  function MembersOf<K, T>(gs: seq<Group<K, T>>): seq<seq<T>> {
    seq(|gs|, i requires 0 <= i < |gs| => gs[i].members)
  }

  /** One step of the reduce: `x` joins the group of key `k`, and a new group is
      opened at the end when `k` has not been seen before. */
  function Push<K(==), T>(gs: seq<Group<K, T>>, k: K, x: T): seq<Group<K, T>> {
    match IndexOf(KeysOf(gs), k)
    case Some(i) => gs[i := Group(k, gs[i].members + [x])]
    case None => gs + [Group(k, [x])]
  }

  function GroupBy<K(==), T>(s: seq<T>, key: T -> K): seq<Group<K, T>> {
    if |s| == 0 then [] else Push(GroupBy(s[..|s| - 1], key), key(s[|s| - 1]), s[|s| - 1])
  }

  ghost predicate KeysDistinct<K, T>(gs: seq<Group<K, T>>) {
    forall i, j :: 0 <= i < j < |gs| ==> gs[i].key != gs[j].key
  }

  /** Each group holds exactly the input items of its key, in input order, and is not empty. */
  ghost predicate GroupsMatch<K, T>(gs: seq<Group<K, T>>, s: seq<T>, key: T -> K) {
    forall i :: 0 <= i < |gs| ==> gs[i].members == Select(s, key, gs[i].key) && gs[i].members != []
  }

  /** Every input item's key has a group. */
  ghost predicate CoversKeys<K, T>(gs: seq<Group<K, T>>, s: seq<T>, key: T -> K) {
    forall x :: x in s ==> key(x) in KeysOf(gs)
  }

  ghost predicate Partitions<K, T>(gs: seq<Group<K, T>>, s: seq<T>, key: T -> K) {
    && KeysDistinct(gs)
    && GroupsMatch(gs, s, key)
    && CoversKeys(gs, s, key)
    && multiset(Flatten(MembersOf(gs))) == multiset(s)
  }

  /** `x` joins an existing group. */
  lemma {:induction false} PushExisting<K, T>(gs: seq<Group<K, T>>, p: seq<T>, x: T, key: T -> K, i: nat)
    requires Partitions(gs, p, key)
    requires i < |gs| && gs[i].key == key(x)
    ensures Partitions(gs[i := Group(key(x), gs[i].members + [x])], p + [x], key)
  {
    var gs' := gs[i := Group(key(x), gs[i].members + [x])];
    assert KeysOf(gs') == KeysOf(gs);
    assert KeysDistinct(gs') by {
      forall a, b | 0 <= a < b < |gs'| ensures gs'[a].key != gs'[b].key {
        assert gs'[a].key == gs[a].key && gs'[b].key == gs[b].key;
      }
    }
    assert CoversKeys(gs', p + [x], key) by {
      forall y | y in p + [x] ensures key(y) in KeysOf(gs') {
        if y in p {
        } else {
          assert KeysOf(gs)[i] == key(x);
        }
      }
    }
    PushExistingMatches(gs, p, x, key, i);
    assert MembersOf(gs') == MembersOf(gs)[i := MembersOf(gs)[i] + [x]];
    FlattenUpdate(MembersOf(gs), i, x);
  }

  lemma {:induction false} PushExistingMatches<K, T>(gs: seq<Group<K, T>>, p: seq<T>, x: T, key: T -> K, i: nat)
    requires GroupsMatch(gs, p, key) && KeysDistinct(gs)
    requires i < |gs| && gs[i].key == key(x)
    ensures GroupsMatch(gs[i := Group(key(x), gs[i].members + [x])], p + [x], key)
  {
    var gs' := gs[i := Group(key(x), gs[i].members + [x])];
    forall j | 0 <= j < |gs'|
      ensures gs'[j].members == Select(p + [x], key, gs'[j].key) && gs'[j].members != []
    {
      SelectSnoc(p, x, key, gs'[j].key);
      if j != i {
        assert gs'[j] == gs[j];
        assert gs[j].key != key(x) by {
          if j < i {
            assert gs[j].key != gs[i].key;
          } else {
            assert gs[i].key != gs[j].key;
          }
        }
      }
    }
  }

  /** `x` opens a new group at the end. */
  lemma {:induction false} PushNew<K, T>(gs: seq<Group<K, T>>, p: seq<T>, x: T, key: T -> K)
    requires Partitions(gs, p, key)
    requires key(x) !in KeysOf(gs)
    ensures Partitions(gs + [Group(key(x), [x])], p + [x], key)
  {
    var gs' := gs + [Group(key(x), [x])];
    forall i | 0 <= i < |gs| ensures gs[i].key != key(x) {
      assert KeysOf(gs)[i] == gs[i].key;
    }
    assert KeysDistinct(gs');
    assert KeysOf(gs') == KeysOf(gs) + [key(x)];
    assert CoversKeys(gs', p + [x], key);
    PushNewMatches(gs, p, x, key);
    PushNewFlatten(gs, p, x, key);
  }

  lemma {:induction false} PushNewFlatten<K, T>(gs: seq<Group<K, T>>, p: seq<T>, x: T, key: T -> K)
    requires multiset(Flatten(MembersOf(gs))) == multiset(p)
    ensures multiset(Flatten(MembersOf(gs + [Group(key(x), [x])]))) == multiset(p + [x])
  {
    assert MembersOf(gs + [Group(key(x), [x])]) == MembersOf(gs) + [[x]];
    FlattenSnoc(MembersOf(gs), [x]);
  }

  lemma {:induction false} PushNewMatches<K, T>(gs: seq<Group<K, T>>, p: seq<T>, x: T, key: T -> K)
    requires GroupsMatch(gs, p, key) && CoversKeys(gs, p, key)
    requires key(x) !in KeysOf(gs)
    ensures GroupsMatch(gs + [Group(key(x), [x])], p + [x], key)
  {
    var gs' := gs + [Group(key(x), [x])];
    forall j | 0 <= j < |gs'|
      ensures gs'[j].members == Select(p + [x], key, gs'[j].key) && gs'[j].members != []
    {
      SelectSnoc(p, x, key, gs'[j].key);
      if j == |gs| {
        SelectNone(p, key, key(x));
      } else {
        assert KeysOf(gs)[j] == gs[j].key;
      }
    }
  }

  /** Grouping is a partition of the input: one group per distinct key, each
      group is the input restricted to its key in input order, and the groups
      together hold every input item exactly as often as the input does. */
  lemma {:induction false} GroupByCorrect<K, T>(s: seq<T>, key: T -> K)
    ensures Partitions(GroupBy(s, key), s, key)
  {
    if |s| == 0 {
      assert MembersOf(GroupBy(s, key)) == [];
    } else {
      var p, x := s[..|s| - 1], s[|s| - 1];
      assert s == p + [x];
      var gs0 := GroupBy(p, key);
      GroupByCorrect(p, key);
      match IndexOf(KeysOf(gs0), key(x))
      case Some(i) =>
        PushExisting(gs0, p, x, key, i);
      case None =>
        PushNew(gs0, p, x, key);
    }
  }

  /** Reordering the groups does not change the multiset of their members. */
  lemma {:induction false} FlattenPermutation<K, T>(a: seq<Group<K, T>>, b: seq<Group<K, T>>)
    requires multiset(a) == multiset(b)
    ensures multiset(Flatten(MembersOf(a))) == multiset(Flatten(MembersOf(b)))
  {
    assert MembersOf(a) == Map(a, MembersField);
    assert MembersOf(b) == Map(b, MembersField);
    MapPermutation(a, b, MembersField);
    FlattenPermutationSeqs(MembersOf(a), MembersOf(b));
  }

  function MembersField<K, T>(g: Group<K, T>): seq<T> { g.members }

  /** A key has a group exactly when some input item carries it. */
  lemma {:induction false} KeyHasGroup<K, T>(s: seq<T>, key: T -> K, k: K)
    ensures k in KeysOf(GroupBy(s, key)) <==> exists x :: x in s && key(x) == k
  {
    GroupByCorrect(s, key);
    var gs := GroupBy(s, key);
    if k in KeysOf(gs) {
      var i :| 0 <= i < |gs| && gs[i].key == k;
      assert gs[i].members[0] in Select(s, key, k);
    }
  }
}

=== FILE: item_editing.dfy ===
/** The inline edit state shared by the store-summary and grocery-list views:
    which item is being edited, the string form being edited, and what a save
    sends and leaves behind. */
module ItemEditing {
  import opened Wrappers
  import opened Items

  /** `editForm`: every field is the text of an input box. */
  datatype EditForm = EditForm(itemName: string, store: string, quantity: string, price: string)

  /** `editingId` together with `editForm`; `Idle` is `editingId === null` with
      the form reset to `{}`. */
  datatype EditState = Idle | Editing(id: int, form: EditForm)

  /** The update sent on save; `price` is `parseFloat` of the price box, `None`
      where that gives NaN. */
  datatype ItemUpdate = ItemUpdate(itemName: string, store: string, quantity: string, price: Option<real>)

  /** `handleEdit(item)`: `showPrice` stands for `Number.prototype.toString`. */
  function HandleEdit(item: GroceryItem, showPrice: real -> string): (r: EditState)
    ensures r.Editing? && r.id == item.id
    ensures r.form.itemName == item.itemName && r.form.store == item.store
    ensures r.form.quantity == item.quantity && r.form.price == showPrice(item.price)
  {
    Editing(item.id, EditForm(item.itemName, item.store, item.quantity, showPrice(item.price)))
  }

  /** `handleCancelEdit`. */
  function HandleCancelEdit(s: EditState): (r: EditState)
    ensures r.Idle?
  {
    Idle
  }

  /** The body of the `onUpdate` call in `handleSaveEdit`: the text fields as
      typed, and the price parsed by `parse`. */
  function SavePayload(form: EditForm, parse: string -> Option<real>): (u: ItemUpdate)
    ensures u.itemName == form.itemName && u.store == form.store && u.quantity == form.quantity
    ensures u.price == parse(form.price)
  {
    ItemUpdate(form.itemName, form.store, form.quantity, parse(form.price))
  }

  /** The edit state after `handleSaveEdit`: cleared when the update succeeded,
      untouched when it failed. */
  function AfterSave(s: EditState, succeeded: bool): (r: EditState)
    ensures succeeded ==> r.Idle?
    ensures !succeeded ==> r == s
  {
    if succeeded then Idle else s
  }

  /** Saving a form nobody touched sends the item's own fields back, whenever
      the price text reads back as the price it was shown from. */
  lemma {:induction false} EditSaveRoundTrip(item: GroceryItem, showPrice: real -> string, parse: string -> Option<real>)
    requires parse(showPrice(item.price)) == Some(item.price)
    ensures var s := HandleEdit(item, showPrice);
            SavePayload(s.form, parse) == ItemUpdate(item.itemName, item.store, item.quantity, Some(item.price))
  {
  }

  /** Cancelling after an edit, or saving it successfully, ends in the same
      state as never having edited. */
  lemma {:induction false} EditThenLeave(item: GroceryItem, showPrice: real -> string)
    ensures HandleCancelEdit(HandleEdit(item, showPrice)) == Idle
    ensures AfterSave(HandleEdit(item, showPrice), true) == Idle
    ensures AfterSave(HandleEdit(item, showPrice), false) == HandleEdit(item, showPrice)
  {
  }
}

=== FILE: items.dfy ===
/** The grocery-item record as the frontend receives it (`mock.js`, `api.js`). */
module Items {
  import opened Seqs

  /** One purchase. `price` is a number the caller has already parsed; `date`
      is an ISO calendar date string. */
  datatype GroceryItem = GroceryItem(
    id: int,
    itemName: string,
    store: string,
    quantity: string,
    price: real,
    date: string)

  /** The fields a client sends when adding an item; the store assigns `id` and `date`. */
  datatype ItemDraft = ItemDraft(itemName: string, store: string, quantity: string, price: real)

  function PriceOf(x: GroceryItem): real { x.price }

  function StoreOf(x: GroceryItem): string { x.store }

  function DateOf(x: GroceryItem): string { x.date }

  function SumPrices(s: seq<GroceryItem>): real { Sum(s, PriceOf) }

  ghost predicate PricesNonNegative(s: seq<GroceryItem>) {
    forall i :: 0 <= i < |s| ==> s[i].price >= 0.0
  }
}

=== FILE: login.dfy ===
/** The sign-in card: one component with four modes (sign in, sign up, forgot
    password, reset password) chosen by three flags, the links that switch
    between them, the per-mode validation, the request each mode sends and
    what each reply does to the state. The network round trip is the `Reply`
    a submission is given. */
module Login {
  import opened Wrappers

  datatype Form = Form(username: string, email: string, password: string)

  /** The component state. `loggedIn` records that `login(...)` was called. */
  datatype State = State(
    isSignUp: bool,
    isForgotPassword: bool,
    isResetPassword: bool,
    resetToken: string,
    errorMessage: string,
    form: Form,
    loggedIn: bool)

  datatype Field = Username | Email | Password

  /** The parsed reply to a submission. `Ok` carries `data.token` for the
      forgot-password request; `NotOk` carries `data.detail` and
      `data.message`; `Unreachable` is a thrown error with its message. */
  datatype Reply = Ok(token: Option<string>) | NotOk(detail: Option<string>, message: Option<string>) | Unreachable(message: Option<string>)

  datatype Event =
    | Type(field: Field, value: string)   // `handleChange` on a shown input
    | TypeToken(value: string)            // the reset-token input
    | ForgotLink                          // "Forgot your password?"
    | BackToLogin                         // "Back to Login"
    | ToggleSignUp                        // "Sign up" / "Sign in"
    | Submit(reply: Reply)

  /** The request body each mode posts. */
  datatype Request =
    | ForgotRequest(email: string)
    | ResetRequest(token: string, newPassword: string)
    | RegisterRequest(username: string, email: string, password: string)
    | SignInRequest(username: string, password: string)

  function EmptyForm(): Form { Form("", "", "") }

  function Initial(): State {
    State(false, false, false, "", "", EmptyForm(), false)
  }

  /** The three flags never hold two at a time. */
  predicate AtMostOneMode(s: State) {
    && !(s.isSignUp && s.isForgotPassword)
    && !(s.isSignUp && s.isResetPassword)
    && !(s.isForgotPassword && s.isResetPassword)
  }

  /** Which inputs the card shows in the current mode. */
  predicate Shown(s: State, f: Field) {
    match f
    case Username => !s.isForgotPassword && !s.isResetPassword
    case Email => s.isSignUp || s.isForgotPassword
    case Password => !s.isForgotPassword
  }

  /** `getTitle`: forgot wins over reset, reset over sign-up. */
  function Title(s: State): (r: string)
    ensures s.isForgotPassword ==> r == "Reset Password"
    ensures !s.isForgotPassword && s.isResetPassword ==> r == "Set New Password"
    ensures !s.isForgotPassword && !s.isResetPassword && s.isSignUp ==> r == "Create Account"
    ensures !s.isForgotPassword && !s.isResetPassword && !s.isSignUp ==> r == "Welcome Back"
  {
    if s.isForgotPassword then "Reset Password"
    else if s.isResetPassword then "Set New Password"
    else if s.isSignUp then "Create Account"
    else "Welcome Back"
  }

  /** The validation of `handleSubmit`: the message shown, or `None` when the
      request may be sent. */
  function Validate(s: State): (r: Option<string>)
    ensures s.isForgotPassword ==> (r.None? <==> s.form.email != "")
    ensures !s.isForgotPassword && s.isResetPassword ==> (r.None? <==> s.resetToken != "" && s.form.password != "")
    ensures !s.isForgotPassword && !s.isResetPassword ==>
              (r.None? <==> s.form.username != "" && s.form.password != "" && (s.isSignUp ==> s.form.email != ""))
    ensures (!s.isForgotPassword && !s.isResetPassword && s.isSignUp && s.form.username != "" && s.form.password != "")
              ==> (r.Some? ==> r.value == "Email is required for sign up")
    ensures r.Some? ==> r.value in {"Please enter your email", "Please fill in all fields", "Email is required for sign up"}
  {
    if s.isForgotPassword then
      if s.form.email == "" then Some("Please enter your email") else None
    else if s.isResetPassword then
      if s.resetToken == "" || s.form.password == "" then Some("Please fill in all fields") else None
    else if s.form.username == "" || s.form.password == "" then Some("Please fill in all fields")
    else if s.isSignUp && s.form.email == "" then Some("Email is required for sign up")
    else None
  }

  /** The body posted for the current mode; only the mode's own fields are sent. */
  function RequestOf(s: State): (r: Request)
    ensures s.isForgotPassword ==> r == ForgotRequest(s.form.email)
    ensures !s.isForgotPassword && s.isResetPassword ==> r == ResetRequest(s.resetToken, s.form.password)
    ensures !s.isForgotPassword && !s.isResetPassword && s.isSignUp ==>
              r == RegisterRequest(s.form.username, s.form.email, s.form.password)
    ensures !s.isForgotPassword && !s.isResetPassword && !s.isSignUp ==>
              r == SignInRequest(s.form.username, s.form.password)
  {
    if s.isForgotPassword then ForgotRequest(s.form.email)
    else if s.isResetPassword then ResetRequest(s.resetToken, s.form.password)
    else if s.isSignUp then RegisterRequest(s.form.username, s.form.email, s.form.password)
    else SignInRequest(s.form.username, s.form.password)
  }

  predicate Truthy(x: Option<string>) {
    x.Some? && x.value != ""
  }

  /** `a || b` on optional strings. */
  function Or(a: Option<string>, b: string): string {
    if Truthy(a) then a.value else b
  }

  /** `data.detail || data.message || "Operation failed"`. */
  function FailureMessage(detail: Option<string>, message: Option<string>): (r: string)
    ensures Truthy(detail) ==> r == detail.value
    ensures !Truthy(detail) && Truthy(message) ==> r == message.value
    ensures !Truthy(detail) && !Truthy(message) ==> r == "Operation failed"
  {
    Or(detail, Or(message, "Operation failed"))
  }

  /** The state after a validated submission receives its reply. */
  function ApplyReply(s: State, reply: Reply): State {
    match reply
    case Ok(token) =>
      var s := s.(errorMessage := "");
      if s.isForgotPassword then
        if Truthy(token) then s.(resetToken := token.value, isForgotPassword := false, isResetPassword := true) else s
      else if s.isResetPassword then s.(isResetPassword := false, resetToken := "", form := EmptyForm())
      else if s.isSignUp then s.(isSignUp := false, form := EmptyForm())
      else s.(loggedIn := true)
    case NotOk(detail, message) => s.(errorMessage := FailureMessage(detail, message))
    case Unreachable(message) => s.(errorMessage := Or(message, "Failed to connect to server. Please try again."))
  }

  /** `setFormData({...formData, [name]: value})`. */
  function SetField(f: Form, field: Field, value: string): Form {
    match field
    case Username => f.(username := value)
    case Email => f.(email := value)
    case Password => f.(password := value)
  }

  /** One user action. An action on a control the card does not show leaves
      the state as it is. */
  function Step(s: State, e: Event): State {
    match e
    case Type(field, value) =>
      if Shown(s, field) then s.(form := SetField(s.form, field, value), errorMessage := "") else s
    case TypeToken(value) =>
      if s.isResetPassword then s.(resetToken := value) else s
    case ForgotLink =>
      if !s.isSignUp && !s.isForgotPassword && !s.isResetPassword
      then s.(isForgotPassword := true, form := EmptyForm(), errorMessage := "") else s
    case BackToLogin =>
      if s.isForgotPassword || s.isResetPassword
      then s.(isForgotPassword := false, isResetPassword := false, resetToken := "", form := EmptyForm(), errorMessage := "")
      else s
    case ToggleSignUp =>
      if !s.isForgotPassword && !s.isResetPassword
      then s.(isSignUp := !s.isSignUp, form := EmptyForm(), errorMessage := "") else s
    case Submit(reply) =>
      match Validate(s)
      case Some(msg) => s.(errorMessage := msg)
      case None => ApplyReply(s, reply)
  }

  function Run(s: State, events: seq<Event>): State
    decreases |events|
  {
    if |events| == 0 then s else Run(Step(s, events[0]), events[1..])
  }

  // ---------------------------------------------------------------------------
  // Properties

  /** Every action keeps at most one mode flag set, because each link is
      offered only in the modes it cannot clash with. */
  lemma {:induction false} StepKeepsOneMode(s: State, e: Event)
    requires AtMostOneMode(s)
    ensures AtMostOneMode(Step(s, e))
  {
  }

  /** Every reachable state has at most one mode. */
  lemma {:induction false} RunKeepsOneMode(s: State, events: seq<Event>)
    requires AtMostOneMode(s)
    ensures AtMostOneMode(Run(s, events))
    decreases |events|
  {
    if |events| > 0 {
      StepKeepsOneMode(s, events[0]);
      RunKeepsOneMode(Step(s, events[0]), events[1..]);
    }
  }

  lemma {:induction false} ReachableHasOneMode(events: seq<Event>)
    ensures AtMostOneMode(Run(Initial(), events))
  {
    RunKeepsOneMode(Initial(), events);
  }

  /** With a single mode set, the title names that mode. */
  lemma {:induction false} TitleNamesMode(s: State)
    requires AtMostOneMode(s)
    ensures s.isResetPassword ==> Title(s) == "Set New Password"
    ensures s.isSignUp ==> Title(s) == "Create Account"
  {
  }

  /** A forgot-password request that returns a token moves to reset mode with
      the token filled in; without a token the mode stays. */
  lemma {:induction false} ForgotThenReset(s: State, token: Option<string>)
    requires AtMostOneMode(s) && s.isForgotPassword && s.form.email != ""
    ensures var t := Step(s, Submit(Ok(token)));
            && (Truthy(token) ==> t.isResetPassword && !t.isForgotPassword && t.resetToken == token.value)
            && (!Truthy(token) ==> t.isForgotPassword && !t.isResetPassword && t.resetToken == s.resetToken)
            && t.errorMessage == ""
  {
  }

  /** A successful reset, or a successful sign-up, lands on plain sign-in
      with an empty form; the reset also forgets the token. */
  lemma {:induction false} SuccessReturnsToSignIn(s: State)
    requires AtMostOneMode(s) && Validate(s).None?
    requires s.isResetPassword || s.isSignUp
    ensures var t := Step(s, Submit(Ok(None)));
            && !t.isSignUp && !t.isForgotPassword && !t.isResetPassword
            && t.form == Form("", "", "") && t.loggedIn == s.loggedIn
            && (s.isResetPassword ==> t.resetToken == "")
  {
  }

  /** Signing in happens only from plain sign-in mode with both fields filled
      and an accepted reply. */
  lemma {:induction false} SignInNeedsCredentials(s: State, e: Event)
    requires AtMostOneMode(s) && !s.loggedIn
    ensures Step(s, e).loggedIn ==>
              && !s.isSignUp && !s.isForgotPassword && !s.isResetPassword
              && s.form.username != "" && s.form.password != "" && e.Submit? && e.reply.Ok?
  {
  }

  /** A refused submission keeps the mode and the form and shows the message. */
  lemma {:induction false} FailureKeepsMode(s: State, detail: Option<string>, message: Option<string>)
    requires Validate(s).None?
    ensures var t := Step(s, Submit(NotOk(detail, message)));
            && t == s.(errorMessage := FailureMessage(detail, message))
            && t.errorMessage != ""
  {
  }

  /** Typing in any shown input clears the message; typing the token does not. */
  lemma {:induction false} TypingClearsError(s: State, f: Field, v: string)
    requires Shown(s, f)
    ensures Step(s, Type(f, v)).errorMessage == ""
    ensures s.isResetPassword ==> Step(s, TypeToken(v)).errorMessage == s.errorMessage
  {
  }
}

=== FILE: mock_store.dfy ===
/** The in-memory fallback API: a list of items and the next id to hand out,
    with add, update and delete by id, a copy-out getter and the same
    store aggregation as the live API. */
module MockStore {
  import opened Wrappers
  import opened Seqs
  import opened Items
  import opened StoreAggregate

  datatype Store = Store(items: seq<GroceryItem>, nextId: int)

  /** A change set: each present field overrides the stored one (`{...item, ...updates}`). */
  datatype Patch = Patch(itemName: Option<string>, store: Option<string>, quantity: Option<string>, price: Option<real>)

  /** The store after a call, and what the returned promise settles to. */
  datatype Reply<T> = Reply(state: Store, result: Result<T>)

  const NotFound: string := "Item not found"

  /** The eight seeded items and `nextId = 9`. */
  function Initial(): Store {
    Store([
      GroceryItem(1, "Milk", "Tesco", "1 kg", 1.50, "2024-01-15"),
      GroceryItem(2, "Milk", "Asda", "1 kg", 1.25, "2024-01-15"),
      GroceryItem(3, "Milk", "Aldi", "1 kg", 1.10, "2024-01-15"),
      GroceryItem(4, "Bread", "Tesco", "800 g", 2.75, "2024-01-14"),
      GroceryItem(5, "Bread", "Lidl", "800 g", 1.99, "2024-01-14"),
      GroceryItem(6, "Greek Yogurt", "Asda", "500 g", 3.20, "2024-01-15"),
      GroceryItem(7, "Greek Yogurt", "Tesco", "500 g", 3.50, "2024-01-14"),
      GroceryItem(8, "Ground Coffee", "Aldi", "250 g", 4.50, "2024-01-14")
    ], 9)
  }

  function IdOf(x: GroceryItem): int { x.id }

  /** `findIndex(item => item.id === id)`. */
  function FindIndex(items: seq<GroceryItem>, id: int): (r: Option<nat>)
    ensures r.Some? ==> r.value < |items| && items[r.value].id == id
    ensures r.Some? ==> forall j :: 0 <= j < r.value ==> items[j].id != id
    ensures r.None? <==> forall j :: 0 <= j < |items| ==> items[j].id != id
  {
    var ids := Map(items, IdOf);
    var r := IndexOf(ids, id);
    assert forall j :: 0 <= j < |items| ==> ids[j] == items[j].id;
    r
  }

  /** Every id is below `nextId`, and no id occurs twice. */
  ghost predicate Valid(st: Store) {
    && (forall i :: 0 <= i < |st.items| ==> st.items[i].id < st.nextId)
    && (forall i, j :: 0 <= i < j < |st.items| ==> st.items[i].id != st.items[j].id)
  }

  /** `getGroceryItems`: a fresh array with the current items. */
  function GetGroceryItems(st: Store): (r: seq<GroceryItem>)
    ensures |r| == |st.items| && forall i :: 0 <= i < |r| ==> r[i] == st.items[i]
  {
    st.items[..]
  }

  /** `addGroceryItem`: the draft gets the next id and today's date, and is
      appended at the end. */
  function AddGroceryItem(st: Store, draft: ItemDraft, today: string): (r: Reply<GroceryItem>)
    ensures r.result.Success?
    ensures r.result.value == GroceryItem(st.nextId, draft.itemName, draft.store, draft.quantity, draft.price, today)
    ensures r.state.items == st.items + [r.result.value]
    ensures r.state.nextId == st.nextId + 1
  {
    var item := GroceryItem(st.nextId, draft.itemName, draft.store, draft.quantity, draft.price, today);
    Reply(Store(st.items + [item], st.nextId + 1), Success(item))
  }

  /** `{ ...item, ...updates }`: id and date are never part of an update. */
  function Apply(item: GroceryItem, p: Patch): (r: GroceryItem)
    ensures r.id == item.id && r.date == item.date
    ensures r.itemName == p.itemName.GetOr(item.itemName) && r.store == p.store.GetOr(item.store)
    ensures r.quantity == p.quantity.GetOr(item.quantity) && r.price == p.price.GetOr(item.price)
  {
    item.(itemName := p.itemName.GetOr(item.itemName),
          store := p.store.GetOr(item.store),
          quantity := p.quantity.GetOr(item.quantity),
          price := p.price.GetOr(item.price))
  }

  /** `updateGroceryItem`: rewrites the first item with that id, or rejects and
      changes nothing. */
  function UpdateGroceryItem(st: Store, id: int, p: Patch): (r: Reply<GroceryItem>)
    ensures (forall j :: 0 <= j < |st.items| ==> st.items[j].id != id) ==> r == Reply(st, Failure(NotFound))
    ensures (exists j :: 0 <= j < |st.items| && st.items[j].id == id) ==> r.result.Success?
    ensures r.state.nextId == st.nextId && |r.state.items| == |st.items|
    ensures r.result.Success? ==> exists i :: 0 <= i < |st.items| && UpdatedAt(st.items, r.state.items, i, id, p)
  {
    match FindIndex(st.items, id)
    case None => Reply(st, Failure(NotFound))
    case Some(i) =>
      var updated := Apply(st.items[i], p);
      var r := Reply(Store(st.items[i := updated], st.nextId), Success(updated));
      assert UpdatedAt(st.items, r.state.items, i, id, p);
      r
  }

  /** `after` is `before` with only its first item of id `id`, at `i`, patched. */
  ghost predicate UpdatedAt(before: seq<GroceryItem>, after: seq<GroceryItem>, i: nat, id: int, p: Patch) {
    && i < |before| == |after|
    && before[i].id == id
    && (forall j :: 0 <= j < i ==> before[j].id != id)
    && after[i] == Apply(before[i], p)
    && (forall j :: 0 <= j < |before| && j != i ==> after[j] == before[j])
  }

  /** `deleteGroceryItem`: removes the first item with that id and returns it,
      or rejects and changes nothing. */
  function DeleteGroceryItem(st: Store, id: int): (r: Reply<GroceryItem>)
    ensures (forall j :: 0 <= j < |st.items| ==> st.items[j].id != id) ==> r == Reply(st, Failure(NotFound))
    ensures (exists j :: 0 <= j < |st.items| && st.items[j].id == id) ==> r.result.Success?
    ensures r.state.nextId == st.nextId
    ensures r.result.Success? ==> exists i :: 0 <= i < |st.items| && DeletedAt(st.items, r.state.items, i, id) && r.result.value == st.items[i]
  {
    match FindIndex(st.items, id)
    case None => Reply(st, Failure(NotFound))
    case Some(i) =>
      var r := Reply(Store(st.items[..i] + st.items[i + 1..], st.nextId), Success(st.items[i]));
      assert DeletedAt(st.items, r.state.items, i, id);
      r
  }

  /** `after` is `before` without its first item of id `id`, at `i`, the rest in order. */
  ghost predicate DeletedAt(before: seq<GroceryItem>, after: seq<GroceryItem>, i: nat, id: int) {
    && i < |before| && |after| == |before| - 1
    && before[i].id == id
    && (forall j :: 0 <= j < i ==> before[j].id != id)
    && (forall j :: 0 <= j < i ==> after[j] == before[j])
    && (forall j :: i <= j < |after| ==> after[j] == before[j + 1])
  }

  /** `getStoreSummary`, the same reduce as the live API's. */
  function MockStoreSummary(st: Store): seq<StoreSummary> {
    GetStoreSummary(st.items)
  }

  // ---------------------------------------------------------------------------
  // Properties

  lemma {:induction false} InitialValid()
    ensures Valid(Initial())
  {
  }

  lemma {:induction false} AddPreservesValid(st: Store, draft: ItemDraft, today: string)
    requires Valid(st)
    ensures Valid(AddGroceryItem(st, draft, today).state)
  {
  }

  lemma {:induction false} UpdatePreservesValid(st: Store, id: int, p: Patch)
    requires Valid(st)
    ensures Valid(UpdateGroceryItem(st, id, p).state)
  {
    var r := UpdateGroceryItem(st, id, p);
    if r.result.Success? {
      var i :| 0 <= i < |st.items| && UpdatedAt(st.items, r.state.items, i, id, p);
      assert forall j :: 0 <= j < |st.items| ==> r.state.items[j].id == st.items[j].id;
    }
  }

  lemma {:induction false} DeletePreservesValid(st: Store, id: int)
    requires Valid(st)
    ensures Valid(DeleteGroceryItem(st, id).state)
  {
    var r := DeleteGroceryItem(st, id);
    if r.result.Success? {
      var i :| 0 <= i < |st.items| && DeletedAt(st.items, r.state.items, i, id) && r.result.value == st.items[i];
      var after := r.state.items;
      forall a, b | 0 <= a < b < |after| ensures after[a].id != after[b].id {
        var a', b' := if a < i then a else a + 1, if b < i then b else b + 1;
        assert after[a] == st.items[a'] && after[b] == st.items[b'];
      }
    }
  }

  /** Deleting the item just added undoes the add, apart from the spent id. */
  lemma {:induction false} AddThenDelete(st: Store, draft: ItemDraft, today: string)
    requires Valid(st)
    ensures var added := AddGroceryItem(st, draft, today);
            var removed := DeleteGroceryItem(added.state, st.nextId);
            removed.result == added.result && removed.state == Store(st.items, st.nextId + 1)
  {
    var added := AddGroceryItem(st, draft, today);
    var items := added.state.items;
    assert forall j :: 0 <= j < |st.items| ==> items[j].id != st.nextId;
    var found := FindIndex(items, st.nextId);
    assert items[|st.items|].id == st.nextId;
    assert found.value == |st.items|;
    assert items[..|st.items|] + items[|st.items| + 1..] == st.items;
  }

  /** In a valid store an update reaches the one item carrying the id, whatever its position. */
  lemma {:induction false} UpdateHitsTheItem(st: Store, id: int, p: Patch, k: nat)
    requires Valid(st) && k < |st.items| && st.items[k].id == id
    ensures UpdateGroceryItem(st, id, p) == Reply(Store(st.items[k := Apply(st.items[k], p)], st.nextId), Success(Apply(st.items[k], p)))
  {
    var r := FindIndex(st.items, id);
    assert r.Some?;
    assert r.value == k;
  }

  /** In a valid store a delete removes the one item carrying the id, whatever its position. */
  lemma {:induction false} DeleteHitsTheItem(st: Store, id: int, k: nat)
    requires Valid(st) && k < |st.items| && st.items[k].id == id
    ensures DeleteGroceryItem(st, id) == Reply(Store(st.items[..k] + st.items[k + 1..], st.nextId), Success(st.items[k]))
  {
    var r := FindIndex(st.items, id);
    assert r.Some?;
    assert r.value == k;
  }

  /** The fallback summary keeps the live aggregator's guarantees. */
  lemma {:induction false} MockSummaryCorrect(st: Store)
    ensures StoresDistinct(MockStoreSummary(st))
    ensures forall i :: 0 <= i < |MockStoreSummary(st)| ==> SummaryOfStore(st.items, MockStoreSummary(st)[i])
    ensures multiset(Flatten(ItemsOf(MockStoreSummary(st)))) == multiset(st.items)
    ensures Sum(MockStoreSummary(st), TotalOf) == SumPrices(st.items)
  {
    GetStoreSummaryCorrect(st.items);
    TotalsAddUp(st.items);
  }
}

=== FILE: receipt_processor.dfy ===
/** The receipt processor's result shaping: the fixed fallback result, the
    mapping from a receipt analysis to items, and which of the two
    `process_receipt` returns. The analysis service itself (upload, polling,
    image preprocessing) is outside the model: its outcome is an input. */
module ReceiptProcessor {
  import opened Wrappers

  /** One entry of the analysis' `Items` array; a field is `None` when the
      entry does not carry it. */
  datatype AnalysedItem = AnalysedItem(description: Option<string>, quantity: Option<real>, totalPrice: Option<real>)

  /** The first analysed document's fields. */
  datatype AnalysedReceipt = AnalysedReceipt(merchantName: Option<string>, items: seq<AnalysedItem>, total: Option<real>)

  /** The analysis service's answer: its list of documents. */
  datatype Analysis = Analysis(documents: seq<AnalysedReceipt>)

  datatype ReceiptItem = ReceiptItem(itemName: string, quantity: string, price: real, store: string)

  /** The two result shapes: a parsed receipt, or the basic fallback. */
  datatype ReceiptResult =
    | Parsed(items: seq<ReceiptItem>, store: string, total: real, confidence: real, processingMethod: string)
    | Fallback(storeName: string, items: seq<ReceiptItem>, total: real, confidence: real,
               storeUnclear: bool, processingMethod: string, error: string)

  const UnknownStore: string := "Unknown Store"
  const UnknownItem: string := "Unknown Item"

  /** `parse_basic_fallback` with its `error` field set to `error`: nothing
      read from the receipt, the store marked unclear, low confidence. */
  function FallbackWith(error: string): (r: ReceiptResult)
    ensures r.Fallback? && r.storeName == UnknownStore && r.items == [] && r.total == 0.0
    ensures r.confidence == 0.1 && r.storeUnclear && r.processingMethod == "fallback"
    ensures r.error == error
  {
    Fallback(UnknownStore, [], 0.0, 0.1, true, "fallback", error)
  }

  /** `parse_basic_fallback` as returned. */
  function BasicFallback(): ReceiptResult {
    FallbackWith("Unable to process receipt automatically")
  }

  /** One output item per analysed item. `showNumber` is Python's `str` of the
      quantity; the default quantity is the integer 1, shown as "1". */
  function ToReceiptItem(a: AnalysedItem, store: string, showNumber: real -> string): (r: ReceiptItem)
    ensures r.itemName == a.description.GetOr(UnknownItem)
    ensures r.quantity == (match a.quantity case Some(q) => showNumber(q) case None => "1") + " pcs"
    ensures r.price == a.totalPrice.GetOr(0.0) && r.store == store
  {
    var q := match a.quantity case Some(q) => showNumber(q) case None => "1";
    ReceiptItem(a.description.GetOr(UnknownItem), q + " pcs", a.totalPrice.GetOr(0.0), store)
  }

  function ToReceiptItems(items: seq<AnalysedItem>, store: string, showNumber: real -> string): (r: seq<ReceiptItem>)
    ensures |r| == |items|
    ensures forall i :: 0 <= i < |r| ==> r[i] == ToReceiptItem(items[i], store, showNumber)
  {
    if |items| == 0 then [] else [ToReceiptItem(items[0], store, showNumber)] + ToReceiptItems(items[1..], store, showNumber)
  }

  /** `parse_azure_response`: no document means the fallback; otherwise the
      first document's items, all tagged with its merchant name. */
  function ParseAnalysis(a: Analysis, showNumber: real -> string): (r: ReceiptResult)
    ensures a.documents == [] <==> r == BasicFallback()
    ensures a.documents != [] <==> r.Parsed?
    ensures r.Parsed? ==>
              var doc := a.documents[0];
              && r.store == doc.merchantName.GetOr(UnknownStore)
              && |r.items| == |doc.items|
              && (forall i :: 0 <= i < |r.items| ==> r.items[i] == ToReceiptItem(doc.items[i], r.store, showNumber))
              && r.total == doc.total.GetOr(0.0)
              && r.confidence == 0.9 && r.processingMethod == "azure_document_intelligence"
  {
    if |a.documents| == 0 then BasicFallback()
    else
      var doc := a.documents[0];
      var store := doc.merchantName.GetOr(UnknownStore);
      Parsed(ToReceiptItems(doc.items, store, showNumber), store, doc.total.GetOr(0.0), 0.9,
             "azure_document_intelligence")
  }

  /** `process_receipt`: a preprocessing failure or an analysis failure each
      yield the fallback with their own error text; otherwise the parsed analysis. */
  function ProcessReceipt(preprocessError: Option<string>, analysis: Result<Analysis>, showNumber: real -> string): (r: ReceiptResult)
    ensures preprocessError.Some? ==>
              r == FallbackWith("Receipt processing failed: " + preprocessError.value)
    ensures preprocessError.None? && analysis.Failure? ==>
              r == FallbackWith("Azure processing failed: " + analysis.error)
    ensures preprocessError.None? && analysis.Success? ==> r == ParseAnalysis(analysis.value, showNumber)
  {
    match preprocessError
    case Some(e) => FallbackWith("Receipt processing failed: " + e)
    case None =>
      match analysis
      case Failure(e) => FallbackWith("Azure processing failed: " + e)
      case Success(a) => ParseAnalysis(a, showNumber)
  }

  /** Every item of a processed receipt carries the result's store, and a
      fallback carries none. */
  lemma {:induction false} ProcessedItemsCarryStore(preprocessError: Option<string>, analysis: Result<Analysis>, showNumber: real -> string)
    ensures var r := ProcessReceipt(preprocessError, analysis, showNumber);
            && (r.Fallback? ==> r.items == [] && r.storeUnclear && r.storeName == UnknownStore)
            && (r.Parsed? ==> forall i :: 0 <= i < |r.items| ==> r.items[i].store == r.store)
  {
  }
}

=== FILE: receipt_scanner.dfy ===
/** The receipt-scanner component: the fuzzy store-name matcher, the checks on
    the chosen file, the store auto-selection after a scan, and the guard and
    item mapping of the confirmation request. */
module ReceiptScanner {
  import opened Wrappers
  import opened Seqs
  import opened Text
  import opened ReceiptProcessor

  const StoreOptions: seq<string> := ["Tesco", "Asda", "Aldi", "Lidl", "Best foods", "Quality", "Freshco", "Others"]

  /** `StoreOptions` lower-cased, written out. */
  const LowerStoreOptions: seq<string> := ["tesco", "asda", "aldi", "lidl", "best foods", "quality", "freshco", "others"]

  /** One entry of `storeVariations`: a lower-case store key and its known spellings. */
  datatype Variations = Variations(store: string, spellings: seq<string>)

  const StoreVariations: seq<Variations> := [
    Variations("tesco", ["tesco superstore", "tesco extra", "tesco express", "tesco metro"]),
    Variations("asda", ["asda superstore", "asda supermarket"]),
    Variations("aldi", ["aldi stores", "aldi supermarket"]),
    Variations("lidl", ["lidl uk", "lidl supermarket"])
  ]

  /** Either string contains the other. */
  predicate Overlaps(a: string, b: string) {
    Contains(a, b) || Contains(b, a)
  }

  /** The test of the first stage: the option lower-cased is the name. */
  function SameAs(n: string): string -> bool {
    (o: string) => n == Lower(o)
  }

  /** The test of the second stage: the option lower-cased overlaps the name. */
  function OverlapsWith(n: string): string -> bool {
    (o: string) => Overlaps(n, Lower(o))
  }

  /** `storeOptions.find(opt => opt.toLowerCase() === key)`. */
  function FindOption(key: string): (r: Option<string>)
    ensures r.Some? ==> r.value in StoreOptions && Lower(r.value) == key
  {
    match FirstWhere(StoreOptions, (o: string) => Lower(o) == key)
    case Some(i) => Some(StoreOptions[i])
    case None => None
  }

  /** The inner loop over one store's spellings. */
  function MatchSpellings(normalized: string, store: string, spellings: seq<string>): (r: Option<string>)
    ensures r.Some? ==> r.value in StoreOptions && Lower(r.value) == store
  {
    if |spellings| == 0 then None
    else if Overlaps(normalized, spellings[0]) && FindOption(store).Some? then FindOption(store)
    else MatchSpellings(normalized, store, spellings[1..])
  }

  /** The third stage: the known spellings of each store, in table order. */
  function MatchVariations(normalized: string, table: seq<Variations>): (r: Option<string>)
    ensures r.Some? ==> r.value in StoreOptions && Lower(r.value) in StoreKeys(table)
  {
    if |table| == 0 then None
    else match MatchSpellings(normalized, table[0].store, table[0].spellings)
      case Some(o) => Some(o)
      case None => MatchVariations(normalized, table[1..])
  }

  function StoreKeys(table: seq<Variations>): seq<string> {
    if |table| == 0 then [] else [table[0].store] + StoreKeys(table[1..])
  }

  /** `matchStoreName`: nothing for a missing or empty name; otherwise the
      stages below on the lower-cased, trimmed name. ExactMatchWins,
      FirstOverlapWins, NoOptionFallsToVariations and VariationsStageDecides
      state what each stage selects. */
  function MatchStoreName(extracted: Option<string>): (r: Option<string>)
    ensures (extracted.None? || extracted == Some("")) ==> r.None?
    ensures r.Some? ==> r.value in StoreOptions
  {
    match extracted
    case None => None
    case Some(s) => if s == "" then None else MatchNormalized(Normalize(s))
  }

  /** The first stage: the first option equal to the name up to case. */
  function MatchNormalized(n: string): (r: Option<string>)
    ensures r.Some? ==> r.value in StoreOptions
  {
    match FirstWhere(StoreOptions, SameAs(n))
    case Some(i) => Some(StoreOptions[i])
    case None => MatchOverlapping(n)
  }

  /** The second stage: the first option that contains the name or is
      contained in it; failing that, the known spellings. */
  function MatchOverlapping(n: string): (r: Option<string>)
    ensures r.Some? ==> r.value in StoreOptions
  {
    match FirstWhere(StoreOptions, OverlapsWith(n))
    case Some(i) => Some(StoreOptions[i])
    case None => MatchVariations(n, StoreVariations)
  }

  lemma {:induction false} LowerOptions()
    ensures forall i :: 0 <= i < |StoreOptions| ==> Lower(StoreOptions[i]) == LowerStoreOptions[i]
  {
    assert Lower("Tesco") == "tesco";
    assert Lower("Asda") == "asda";
    assert Lower("Aldi") == "aldi";
    assert Lower("Lidl") == "lidl";
    assert Lower("Best foods") == "best foods";
    assert Lower("Quality") == "quality";
    assert Lower("Freshco") == "freshco";
    assert Lower("Others") == "others";
  }

  /** A name equal to an option up to case and surrounding white space selects that option. */
  lemma {:induction false} ExactMatchWins(s: string, i: nat)
    requires i < |StoreOptions| && s != "" && Normalize(s) == Lower(StoreOptions[i])
    ensures MatchStoreName(Some(s)) == Some(StoreOptions[i])
  {
    LowerOptions();
    var n := Normalize(s);
    assert n == LowerStoreOptions[i];
    var r := FirstWhere(StoreOptions, SameAs(n));
    assert r.Some?;
    assert LowerStoreOptions[r.value] == LowerStoreOptions[i];
    DistinctLowerOptions(r.value, i);
  }

  lemma {:induction false} DistinctLowerOptions(i: nat, j: nat)
    requires i < |LowerStoreOptions| && j < |LowerStoreOptions|
    requires LowerStoreOptions[i] == LowerStoreOptions[j]
    ensures i == j
  {
  }

  /** With no exact match, the first option in list order that overlaps the
      normalised name is selected. */
  lemma {:induction false} FirstOverlapWins(s: string, i: nat)
    requires i < |StoreOptions| && s != ""
    requires forall j :: 0 <= j < |StoreOptions| ==> Normalize(s) != Lower(StoreOptions[j])
    requires Overlaps(Normalize(s), Lower(StoreOptions[i]))
    requires forall j :: 0 <= j < i ==> !Overlaps(Normalize(s), Lower(StoreOptions[j]))
    ensures MatchStoreName(Some(s)) == Some(StoreOptions[i])
  {
    var n := Normalize(s);
    assert MatchStoreName(Some(s)) == MatchNormalized(n);
    assert FirstWhere(StoreOptions, SameAs(n)).None? by {
      forall j | 0 <= j < |StoreOptions| ensures !SameAs(n)(StoreOptions[j]) {
      }
    }
    assert MatchNormalized(n) == MatchOverlapping(n);
    var r := FirstWhere(StoreOptions, OverlapsWith(n));
    assert OverlapsWith(n)(StoreOptions[i]);
    assert r.Some?;
    assert r.value == i;
  }

  /** A name made only of white space normalises to "", which every option
      contains, so the first option wins. */
  lemma {:induction false} BlankNameIsTesco(s: string)
    requires s != "" && forall k :: 0 <= k < |s| ==> IsSpace(s[k])
    ensures MatchStoreName(Some(s)) == Some("Tesco")
  {
    assert forall k :: 0 <= k < |Lower(s)| ==> IsSpace(Lower(s)[k]);
    assert Normalize(s) == [];
    EmptyNameIsTesco();
  }

  lemma {:induction false} EmptyNameIsTesco()
    ensures MatchNormalized([]) == Some("Tesco")
  {
    var n: string := [];
    assert forall j :: 0 <= j < |StoreOptions| ==> |StoreOptions[j]| > 0;
    var exact := FirstWhere(StoreOptions, SameAs(n));
    assert exact.None?;
    assert IsPrefix(n, Lower(StoreOptions[0]));
    var r := FirstWhere(StoreOptions, OverlapsWith(n));
    assert r.Some? && r.value == 0;
  }

  /** The known-spellings stage only ever selects Tesco, Asda, Aldi or Lidl. */
  lemma {:induction false} VariationsSelectBigFour(n: string)
    ensures var r := MatchVariations(n, StoreVariations);
            r.Some? ==> r.value in ["Tesco", "Asda", "Aldi", "Lidl"]
  {
    LowerOptions();
    var r := MatchVariations(n, StoreVariations);
    if r.Some? {
      assert StoreKeys(StoreVariations) == ["tesco", "asda", "aldi", "lidl"];
      var i :| 0 <= i < |StoreOptions| && StoreOptions[i] == r.value;
      assert LowerStoreOptions[i] in ["tesco", "asda", "aldi", "lidl"];
    }
  }

  /** Some spelling in `spellings` overlaps the name. */
  predicate AnyOverlap(n: string, spellings: seq<string>) {
    exists i :: 0 <= i < |spellings| && Overlaps(n, spellings[i])
  }

  /** Each key of the spellings table names an option. */
  lemma {:induction false} VariationKeysAreOptions()
    ensures forall k :: 0 <= k < |StoreVariations| ==> FindOption(StoreVariations[k].store) == Some(StoreOptions[k])
  {
    LowerOptions();
    forall k | 0 <= k < |StoreVariations| ensures FindOption(StoreVariations[k].store) == Some(StoreOptions[k]) {
      var key := StoreVariations[k].store;
      var r := FirstWhere(StoreOptions, (o: string) => Lower(o) == key);
      assert Lower(StoreOptions[k]) == key;
      assert r.Some?;
      DistinctLowerOptions(r.value, k);
    }
  }

  /** One store's spellings select the store exactly when one of them overlaps. */
  lemma {:induction false} SpellingsSelect(n: string, store: string, spellings: seq<string>)
    requires FindOption(store).Some?
    ensures MatchSpellings(n, store, spellings) == if AnyOverlap(n, spellings) then FindOption(store) else None
  {
    if |spellings| > 0 {
      SpellingsSelect(n, store, spellings[1..]);
      if !Overlaps(n, spellings[0]) {
        assert AnyOverlap(n, spellings) <==> AnyOverlap(n, spellings[1..]) by {
          if AnyOverlap(n, spellings) {
            var i :| 0 <= i < |spellings| && Overlaps(n, spellings[i]);
            assert spellings[1..][i - 1] == spellings[i];
          }
          if AnyOverlap(n, spellings[1..]) {
            var i :| 0 <= i < |spellings[1..]| && Overlaps(n, spellings[1..][i]);
            assert spellings[i + 1] == spellings[1..][i];
          }
        }
      }
    }
  }

  /** The known-spellings stage selects the first store, in table order, with
      a spelling that overlaps the name, and nothing when no store has one. */
  lemma {:induction false} VariationsSelectFirst(n: string, table: seq<Variations>)
    requires forall k :: 0 <= k < |table| ==> FindOption(table[k].store).Some?
    ensures forall k :: 0 <= k < |table| && AnyOverlap(n, table[k].spellings)
                        && (forall j :: 0 <= j < k ==> !AnyOverlap(n, table[j].spellings))
                        ==> MatchVariations(n, table) == FindOption(table[k].store)
    ensures (forall k :: 0 <= k < |table| ==> !AnyOverlap(n, table[k].spellings)) ==> MatchVariations(n, table).None?
  {
    forall k | 0 <= k < |table| && AnyOverlap(n, table[k].spellings)
               && (forall j :: 0 <= j < k ==> !AnyOverlap(n, table[j].spellings))
      ensures MatchVariations(n, table) == FindOption(table[k].store)
    {
      VariationsSelectAt(n, table, k);
    }
    VariationsSelectNone(n, table);
  }

  /** The first half of `VariationsSelectFirst`, for one store index. */
  lemma {:induction false} VariationsSelectAt(n: string, table: seq<Variations>, k: nat)
    requires forall i :: 0 <= i < |table| ==> FindOption(table[i].store).Some?
    requires k < |table| && AnyOverlap(n, table[k].spellings)
    requires forall j :: 0 <= j < k ==> !AnyOverlap(n, table[j].spellings)
    ensures MatchVariations(n, table) == FindOption(table[k].store)
  {
    if k == 0 {
      FirstStoreStep(n, table);
    } else {
      FirstStoreStep(n, table);
      var rest := table[1..];
      assert rest[k - 1] == table[k];
      forall j | 0 <= j < k - 1 ensures !AnyOverlap(n, rest[j].spellings) {
        assert rest[j] == table[j + 1];
      }
      forall i | 0 <= i < |rest| ensures FindOption(rest[i].store).Some? {
        assert rest[i] == table[i + 1];
      }
      VariationsSelectAt(n, rest, k - 1);
    }
  }

  /** The second half of `VariationsSelectFirst`: no overlapping spelling,
      no store. */
  lemma {:induction false} VariationsSelectNone(n: string, table: seq<Variations>)
    requires forall i :: 0 <= i < |table| ==> FindOption(table[i].store).Some?
    ensures (forall k :: 0 <= k < |table| ==> !AnyOverlap(n, table[k].spellings)) ==> MatchVariations(n, table).None?
  {
    if |table| > 0 && forall k :: 0 <= k < |table| ==> !AnyOverlap(n, table[k].spellings) {
      FirstStoreStep(n, table);
      var rest := table[1..];
      forall i | 0 <= i < |rest| ensures FindOption(rest[i].store).Some? && !AnyOverlap(n, rest[i].spellings) {
        assert rest[i] == table[i + 1];
      }
      VariationsSelectNone(n, rest);
    }
  }

  /** One step of the third stage: the first store is selected when one of
      its spellings overlaps, and skipped otherwise. */
  lemma {:induction false} FirstStoreStep(n: string, table: seq<Variations>)
    requires |table| > 0 && FindOption(table[0].store).Some?
    ensures MatchVariations(n, table)
            == if AnyOverlap(n, table[0].spellings) then FindOption(table[0].store) else MatchVariations(n, table[1..])
  {
    SpellingsSelect(n, table[0].store, table[0].spellings);
  }

  /** No option overlapping the name means no exact match either. */
  lemma {:induction false} NoOverlapNoExact(n: string)
    requires forall j :: 0 <= j < |StoreOptions| ==> !Overlaps(n, Lower(StoreOptions[j]))
    ensures MatchNormalized(n) == MatchVariations(n, StoreVariations)
  {
    assert FirstWhere(StoreOptions, SameAs(n)).None? by {
      assert Overlaps(n, n) by {
        assert IsPrefix(n, n);
      }
      forall j | 0 <= j < |StoreOptions| ensures !SameAs(n)(StoreOptions[j]) {
      }
    }
    assert FirstWhere(StoreOptions, OverlapsWith(n)).None? by {
      forall j | 0 <= j < |StoreOptions| ensures !OverlapsWith(n)(StoreOptions[j]) {
      }
    }
  }

  /** The third stage on the store table: the first store in table order
      with a spelling that overlaps the name is selected, and with none the
      stage gives nothing. */
  lemma {:induction false} VariationsStageDecides(n: string)
    ensures forall k :: 0 <= k < |StoreVariations| && AnyOverlap(n, StoreVariations[k].spellings)
                        && (forall j :: 0 <= j < k ==> !AnyOverlap(n, StoreVariations[j].spellings))
                        ==> MatchVariations(n, StoreVariations) == Some(StoreOptions[k])
    ensures (forall k :: 0 <= k < |StoreVariations| ==> !AnyOverlap(n, StoreVariations[k].spellings))
            ==> MatchVariations(n, StoreVariations).None?
  {
    VariationKeysAreOptions();
    VariationsSelectFirst(n, StoreVariations);
  }

  /** When no option overlaps the name, the known spellings decide (a name
      such as "superstore" or "uk" overlaps no option but does overlap a
      spelling of Tesco or Lidl). */
  lemma {:induction false} NoOptionFallsToVariations(s: string)
    requires s != ""
    requires forall j :: 0 <= j < |StoreOptions| ==> !Overlaps(Normalize(s), Lower(StoreOptions[j]))
    ensures MatchStoreName(Some(s)) == MatchVariations(Normalize(s), StoreVariations)
  {
    NoOverlapNoExact(Normalize(s));
  }

  // ---------------------------------------------------------------------------
  // File checks before upload

  datatype FileCheck = Accepted | NotAnImage | TooLarge

  const MaxUploadBytes: nat := 10 * 1024 * 1024

  /** `processReceiptImage`'s guards: the MIME type must start with "image/",
      checked first, and the size must not exceed 10 MiB. */
  function CheckFile(mimeType: string, size: nat): (r: FileCheck)
    ensures r == Accepted <==> IsPrefix("image/", mimeType) && size <= 10485760
    ensures r == NotAnImage <==> !IsPrefix("image/", mimeType)
  {
    if !IsPrefix("image/", mimeType) then NotAnImage
    else if size > MaxUploadBytes then TooLarge
    else Accepted
  }

  // ---------------------------------------------------------------------------
  // Store auto-selection after a scan

  /** JavaScript truthiness of an optional string. */
  predicate Truthy(s: Option<string>) {
    s.Some? && s.value != ""
  }

  /** `result.store || result.store_info?.name`. */
  function ExtractedStoreName(r: ReceiptResult): Option<string> {
    match r
    case Parsed(_, store, _, _, _) => if store != "" then Some(store) else None
    case Fallback(name, _, _, _, _, _, _) => Some(name)
  }

  /** The store the dropdown is set to after a scan, if any. */
  function AutoSelect(r: ReceiptResult): (sel: Option<string>)
    ensures sel.Some? ==> var e := ExtractedStoreName(r);
              Truthy(e) && e.value != UnknownStore && sel == MatchStoreName(e)
    ensures sel.Some? ==> sel.value in StoreOptions
  {
    var e := ExtractedStoreName(r);
    if Truthy(e) && e.value != UnknownStore then MatchStoreName(e) else None
  }

  /** A fallback result, and a parsed one whose merchant defaulted, never
      pre-select a store: the user has to pick one. */
  lemma {:induction false} UnknownStoreNeverSelected(preprocessError: Option<string>, analysis: Result<Analysis>, showNumber: real -> string)
    requires var r := ProcessReceipt(preprocessError, analysis, showNumber);
             r.Fallback? || r.store == UnknownStore
    ensures AutoSelect(ProcessReceipt(preprocessError, analysis, showNumber)).None?
  {
  }

  // ---------------------------------------------------------------------------
  // Confirmation

  /** A scanned item as the component holds it: any of these keys may be missing. */
  datatype ScannedItem = ScannedItem(itemName: Option<string>, name: Option<string>, quantity: Option<string>,
                                     price: Option<real>, totalPrice: Option<real>)

  /** The receipt items of a scan, as the component reads them. */
  function ScannedItems(r: ReceiptResult): seq<ScannedItem> {
    seq(|r.items|, i requires 0 <= i < |r.items| =>
      ScannedItem(Some(r.items[i].itemName), None, Some(r.items[i].quantity), Some(r.items[i].price), None))
  }

  datatype ConfirmItem = ConfirmItem(name: string, quantity: string, totalPrice: real)

  datatype ConfirmRequest = ConfirmRequest(items: seq<ConfirmItem>, storeName: string)

  /** JavaScript `a || b` on optional strings. */
  function OrElse(a: Option<string>, b: string): string {
    if Truthy(a) then a.value else b
  }

  /** JavaScript `a || b` on optional numbers: 0 is falsy. */
  function OrElseNumber(a: Option<real>, b: real): real {
    if a.Some? && a.value != 0.0 then a.value else b
  }

  function Transform(x: ScannedItem): (c: ConfirmItem)
    ensures c.name == (if Truthy(x.itemName) then x.itemName.value
                       else if Truthy(x.name) then x.name.value else "Unknown Item")
    ensures c.quantity == (if Truthy(x.quantity) then x.quantity.value else "1 pcs")
    ensures c.totalPrice == (if x.price.Some? && x.price.value != 0.0 then x.price.value
                             else if x.totalPrice.Some? && x.totalPrice.value != 0.0 then x.totalPrice.value else 0.0)
  {
    ConfirmItem(OrElse(x.itemName, OrElse(x.name, "Unknown Item")),
                OrElse(x.quantity, "1 pcs"),
                OrElseNumber(x.price, OrElseNumber(x.totalPrice, 0.0)))
  }

  /** `handleConfirmItems`: refused without a scan or without a chosen store;
      otherwise one transformed item per scanned item, in order. */
  function HandleConfirmItems(scan: Option<seq<ScannedItem>>, confirmedStore: string): (r: Result<ConfirmRequest>)
    ensures r.Success? <==> scan.Some? && confirmedStore != ""
    ensures r.Failure? ==> r.error == "Please select a store name"
    ensures r.Success? ==> r.value.storeName == confirmedStore && |r.value.items| == |scan.value|
    ensures r.Success? ==> forall i :: 0 <= i < |scan.value| ==> r.value.items[i] == Transform(scan.value[i])
  {
    if scan.None? || confirmedStore == "" then Failure("Please select a store name")
    else Success(ConfirmRequest(Map(scan.value, Transform), confirmedStore))
  }

  /** Confirming a parsed receipt sends each item's name, quantity and price
      back unchanged, except that an empty name becomes "Unknown Item". */
  lemma {:induction false} ConfirmKeepsParsedItems(r: ReceiptResult, store: string, i: nat)
    requires store != "" && i < |r.items|
    ensures var req := HandleConfirmItems(Some(ScannedItems(r)), store);
            && req.Success?
            && req.value.items[i].name == (if r.items[i].itemName != "" then r.items[i].itemName else "Unknown Item")
            && req.value.items[i].totalPrice == r.items[i].price
            && (r.items[i].quantity != "" ==> req.value.items[i].quantity == r.items[i].quantity)
  {
  }
}

=== FILE: seqs.dfy ===
/** Sequence helpers shared by the aggregations: selection by key, flattening,
    key lookup and sums. */
module Seqs {
  import opened Wrappers

  /** The elements of `s` whose key is `k`, in input order. */
  function Select<T, K(==)>(s: seq<T>, key: T -> K, k: K): (r: seq<T>)
    ensures |r| <= |s|
    ensures forall i :: 0 <= i < |r| ==> r[i] in s && key(r[i]) == k
    ensures forall i :: 0 <= i < |s| && key(s[i]) == k ==> s[i] in r
  {
    if |s| == 0 then []
    else (if key(s[0]) == k then [s[0]] else []) + Select(s[1..], key, k)
  }

  lemma {:induction false} SelectAppend<T, K>(a: seq<T>, b: seq<T>, key: T -> K, k: K)
    ensures Select(a + b, key, k) == Select(a, key, k) + Select(b, key, k)
  {
    if |a| == 0 {
      assert a + b == b;
    } else {
      assert (a + b)[0] == a[0];
      assert (a + b)[1..] == a[1..] + b;
      SelectAppend(a[1..], b, key, k);
    }
  }

  /** Selecting from `s + [x]` adds `x` at the end exactly when its key is `k`. */
  lemma {:induction false} SelectSnoc<T, K>(s: seq<T>, x: T, key: T -> K, k: K)
    ensures Select(s + [x], key, k) == Select(s, key, k) + (if key(x) == k then [x] else [])
  {
    SelectAppend(s, [x], key, k);
    assert [x][1..] == [];
  }

  /** When no element has key `k`, nothing is selected. */
  lemma {:induction false} SelectNone<T, K>(s: seq<T>, key: T -> K, k: K)
    requires forall x :: x in s ==> key(x) != k
    ensures Select(s, key, k) == []
  {
    if |s| > 0 {
      assert s[0] in s;
      assert forall x :: x in s[1..] ==> x in s;
      SelectNone(s[1..], key, k);
    }
  }

  /** The first selected element is the first element with key `k`. */
  lemma {:induction false} SelectFirst<T, K>(s: seq<T>, key: T -> K, k: K, i: nat)
    requires i < |s| && key(s[i]) == k
    requires forall j :: 0 <= j < i ==> key(s[j]) != k
    ensures |Select(s, key, k)| > 0 && Select(s, key, k)[0] == s[i]
  {
    assert s == s[..i] + s[i..];
    SelectAppend(s[..i], s[i..], key, k);
    SelectNone(s[..i], key, k);
  }

  /** The last selected element is the last element with key `k`. */
  lemma {:induction false} SelectLast<T, K>(s: seq<T>, key: T -> K, k: K, i: nat)
    requires i < |s| && key(s[i]) == k
    requires forall j :: i < j < |s| ==> key(s[j]) != k
    ensures |Select(s, key, k)| > 0 && Select(s, key, k)[|Select(s, key, k)| - 1] == s[i]
  {
    var a := s[..i];
    assert s == (a + [s[i]]) + s[i + 1..];
    SelectAppend(a + [s[i]], s[i + 1..], key, k);
    SelectNone(s[i + 1..], key, k);
    SelectSnoc(a, s[i], key, k);
    assert Select(s, key, k) == Select(a, key, k) + [s[i]];
  }

  function Flatten<T>(ss: seq<seq<T>>): seq<T> {
    if |ss| == 0 then [] else ss[0] + Flatten(ss[1..])
  }

  lemma {:induction false} FlattenSnoc<T>(ss: seq<seq<T>>, t: seq<T>)
    ensures Flatten(ss + [t]) == Flatten(ss) + t
  {
    if |ss| == 0 {
      assert ss + [t] == [t];
    } else {
      assert (ss + [t])[1..] == ss[1..] + [t];
      FlattenSnoc(ss[1..], t);
    }
  }

  lemma {:induction false} FlattenAppend<T>(a: seq<seq<T>>, b: seq<seq<T>>)
    ensures Flatten(a + b) == Flatten(a) + Flatten(b)
  {
    if |a| == 0 {
      assert a + b == b;
    } else {
      assert (a + b)[1..] == a[1..] + b;
      FlattenAppend(a[1..], b);
    }
  }

  /** Taking one list out of `ss` takes exactly its elements out of the flattening. */
  lemma {:induction false} FlattenRemove<T>(ss: seq<seq<T>>, i: nat)
    requires i < |ss|
    ensures multiset(Flatten(ss)) == multiset(ss[i]) + multiset(Flatten(ss[..i] + ss[i + 1..]))
  {
    assert ss == ss[..i] + [ss[i]] + ss[i + 1..];
    FlattenAppend(ss[..i] + [ss[i]], ss[i + 1..]);
    FlattenAppend(ss[..i], [ss[i]]);
    FlattenAppend(ss[..i], ss[i + 1..]);
    assert Flatten([ss[i]]) == ss[i];
  }

  function Map<A, B>(s: seq<A>, f: A -> B): (r: seq<B>)
    ensures |r| == |s| && forall i :: 0 <= i < |s| ==> r[i] == f(s[i])
  {
    seq(|s|, i requires 0 <= i < |s| => f(s[i]))
  }

  lemma {:induction false} MapAppend<A, B>(a: seq<A>, b: seq<A>, f: A -> B)
    ensures Map(a + b, f) == Map(a, f) + Map(b, f)
  {
  }

  /** Taking one element out of `b` takes its image out of the mapped multiset. */
  lemma {:induction false} MapRemove<A, B>(b: seq<A>, i: nat, f: A -> B)
    requires i < |b|
    ensures multiset(Map(b, f)) == multiset(Map(b[..i] + b[i + 1..], f)) + multiset{f(b[i])}
  {
    assert Map(b, f) == Map(b[..i], f) + [f(b[i])] + Map(b[i + 1..], f);
    assert Map(b[..i] + b[i + 1..], f) == Map(b[..i], f) + Map(b[i + 1..], f);
  }

  /** Dropping the head of `a` and its copy at `i` from a permutation `b`
      leaves a permutation. */
  lemma {:induction false} RemoveMatching<A>(a: seq<A>, b: seq<A>, i: nat)
    requires multiset(a) == multiset(b) && |a| > 0 && i < |b| && b[i] == a[0]
    ensures multiset(a[1..]) == multiset(b[..i] + b[i + 1..])
  {
    assert a == [a[0]] + a[1..];
    assert b == b[..i] + [b[i]] + b[i + 1..];
    assert multiset(a[1..]) == multiset(a) - multiset{a[0]};
    assert multiset(b[..i] + b[i + 1..]) == multiset(b) - multiset{a[0]};
  }

  /** Mapping a permutation gives a permutation. */
  lemma {:induction false} MapPermutation<A, B>(a: seq<A>, b: seq<A>, f: A -> B)
    requires multiset(a) == multiset(b)
    ensures multiset(Map(a, f)) == multiset(Map(b, f))
    decreases |a|
  {
    if |a| > 0 {
      var x := a[0];
      assert x in multiset(b);
      var i :| 0 <= i < |b| && b[i] == x;
      var rest := b[..i] + b[i + 1..];
      RemoveMatching(a, b, i);
      MapPermutation(a[1..], rest, f);
      MapRemove(b, i, f);
      assert Map(a, f) == [f(x)] + Map(a[1..], f);
    }
  }

  /** Reordering the lists does not change the multiset of their elements. */
  lemma {:induction false} FlattenPermutationSeqs<T>(a: seq<seq<T>>, b: seq<seq<T>>)
    requires multiset(a) == multiset(b)
    ensures multiset(Flatten(a)) == multiset(Flatten(b))
    decreases |a|
  {
    if |a| > 0 {
      var x := a[0];
      assert x in multiset(b);
      var i :| 0 <= i < |b| && b[i] == x;
      var rest := b[..i] + b[i + 1..];
      assert b == b[..i] + [x] + b[i + 1..];
      assert a == [x] + a[1..];
      assert multiset(a[1..]) == multiset(a) - multiset{x};
      assert multiset(rest) == multiset(b) - multiset{x};
      FlattenPermutationSeqs(a[1..], rest);
      FlattenRemove(b, i);
    }
  }

  /** Appending `x` to one of the lists adds exactly `x` to the flattened multiset. */
  lemma {:induction false} FlattenUpdate<T>(ss: seq<seq<T>>, i: nat, x: T)
    requires i < |ss|
    ensures multiset(Flatten(ss[i := ss[i] + [x]])) == multiset(Flatten(ss)) + multiset{x}
  {
    var t := ss[i := ss[i] + [x]];
    if i == 0 {
      assert t[1..] == ss[1..];
      assert Flatten(t) == (ss[0] + [x]) + Flatten(ss[1..]);
    } else {
      assert t[1..] == ss[1..][i - 1 := ss[i] + [x]];
      FlattenUpdate(ss[1..], i - 1, x);
      assert Flatten(t) == ss[0] + Flatten(t[1..]);
    }
  }

  /** The first index holding `k`, if any. */
  function IndexOf<K(==)>(keys: seq<K>, k: K): (r: Option<nat>)
    ensures r.Some? ==> r.value < |keys| && keys[r.value] == k
    ensures r.Some? ==> forall j :: 0 <= j < r.value ==> keys[j] != k
    ensures r.None? <==> k !in keys
  {
    if |keys| == 0 then None
    else if keys[0] == k then Some(0)
    else match IndexOf(keys[1..], k)
      case Some(i) => Some(i + 1)
      case None => None
  }

  /** `s.findIndex(p)` as an option: the first index whose element satisfies `p`. */
  function FirstWhere<T>(s: seq<T>, p: T -> bool): (r: Option<nat>)
    ensures r.Some? ==> r.value < |s| && p(s[r.value])
    ensures r.Some? ==> forall j :: 0 <= j < r.value ==> !p(s[j])
    ensures r.None? <==> forall j :: 0 <= j < |s| ==> !p(s[j])
  {
    if |s| == 0 then None
    else if p(s[0]) then Some(0)
    else match FirstWhere(s[1..], p)
      case Some(i) => Some(i + 1)
      case None => None
  }

  /** `s.filter(p)` / `WHERE p`: the elements satisfying `p`, in input order. */
  function Filter<T>(s: seq<T>, p: T -> bool): (r: seq<T>)
    ensures |r| <= |s|
    ensures forall i :: 0 <= i < |r| ==> r[i] in s && p(r[i])
    ensures forall i :: 0 <= i < |s| && p(s[i]) ==> s[i] in r
  {
    if |s| == 0 then [] else (if p(s[0]) then [s[0]] else []) + Filter(s[1..], p)
  }

  lemma {:induction false} FilterAppend<T>(a: seq<T>, b: seq<T>, p: T -> bool)
    ensures Filter(a + b, p) == Filter(a, p) + Filter(b, p)
  {
    if |a| == 0 {
      assert a + b == b;
    } else {
      assert (a + b)[0] == a[0];
      assert (a + b)[1..] == a[1..] + b;
      FilterAppend(a[1..], b, p);
    }
  }

  /** Filtering first by a weaker condition changes nothing. */
  lemma {:induction false} FilterImplied<T>(s: seq<T>, p: T -> bool, q: T -> bool)
    requires forall x :: q(x) ==> p(x)
    ensures Filter(Filter(s, p), q) == Filter(s, q)
  {
    if |s| > 0 {
      FilterImplied(s[1..], p, q);
      var head := if q(s[0]) then [s[0]] else [];
      assert Filter(s, q) == head + Filter(s[1..], q);
      if p(s[0]) {
        var t := [s[0]] + Filter(s[1..], p);
        assert Filter(s, p) == t;
        assert t[0] == s[0] && t[1..] == Filter(s[1..], p);
        assert Filter(t, q) == head + Filter(t[1..], q);
      } else {
        assert Filter(s, p) == [] + Filter(s[1..], p) == Filter(s[1..], p);
        assert head == [];
      }
    }
  }

  /** A relation that holds between every element and each later one still
      does after filtering, which keeps the survivors in order. */
  lemma {:induction false} FilterKeepsPairs<T>(s: seq<T>, p: T -> bool, rel: (T, T) -> bool)
    requires forall a, b :: 0 <= a < b < |s| ==> rel(s[a], s[b])
    ensures forall i, j :: 0 <= i < j < |Filter(s, p)| ==> rel(Filter(s, p)[i], Filter(s, p)[j])
  {
    if |s| > 0 {
      FilterKeepsPairs(s[1..], p, rel);
      var t' := Filter(s[1..], p);
      forall j | 0 <= j < |t'| ensures rel(s[0], t'[j]) {
        assert t'[j] in s[1..];
        var k :| 0 <= k < |s[1..]| && s[1..][k] == t'[j];
        assert s[k + 1] == t'[j];
      }
      var t := Filter(s, p);
      if p(s[0]) {
        assert t == [s[0]] + t';
        forall i, j | 0 <= i < j < |t| ensures rel(t[i], t[j]) {
          assert t[j] == t'[j - 1];
          if i > 0 {
            assert t[i] == t'[i - 1];
            assert rel(t'[i - 1], t'[j - 1]);
          } else {
            assert rel(s[0], t'[j - 1]);
          }
        }
      } else {
        assert t == t';
      }
    }
  }

  /** `s.reduce((sum, x) => sum + f(x), 0)`. */
  function Sum<T>(s: seq<T>, f: T -> real): real {
    if |s| == 0 then 0.0 else f(s[0]) + Sum(s[1..], f)
  }

  lemma {:induction false} SumAppend<T>(a: seq<T>, b: seq<T>, f: T -> real)
    ensures Sum(a + b, f) == Sum(a, f) + Sum(b, f)
  {
    if |a| == 0 {
      assert a + b == b;
    } else {
      assert (a + b)[0] == a[0];
      assert (a + b)[1..] == a[1..] + b;
      SumAppend(a[1..], b, f);
    }
  }

  lemma {:induction false} SumSnoc<T>(s: seq<T>, x: T, f: T -> real)
    ensures Sum(s + [x], f) == Sum(s, f) + f(x)
  {
    SumAppend(s, [x], f);
  }

  /** Replacing one element changes the sum by the difference of its terms. */
  lemma {:induction false} SumUpdate<T>(s: seq<T>, i: nat, y: T, f: T -> real)
    requires i < |s|
    ensures Sum(s[i := y], f) == Sum(s, f) - f(s[i]) + f(y)
  {
    if i > 0 {
      assert s[i := y][1..] == s[1..][i - 1 := y];
      SumUpdate(s[1..], i - 1, y, f);
    }
  }

  /** A sum does not depend on the order of its terms. */
  lemma {:induction false} SumPermutation<T>(a: seq<T>, b: seq<T>, f: T -> real)
    requires multiset(a) == multiset(b)
    ensures Sum(a, f) == Sum(b, f)
    decreases |a|
  {
    if |a| > 0 {
      var x := a[0];
      assert x in multiset(b);
      var i :| 0 <= i < |b| && b[i] == x;
      var rest := b[..i] + b[i + 1..];
      assert b == b[..i] + [x] + b[i + 1..];
      assert a == [x] + a[1..];
      assert multiset(b) == multiset(b[..i]) + multiset{x} + multiset(b[i + 1..]);
      assert multiset(a) == multiset{x} + multiset(a[1..]);
      assert multiset(rest) == multiset(b[..i]) + multiset(b[i + 1..]);
      assert multiset(a[1..]) == multiset(a) - multiset{x};
      assert multiset(rest) == multiset(b) - multiset{x};
      SumPermutation(a[1..], rest, f);
      SumAppend(b[..i] + [x], b[i + 1..], f);
      SumAppend(b[..i], [x], f);
      SumAppend(b[..i], b[i + 1..], f);
    }
  }

  /** A sum of positive terms over a non-empty sequence is positive. */
  lemma {:induction false} SumPositive<T>(s: seq<T>, f: T -> real)
    requires forall x :: x in s ==> f(x) > 0.0
    ensures |s| > 0 ==> Sum(s, f) > 0.0
    ensures Sum(s, f) >= 0.0
  {
    if |s| > 0 {
      assert s[0] in s;
      assert forall x :: x in s[1..] ==> x in s;
      SumPositive(s[1..], f);
    }
  }
}

=== FILE: server.dfy ===
/** The request guards and the receipt-confirmation endpoint of the backend
    API. Each endpoint is a function from the database and the request to the
    database after the call and the HTTP error it raises, if any. The signed
    token itself, the Azure call and the scan record are not modelled. */
module Server {
  import opened Wrappers
  import opened Seqs
  import opened Text
  import opened EmailPattern
  import Accounts
  import GroceryTable

  /** The authenticated caller as `get_current_user` returns it; the role is
      `payload.get("role")` and may be missing. */
  datatype Caller = Caller(userId: int, role: Option<string>)

  /** The accounts database after the call, and the error raised (`None` for a 2xx reply). */
  datatype Outcome = Outcome(db: Accounts.Db, error: Option<HttpError>)

  // ---------------------------------------------------------------------------
  // Access tokens

  /** Without a delta a token lives 15 minutes. */
  const DefaultTokenSeconds: int := 15 * 60

  /** Login tokens live `ACCESS_TOKEN_EXPIRE_MINUTES = 30` minutes. */
  const AccessTokenExpireMinutes: int := 30

  /** The `exp` claim of `create_access_token`, in seconds: `now + delta` when
      the delta is truthy; a missing or zero delta gives the default. */
  function TokenExpiry(now: int, delta: Option<int>): (r: int)
    ensures delta.Some? && delta.value != 0 ==> r == now + delta.value
    ensures delta.None? || delta.value == 0 ==> r == now + 900
  {
    if delta.Some? && delta.value != 0 then now + delta.value else now + DefaultTokenSeconds
  }

  /** The expiry of the token `login` issues. */
  function LoginTokenExpiry(now: int): (r: int)
    ensures r == now + 1800
    ensures r - now == 2 * (TokenExpiry(now, None) - now)
  {
    TokenExpiry(now, Some(AccessTokenExpireMinutes * 60))
  }

  // ---------------------------------------------------------------------------
  // Guards

  /** `get_current_admin_user`: any role other than exactly "admin", including
      a missing one, is refused with 403. */
  function RequireAdmin(caller: Caller): (r: Option<HttpError>)
    ensures r.None? <==> caller.role == Some("admin")
    ensures r.Some? ==> r.value == HttpError(403, "Not enough permissions")
  {
    if caller.role != Some("admin") then Some(HttpError(403, "Not enough permissions")) else None
  }

  const AllowedExtensions: seq<string> := ["jpg", "jpeg", "png"]

  const MaxUploadBytes: nat := 10 * 1024 * 1024

  /** `file.filename.split('.')[-1].lower()`. */
  function Extension(filename: string): string {
    Lower(AfterLast(filename, '.'))
  }

  /** The checks of `scan_receipt` before processing, in order: a file name,
      an allowed extension, then at most 10 MiB of content. */
  function CheckUpload(filename: Option<string>, size: nat): (r: Option<HttpError>)
    ensures (filename.None? || filename == Some("")) ==> r == Some(HttpError(400, "No file provided"))
    ensures r.None? <==> && filename.Some? && filename.value != ""
                         && Extension(filename.value) in AllowedExtensions && size <= MaxUploadBytes
    ensures r == Some(HttpError(413, "File too large. Maximum size: 10MB")) <==>
              && filename.Some? && filename.value != ""
              && Extension(filename.value) in AllowedExtensions && size > 10485760
    ensures r.Some? ==> r.value.status == 400 || r.value.status == 413
  {
    if filename.None? || filename.value == "" then Some(HttpError(400, "No file provided"))
    else if Extension(filename.value) !in AllowedExtensions then
      Some(HttpError(400, "File type not allowed. Supported: jpg, jpeg, png"))
    else if size > MaxUploadBytes then Some(HttpError(413, "File too large. Maximum size: 10MB"))
    else None
  }

  /** Only the text after the last dot counts, in any case: `"a.PNG.jpg"` and
      `"photo.JPEG"` pass, `"jpg.exe"` does not. */
  lemma {:induction false} ExtensionIsLastPart(prefix: string, ext: string)
    requires '.' !in ext
    ensures Extension(prefix + "." + ext) == Lower(ext)
  {
    var f := prefix + "." + ext;
    assert f[|prefix|] == '.' && f[|prefix| + 1..] == ext;
    AfterLastAt(f, '.', |prefix|);
  }

  /** A name without a dot is its own extension: a file called `png` passes. */
  lemma {:induction false} NoDotIsOwnExtension(filename: string)
    requires '.' !in filename
    ensures Extension(filename) == Lower(filename)
  {
    AfterLastNone(filename, '.');
  }

  // ---------------------------------------------------------------------------
  // Account endpoints

  /** The body of `register_public` once the email test `emailOk` is decided:
      all three fields, the email test, then `create_user` with role "user". */
  function Register(db: Accounts.Db, username: string, password: string, email: string, emailOk: bool,
                    hash: string -> string, errorText: Accounts.Violation -> string): Outcome {
    if username == "" || password == "" || email == "" then
      Outcome(db, Some(HttpError(400, "Username, email, and password are required")))
    else if !emailOk then Outcome(db, Some(HttpError(400, "Invalid email format")))
    else
      var res := Accounts.CreateUser(db, username, password, "user", Some(email), hash, errorText);
      if res.success then Outcome(res.db, None) else Outcome(db, Some(HttpError(400, res.message)))
  }

  /** `register_public` as written: the email is tested with `re.match`, whose
      `$` also accepts one final line feed. Every refusal is a 400. */
  function RegisterPublic(db: Accounts.Db, username: string, password: string, email: string,
                          hash: string -> string, errorText: Accounts.Violation -> string): (r: Outcome)
    ensures (username == "" || password == "" || email == "") ==>
              r == Outcome(db, Some(HttpError(400, "Username, email, and password are required")))
    ensures r.error.None? <==>
              && username != "" && password != "" && email != "" && PythonMatch(email)
              && Accounts.Conflict(db, username, Some(email)).None?
    ensures r.error.Some? ==> r.db == db && r.error.value.status == 400
    ensures username != "" && password != "" && email != "" && !PythonMatch(email) ==>
              r.error == Some(HttpError(400, "Invalid email format"))
    ensures r.error.None? ==> r.db.users == db.users + [Accounts.User(db.nextUserId, username, Some(email), hash(password), "user")]
  {
    AsWrittenIsPython(email);
    Register(db, username, password, email, EmailMatchesAsWritten(email), hash, errorText)
  }

  /** `register_public` with the evidently intended whole-string email test. */
  function RegisterPublicIntended(db: Accounts.Db, username: string, password: string, email: string,
                                  hash: string -> string, errorText: Accounts.Violation -> string): (r: Outcome)
    ensures (username == "" || password == "" || email == "") ==>
              r == Outcome(db, Some(HttpError(400, "Username, email, and password are required")))
    ensures r.error.None? <==>
              && username != "" && password != "" && email != "" && PatternBody(email)
              && Accounts.Conflict(db, username, Some(email)).None?
    ensures r.error.Some? ==> r.db == db && r.error.value.status == 400
    ensures username != "" && password != "" && email != "" && !PatternBody(email) ==>
              r.error == Some(HttpError(400, "Invalid email format"))
    ensures r.error.None? ==> r.db.users == db.users + [Accounts.User(db.nextUserId, username, Some(email), hash(password), "user")]
    ensures r.error.None? ==> email[|email| - 1] != '\n'
  {
    EmailMatchesIntended(email);
    Register(db, username, password, email, EmailMatches(email), hash, errorText)
  }

  /** The endpoint as written stores an email with a final line feed that the
      intended endpoint refuses; on every other email the two agree. */
  lemma {:induction false} RegisterStoresTrailingLineFeed(db: Accounts.Db, username: string, password: string,
                                       hash: string -> string, errorText: Accounts.Violation -> string)
    requires username != "" && password != ""
    requires Accounts.Conflict(db, username, Some("ab@cd.ef\n")).None?
    ensures var r := RegisterPublic(db, username, password, "ab@cd.ef\n", hash, errorText);
            r.error.None? && r.db.users[|db.users|].email == Some("ab@cd.ef\n")
    ensures RegisterPublicIntended(db, username, password, "ab@cd.ef\n", hash, errorText).error
              == Some(HttpError(400, "Invalid email format"))
  {
    TrailingLineFeedAccepted();
  }

  lemma {:induction false} RegisterAgreesAwayFromLineFeed(db: Accounts.Db, username: string, password: string, email: string,
                                       hash: string -> string, errorText: Accounts.Violation -> string)
    requires email == "" || email[|email| - 1] != '\n'
    ensures RegisterPublic(db, username, password, email, hash, errorText)
            == RegisterPublicIntended(db, username, password, email, hash, errorText)
  {
    EmailMatchesIntended(email);
  }

  /** Public sign-up never creates an administrator. */
  lemma {:induction false} RegisterMakesPlainUsers(db: Accounts.Db, username: string, password: string, email: string,
                                hash: string -> string, errorText: Accounts.Violation -> string)
    ensures var r := RegisterPublic(db, username, password, email, hash, errorText);
            forall i :: |db.users| <= i < |r.db.users| ==> r.db.users[i].role == "user"
  {
  }

  /** `reset_password`: a new password under six characters is refused before
      the token is looked at; otherwise the database reset decides. */
  function ResetPasswordEndpoint(db: Accounts.Db, token: string, newPassword: string, hash: string -> string, now: int): (r: Outcome)
    ensures |newPassword| < 6 ==> r == Outcome(db, Some(HttpError(400, "Password must be at least 6 characters long")))
    ensures r.error.None? <==> |newPassword| >= 6 && Accounts.ResetPassword(db, token, newPassword, hash, now).success
    ensures r.error.Some? ==> r.db == db && r.error.value.status == 400
    ensures r.error.None? ==> r.db == Accounts.ResetPassword(db, token, newPassword, hash, now).db
    ensures |newPassword| >= 6 && r.error.Some? ==> r.error == Some(HttpError(400, Accounts.InvalidToken))
  {
    if newPassword == "" || |newPassword| < 6 then
      Outcome(db, Some(HttpError(400, "Password must be at least 6 characters long")))
    else
      var res := Accounts.ResetPassword(db, token, newPassword, hash, now);
      if res.success then Outcome(res.db, None) else Outcome(db, Some(HttpError(400, res.message)))
  }

  /** A short password leaves every token usable: the request changes nothing. */
  lemma {:induction false} ShortPasswordKeepsToken(db: Accounts.Db, token: string, newPassword: string, hash: string -> string, now: int)
    requires |newPassword| < 6
    ensures var r := ResetPasswordEndpoint(db, token, newPassword, hash, now);
            r.db == db && Accounts.VerifyResetToken(r.db, token, now) == Accounts.VerifyResetToken(db, token, now)
  {
  }

  /** The admin update endpoint: `user_data.get` of each field, then `update_user`. */
  function UpdateUserEndpoint(db: Accounts.Db, caller: Caller, userId: int,
                              username: Option<string>, password: Option<string>, role: Option<string>,
                              hash: string -> string): (r: Outcome)
    ensures RequireAdmin(caller).Some? ==> r == Outcome(db, RequireAdmin(caller))
    ensures r.error.None? <==> RequireAdmin(caller).None? && Accounts.UpdateUser(db, userId, username, password, role, hash).success
    ensures r.error.Some? ==> r.db == db
    ensures r.error.None? ==> r.db == Accounts.UpdateUser(db, userId, username, password, role, hash).db
    ensures r.error.Some? && RequireAdmin(caller).None? ==>
              r.error == Some(HttpError(400, Accounts.UpdateUser(db, userId, username, password, role, hash).message))
  {
    if RequireAdmin(caller).Some? then Outcome(db, RequireAdmin(caller))
    else
      var res := Accounts.UpdateUser(db, userId, username, password, role, hash);
      if res.success then Outcome(res.db, None) else Outcome(db, Some(HttpError(400, res.message)))
  }

  /** The admin delete endpoint: 403 for non-admins, 400 for deleting
      oneself, 404 for an unknown id. */
  function DeleteUserEndpoint(db: Accounts.Db, caller: Caller, userId: int): (r: Outcome)
    ensures RequireAdmin(caller).Some? ==> r == Outcome(db, RequireAdmin(caller))
    ensures RequireAdmin(caller).None? && userId == caller.userId ==>
              r == Outcome(db, Some(HttpError(400, "Cannot delete your own account")))
    ensures r.error.None? <==>
              && RequireAdmin(caller).None? && userId != caller.userId
              && exists i :: 0 <= i < |db.users| && db.users[i].id == userId
    ensures r.error.Some? ==> r.db == db
    ensures r.error.None? ==> r.db == Accounts.DeleteUser(db, userId).db
    ensures r.error.Some? && RequireAdmin(caller).None? && userId != caller.userId ==>
              r.error == Some(HttpError(404, "User not found"))
  {
    if RequireAdmin(caller).Some? then Outcome(db, RequireAdmin(caller))
    else if userId == caller.userId then Outcome(db, Some(HttpError(400, "Cannot delete your own account")))
    else
      var res := Accounts.DeleteUser(db, userId);
      if res.success then Outcome(res.db, None) else Outcome(db, Some(HttpError(404, res.message)))
  }

  /** Whatever the database holds, the caller's own account survives a delete
      request, and it survives any delete request of a non-admin. */
  lemma {:induction false} CallerSurvivesDelete(db: Accounts.Db, caller: Caller, userId: int, k: nat)
    requires k < |db.users| && db.users[k].id == caller.userId
    ensures db.users[k] in DeleteUserEndpoint(db, caller, userId).db.users
  {
  }

  // ---------------------------------------------------------------------------
  // confirm_receipt_items

  /** One entry of the request's `items`; each key may be missing. */
  datatype ConfirmEntry = ConfirmEntry(name: Option<string>, quantity: Option<string>, totalPrice: Option<real>)

  /** The request body: `items` and `store_name` may be missing. */
  datatype ConfirmBody = ConfirmBody(items: Option<seq<ConfirmEntry>>, storeName: Option<string>)

  /** The endpoint's reply: an error with the grocery table as the failed
      call leaves it, or the table after the adds with the added rows and the
      scan record's total and count. */
  datatype ConfirmReply =
    | Refused(error: HttpError, rows: seq<GroceryTable.Row>)
    | Saved(rows: seq<GroceryTable.Row>, added: seq<GroceryTable.Row>, totalAmount: real, itemsCount: nat, message: string)

  /** The loop's outcome: the table and the rows inserted so far, and whether
      every entry was inserted. */
  datatype AddRun = AddRun(rows: seq<GroceryTable.Row>, added: seq<GroceryTable.Row>, complete: bool)

  function TotalOrZero(e: ConfirmEntry): real { e.totalPrice.GetOr(0.0) }

  /** The `grocery_item_data` built for one entry. */
  function EntryData(e: ConfirmEntry, storeName: string, today: string): GroceryTable.ItemData {
    GroceryTable.ItemData(Some(e.name.GetOr("Unknown Item")), Some(storeName), Some(e.quantity.GetOr("1 kg")),
                          Some(e.totalPrice.GetOr(0.0)), Some(today))
  }

  /** The rows the loop adds: entry `k` gets the `k`-th generated id, and the
      date and creation time read from the clock at its own insert. */
  ghost predicate AddedFrom(added: seq<GroceryTable.Row>, entries: seq<ConfirmEntry>, storeName: string, userId: int,
                            uuid: nat -> string, today: nat -> string, now: nat -> int) {
    && |added| == |entries|
    && forall k :: 0 <= k < |entries| ==>
         added[k] == GroceryTable.Row(uuid(k), entries[k].name.GetOr("Unknown Item"), storeName,
                                      entries[k].quantity.GetOr("1 kg"), entries[k].totalPrice.GetOr(0.0),
                                      today(k), now(k), userId)
  }

  /** `after` is `before` followed by the rows of the first few entries: each
      insert commits on its own, so a failure keeps what went in before it. */
  ghost predicate PrefixAdded(before: seq<GroceryTable.Row>, after: seq<GroceryTable.Row>, entries: seq<ConfirmEntry>,
                              storeName: string, userId: int, uuid: nat -> string, today: nat -> string, now: nat -> int) {
    && |before| <= |after| <= |before| + |entries|
    && after[..|before|] == before
    && AddedFrom(after[|before|..], entries[..|after| - |before|], storeName, userId, uuid, today, now)
  }

  /** The `for item in items` loop: one `add_grocery_item` per entry, in
      order, stopping at the first insert that raises, whose generated id is
      already in the table. */
  function AddAll(rows: seq<GroceryTable.Row>, entries: seq<ConfirmEntry>, storeName: string, userId: int,
                  uuid: nat -> string, today: nat -> string, now: nat -> int): (r: AddRun)
    ensures r.rows == rows + r.added
    ensures |r.added| <= |entries|
    ensures AddedFrom(r.added, entries[..|r.added|], storeName, userId, uuid, today, now)
    ensures r.complete <==> |r.added| == |entries|
    ensures !r.complete ==> exists i :: 0 <= i < |r.rows| && r.rows[i].id == uuid(|r.added|)
  {
    if |entries| == 0 then AddRun(rows, [], true)
    else
      var n := |entries| - 1;
      var acc := AddAll(rows, entries[..n], storeName, userId, uuid, today, now);
      assert entries[..n][..|acc.added|] == entries[..|acc.added|];
      if !acc.complete then AddRun(acc.rows, acc.added, false)
      else
        match GroceryTable.AddGroceryItem(acc.rows, EntryData(entries[n], storeName, today(n)), userId, uuid(n), today(n), now(n))
        case None => AddRun(acc.rows, acc.added, false)
        case Some(a) =>
          assert entries[..n + 1] == entries;
          AddRun(a.rows, acc.added + [a.item], true)
  }

  /** Decimal digits of a count, as an f-string shows it. */
  function ShowNat(n: nat): string {
    if n < 10 then ["0123456789"[n]] else ShowNat(n / 10) + ["0123456789"[n % 10]]
  }

  /** The part of the endpoint after the empty-items check: the adds, the
      scan record, the total of the entries' prices and the message. A failed
      insert, or a failed `save_receipt_scan` (`scanError`), surfaces through
      the catch-all handler as a 500, with the rows already inserted kept. */
  function SaveEntries(rows: seq<GroceryTable.Row>, entries: seq<ConfirmEntry>, storeName: string, userId: int,
                       uuid: nat -> string, today: nat -> string, now: nat -> int, insertError: string,
                       scanError: Option<string>): ConfirmReply {
    var run := AddAll(rows, entries, storeName, userId, uuid, today, now);
    if !run.complete then Refused(HttpError(500, "Failed to add items: " + insertError), run.rows)
    else if scanError.Some? then Refused(HttpError(500, "Failed to add items: " + scanError.value), run.rows)
    else
      Saved(run.rows, run.added, Sum(entries, TotalOrZero), |entries|,
            "Added " + ShowNat(|run.added|) + " items to your grocery list")
  }

  /** `confirm_receipt_items` as written: the 400 for an empty list is raised
      inside the `try`, so `except Exception` turns it into a 500 whose detail
      embeds `str(e)`, given here as `shown`. */
  function ConfirmReceiptItemsAsWritten(rows: seq<GroceryTable.Row>, body: ConfirmBody, userId: Option<int>,
                                        uuid: nat -> string, today: nat -> string, now: nat -> int,
                                        shown: HttpError -> string, insertError: string,
                                        scanError: Option<string>): (r: ConfirmReply)
    ensures body.items.GetOr([]) == [] ==>
              r == Refused(HttpError(500, "Failed to add items: " + shown(HttpError(400, "No items provided"))), rows)
  {
    var entries := body.items.GetOr([]);
    if entries == [] then
      var inner := HttpError(400, "No items provided");
      Refused(HttpError(500, "Failed to add items: " + shown(inner)), rows)
    else
      SaveEntries(rows, entries, body.storeName.GetOr("Unknown Store"), userId.GetOr(1), uuid, today, now,
                  insertError, scanError)
  }

  /** `confirm_receipt_items` with the evidently intended 400 for an empty
      list. Every saved row carries the request's store, the total is the sum
      of the entries' prices and the count their number. A 500 keeps the rows
      inserted before the failure: all of them when the scan record failed,
      otherwise those before an entry whose generated id was taken. */
  function ConfirmReceiptItems(rows: seq<GroceryTable.Row>, body: ConfirmBody, userId: Option<int>,
                               uuid: nat -> string, today: nat -> string, now: nat -> int, insertError: string,
                               scanError: Option<string>): (r: ConfirmReply)
    ensures body.items.GetOr([]) == [] ==> r == Refused(HttpError(400, "No items provided"), rows)
    ensures r.Saved? ==>
              var entries := body.items.GetOr([]);
              && entries != [] && scanError.None?
              && r.rows == rows + r.added
              && AddedFrom(r.added, entries, body.storeName.GetOr("Unknown Store"), userId.GetOr(1), uuid, today, now)
              && r.totalAmount == Sum(entries, TotalOrZero)
              && r.itemsCount == |entries| == |r.added|
    ensures r.Refused? && body.items.GetOr([]) != [] ==>
              var entries := body.items.GetOr([]);
              && r.error.status == 500
              && PrefixAdded(rows, r.rows, entries, body.storeName.GetOr("Unknown Store"), userId.GetOr(1), uuid, today, now)
              && (|r.rows| < |rows| + |entries| ==>
                    && r.error == HttpError(500, "Failed to add items: " + insertError)
                    && exists i :: 0 <= i < |r.rows| && r.rows[i].id == uuid(|r.rows| - |rows|))
              && (|r.rows| == |rows| + |entries| ==>
                    scanError.Some? && r.error == HttpError(500, "Failed to add items: " + scanError.value))
  {
    var entries := body.items.GetOr([]);
    if entries == [] then Refused(HttpError(400, "No items provided"), rows)
    else
      var store, user := body.storeName.GetOr("Unknown Store"), userId.GetOr(1);
      var run := AddAll(rows, entries, store, user, uuid, today, now);
      assert run.rows[..|rows|] == rows && run.rows[|rows|..] == run.added;
      SaveEntries(rows, entries, store, user, uuid, today, now, insertError, scanError)
  }

  /** The as-written endpoint answers an empty or missing list with a server
      error, where the intended one answers with a client error; on every
      other request the two agree. */
  lemma {:induction false} EmptyItemsStatus(rows: seq<GroceryTable.Row>, body: ConfirmBody, userId: Option<int>,
                         uuid: nat -> string, today: nat -> string, now: nat -> int, shown: HttpError -> string, insertError: string,
                         scanError: Option<string>)
    ensures body.items.GetOr([]) == [] ==>
              && ConfirmReceiptItemsAsWritten(rows, body, userId, uuid, today, now, shown, insertError, scanError).error.status == 500
              && ConfirmReceiptItems(rows, body, userId, uuid, today, now, insertError, scanError).error.status == 400
    ensures body.items.GetOr([]) != [] ==>
              ConfirmReceiptItemsAsWritten(rows, body, userId, uuid, today, now, shown, insertError, scanError)
              == ConfirmReceiptItems(rows, body, userId, uuid, today, now, insertError, scanError)
  {
  }

  /** With non-negative prices on every entry, the recorded total is at least
      the price of each saved row. */
  lemma {:induction false} TotalCoversEachRow(rows: seq<GroceryTable.Row>, body: ConfirmBody, userId: Option<int>,
                           uuid: nat -> string, today: nat -> string, now: nat -> int, insertError: string,
                           scanError: Option<string>, k: nat)
    requires forall e :: e in body.items.GetOr([]) ==> TotalOrZero(e) >= 0.0
    ensures var r := ConfirmReceiptItems(rows, body, userId, uuid, today, now, insertError, scanError);
            r.Saved? && k < |r.added| ==> r.added[k].price <= r.totalAmount
  {
    var r := ConfirmReceiptItems(rows, body, userId, uuid, today, now, insertError, scanError);
    if r.Saved? && k < |r.added| {
      var entries := body.items.GetOr([]);
      assert entries == entries[..k] + [entries[k]] + entries[k + 1..];
      SumAppend(entries[..k] + [entries[k]], entries[k + 1..], TotalOrZero);
      SumAppend(entries[..k], [entries[k]], TotalOrZero);
      NonNegativeSum(entries[..k]);
      NonNegativeSum(entries[k + 1..]);
    }
  }

  /** With a clock that moves forward between inserts, and the caller's
      earlier rows all older than the first insert, the caller's listing after
      a confirmation starts with the last item confirmed. */
  lemma {:induction false} LastConfirmedListedFirst(rows: seq<GroceryTable.Row>, body: ConfirmBody, userId: Option<int>,
                           uuid: nat -> string, today: nat -> string, now: nat -> int, insertError: string,
                           scanError: Option<string>, limit: nat)
    requires limit > 0
    requires forall i: nat, j: nat :: i < j ==> now(i) < now(j)
    requires forall i :: 0 <= i < |rows| && rows[i].userId == userId.GetOr(1) ==> rows[i].createdAt < now(0)
    ensures var r := ConfirmReceiptItems(rows, body, userId, uuid, today, now, insertError, scanError);
            var listed := GroceryTable.GetGroceryItems(r.rows, userId.GetOr(1), limit);
            r.Saved? ==> r.added != [] && listed != [] && listed[0] == r.added[|r.added| - 1]
  {
    var r := ConfirmReceiptItems(rows, body, userId, uuid, today, now, insertError, scanError);
    if r.Saved? {
      var m := |r.added|;
      forall j | 0 <= j < m - 1
        ensures r.added[j].createdAt < r.added[m - 1].createdAt
      {
        assert now(j) < now(m - 1);
      }
      if m > 1 {
        assert now(0) < now(m - 1);
      }
      GroceryTable.NewestListedFirst(rows, r.added, userId.GetOr(1), limit);
    }
  }

  lemma {:induction false} NonNegativeSum(s: seq<ConfirmEntry>)
    requires forall e :: e in s ==> TotalOrZero(e) >= 0.0
    ensures Sum(s, TotalOrZero) >= 0.0
  {
    if |s| > 0 {
      assert s[0] in s;
      assert forall e :: e in s[1..] ==> e in s;
      NonNegativeSum(s[1..]);
    }
  }
}

=== FILE: sorting.dfy ===
/** `array.sort((a, b) => key(b) - key(a))` as the source uses it: JavaScript's
    sort is stable, so the result is the descending order by `key` in which
    elements with equal keys keep their input order. */
module Sorting {
  import opened Seqs

  ghost predicate NonIncreasing<T>(s: seq<T>, key: T -> real) {
    forall i, j :: 0 <= i < j < |s| ==> key(s[i]) >= key(s[j])
  }

  /** `x` goes after every element whose key is at least its own. */
  function InsertDesc<T>(sorted: seq<T>, x: T, key: T -> real): (r: seq<T>)
    ensures |r| == |sorted| + 1
  {
    if |sorted| == 0 then [x]
    else if key(sorted[0]) >= key(x) then [sorted[0]] + InsertDesc(sorted[1..], x, key)
    else [x] + sorted
  }

  function SortDesc<T>(s: seq<T>, key: T -> real): (r: seq<T>)
    ensures |r| == |s|
  {
    if |s| == 0 then [] else InsertDesc(SortDesc(s[..|s| - 1], key), s[|s| - 1], key)
  }

  lemma {:induction false} InsertDescPermutes<T>(sorted: seq<T>, x: T, key: T -> real)
    ensures multiset(InsertDesc(sorted, x, key)) == multiset(sorted) + multiset{x}
  {
    if |sorted| > 0 && key(sorted[0]) >= key(x) {
      InsertDescPermutes(sorted[1..], x, key);
      assert sorted == [sorted[0]] + sorted[1..];
    }
  }

  lemma {:induction false} InsertDescOrdered<T>(sorted: seq<T>, x: T, key: T -> real)
    requires NonIncreasing(sorted, key)
    ensures NonIncreasing(InsertDesc(sorted, x, key), key)
    ensures |InsertDesc(sorted, x, key)| > 0
    ensures key(InsertDesc(sorted, x, key)[0]) == key(x) || (|sorted| > 0 && key(InsertDesc(sorted, x, key)[0]) == key(sorted[0]))
  {
    if |sorted| > 0 && key(sorted[0]) >= key(x) {
      InsertDescOrdered(sorted[1..], x, key);
      var r := InsertDesc(sorted[1..], x, key);
      assert InsertDesc(sorted, x, key) == [sorted[0]] + r;
      if |sorted| > 1 {
        assert key(sorted[0]) >= key(sorted[1]);
      }
    }
  }

  /** Inserting keeps the elements of each key in order, `x` after the others of its key. */
  lemma {:induction false} InsertDescStable<T>(sorted: seq<T>, x: T, key: T -> real, v: real)
    requires NonIncreasing(sorted, key)
    ensures Select(InsertDesc(sorted, x, key), key, v) == Select(sorted, key, v) + (if key(x) == v then [x] else [])
  {
    if |sorted| == 0 {
      assert InsertDesc(sorted, x, key) == [x];
    } else if key(sorted[0]) >= key(x) {
      var head := if key(sorted[0]) == v then [sorted[0]] else [];
      assert NonIncreasing(sorted[1..], key);
      InsertDescStable(sorted[1..], x, key, v);
      var r := InsertDesc(sorted[1..], x, key);
      assert InsertDesc(sorted, x, key) == [sorted[0]] + r;
      assert ([sorted[0]] + r)[1..] == r;
      assert Select([sorted[0]] + r, key, v) == head + Select(r, key, v);
      assert Select(sorted, key, v) == head + Select(sorted[1..], key, v);
    } else {
      assert InsertDesc(sorted, x, key) == [x] + sorted;
      assert ([x] + sorted)[1..] == sorted;
      if key(x) == v {
        SelectNone(sorted, key, v);
      }
    }
  }

  /** The sort returns a permutation of its input in non-increasing key order,
      and it is stable: for every key value, the elements with that key appear
      in the same relative order as in the input. */
  lemma {:induction false} SortDescCorrect<T>(s: seq<T>, key: T -> real)
    ensures multiset(SortDesc(s, key)) == multiset(s)
    ensures NonIncreasing(SortDesc(s, key), key)
    ensures forall v :: Select(SortDesc(s, key), key, v) == Select(s, key, v)
  {
    if |s| > 0 {
      var p, x := s[..|s| - 1], s[|s| - 1];
      assert s == p + [x];
      SortDescCorrect(p, key);
      InsertDescPermutes(SortDesc(p, key), x, key);
      InsertDescOrdered(SortDesc(p, key), x, key);
      forall v ensures Select(SortDesc(s, key), key, v) == Select(s, key, v) {
        InsertDescStable(SortDesc(p, key), x, key, v);
        SelectSnoc(p, x, key, v);
      }
    }
  }

  /** Stability for one key value. */
  lemma {:induction false} SortDescStableAt<T>(s: seq<T>, key: T -> real, v: real)
    ensures Select(SortDesc(s, key), key, v) == Select(s, key, v)
  {
    SortDescCorrect(s, key);
  }

  /** The sort puts first the earliest element of largest key. */
  lemma {:induction false} SortedFirst<T>(s: seq<T>, key: T -> real, i: nat)
    requires i < |s|
    requires forall j :: 0 <= j < |s| ==> key(s[j]) <= key(s[i])
    requires forall j :: 0 <= j < i ==> key(s[j]) < key(s[i])
    ensures SortDesc(s, key)[0] == s[i]
  {
    var r, v := SortDesc(s, key), key(s[i]);
    assert key(r[0]) == v by {
      SortDescCorrect(s, key);
      assert r[0] in multiset(s);
      assert s[i] in multiset(r);
      var k :| 0 <= k < |r| && r[k] == s[i];
    }
    SelectFirst(r, key, v, 0);
    SelectFirst(s, key, v, i);
    SortDescStableAt(s, key, v);
  }

  /** The sort puts last the latest element of smallest key. */
  lemma {:induction false} SortedLast<T>(s: seq<T>, key: T -> real, i: nat)
    requires i < |s|
    requires forall j :: 0 <= j < |s| ==> key(s[i]) <= key(s[j])
    requires forall j :: i < j < |s| ==> key(s[i]) < key(s[j])
    ensures SortDesc(s, key)[|s| - 1] == s[i]
  {
    var r, v := SortDesc(s, key), key(s[i]);
    var n := |r| - 1;
    SortedLastKey(s, key, i);
    SortDescStableAt(s, key, v);
    LastOfSameSelection(r, s, key, v, n, i);
  }

  /** The last element of the sort carries the smallest key. */
  lemma {:induction false} SortedLastKey<T>(s: seq<T>, key: T -> real, i: nat)
    requires i < |s|
    requires forall j :: 0 <= j < |s| ==> key(s[i]) <= key(s[j])
    ensures key(SortDesc(s, key)[|s| - 1]) == key(s[i])
  {
    var r, n := SortDesc(s, key), |s| - 1;
    SortDescCorrect(s, key);
    assert r[n] in multiset(s);
    var m :| 0 <= m < |s| && s[m] == r[n];
    assert s[i] in multiset(r);
    var k :| 0 <= k < |r| && r[k] == s[i];
    if k < n {
      assert key(r[k]) >= key(r[n]);
    }
  }

  /** Two sequences with the same selection for `v` agree on their last
      element with key `v`. */
  lemma {:induction false} LastOfSameSelection<T>(r: seq<T>, s: seq<T>, key: T -> real, v: real, n: nat, i: nat)
    requires n < |r| && key(r[n]) == v && forall j :: n < j < |r| ==> key(r[j]) != v
    requires i < |s| && key(s[i]) == v && forall j :: i < j < |s| ==> key(s[j]) != v
    requires Select(r, key, v) == Select(s, key, v)
    ensures r[n] == s[i]
  {
    SelectLast(r, key, v, n);
    SelectLast(s, key, v, i);
  }
}

=== FILE: store_aggregate.dfy ===
/** The store aggregator of `api.getStoreSummary` (and its copy in
    `mockAPI.getStoreSummary`): one pass over the items that keeps, per exact
    store string, a running total, a running count and the list of items. */
module StoreAggregate {
  import opened Wrappers
  import opened Seqs
  import opened Grouping
  import opened Items

  datatype StoreSummary = StoreSummary(
    store: string,
    totalSpent: real,
    itemCount: nat,
    items: seq<GroceryItem>)

  function StoresOf(acc: seq<StoreSummary>): seq<string> {
    seq(|acc|, i requires 0 <= i < |acc| => acc[i].store)
  }

  function ItemsOf(acc: seq<StoreSummary>): seq<seq<GroceryItem>> {
    seq(|acc|, i requires 0 <= i < |acc| => acc[i].items)
  }

  function TotalOf(s: StoreSummary): real { s.totalSpent }

  /** One step of the reduce: the item's store accumulator is created with zero
      totals if missing, then its total, count and item list are advanced. */
  function AddItem(acc: seq<StoreSummary>, item: GroceryItem): seq<StoreSummary> {
    match IndexOf(StoresOf(acc), item.store)
    case Some(i) =>
      acc[i := acc[i].(totalSpent := acc[i].totalSpent + item.price,
                       itemCount := acc[i].itemCount + 1,
                       items := acc[i].items + [item])]
    case None =>
      acc + [StoreSummary(item.store, 0.0 + item.price, 0 + 1, [item])]
  }

  /** `Object.values(items.reduce(AddItem, {}))`. */
  function GetStoreSummary(items: seq<GroceryItem>): seq<StoreSummary> {
    if |items| == 0 then []
    else AddItem(GetStoreSummary(items[..|items| - 1]), items[|items| - 1])
  }

  /** The summary a store group should produce: its exact sum and count. */
  function FromGroup(g: Group<string, GroceryItem>): StoreSummary {
    StoreSummary(g.key, SumPrices(g.members), |g.members|, g.members)
  }

  /** The running accumulators never drift: the one-pass reduce yields, store by
      store, exactly the summary computed from the group of that store's items. */
  lemma {:induction false} SummaryIsGrouping(items: seq<GroceryItem>)
    ensures |GetStoreSummary(items)| == |GroupBy(items, StoreOf)|
    ensures forall i :: 0 <= i < |GetStoreSummary(items)| ==>
              GetStoreSummary(items)[i] == FromGroup(GroupBy(items, StoreOf)[i])
  {
    if |items| > 0 {
      var p, x := items[..|items| - 1], items[|items| - 1];
      SummaryIsGrouping(p);
      var acc, gs := GetStoreSummary(p), GroupBy(p, StoreOf);
      assert GetStoreSummary(items) == AddItem(acc, x);
      assert GroupBy(items, StoreOf) == Push(gs, x.store, x);
      assert StoresOf(acc) == KeysOf(gs);
      match IndexOf(KeysOf(gs), x.store)
      case Some(i) =>
        SumSnoc(gs[i].members, x, PriceOf);
      case None =>
        assert [x][1..] == [];
        assert SumPrices([x]) == x.price + SumPrices([]);
    }
  }

  ghost predicate StoresDistinct(summary: seq<StoreSummary>) {
    forall i, j :: 0 <= i < j < |summary| ==> summary[i].store != summary[j].store
  }

  /** Exactly one summary per distinct store of the input; each summary's items
      are exactly the input items of that store, in input order; its total is the
      sum of their prices and its count their number; all item lists together
      are a permutation of the input. */
  lemma {:induction false} GetStoreSummaryCorrect(items: seq<GroceryItem>)
    ensures StoresDistinct(GetStoreSummary(items))
    ensures forall x :: x in items ==> x.store in StoresOf(GetStoreSummary(items))
    ensures forall i :: 0 <= i < |GetStoreSummary(items)| ==>
              SummaryOfStore(items, GetStoreSummary(items)[i])
    ensures multiset(Flatten(ItemsOf(GetStoreSummary(items)))) == multiset(items)
    ensures |items| == 0 <==> GetStoreSummary(items) == []
  {
    SummaryIsGrouping(items);
    GroupByCorrect(items, StoreOf);
    SummaryFromPartition(items, GetStoreSummary(items), GroupBy(items, StoreOf));
  }

  /** Summaries built group by group from a partition of the input by store
      have the properties above. */
  lemma {:induction false} SummaryFromPartition(items: seq<GroceryItem>, summary: seq<StoreSummary>, gs: seq<Group<string, GroceryItem>>)
    requires Partitions(gs, items, StoreOf)
    requires |summary| == |gs| && forall i :: 0 <= i < |summary| ==> summary[i] == FromGroup(gs[i])
    ensures StoresDistinct(summary)
    ensures forall x :: x in items ==> x.store in StoresOf(summary)
    ensures forall i :: 0 <= i < |summary| ==> SummaryOfStore(items, summary[i])
    ensures multiset(Flatten(ItemsOf(summary))) == multiset(items)
    ensures |items| == 0 <==> summary == []
  {
    assert StoresOf(summary) == KeysOf(gs);
    assert ItemsOf(summary) == MembersOf(gs);
    if |items| > 0 {
      assert items[0] in items;
    }
  }

  /** `s` is the exact summary of the items of its store. */
  ghost predicate SummaryOfStore(items: seq<GroceryItem>, s: StoreSummary) {
    && s.items == Select(items, StoreOf, s.store)
    && s.items != []
    && s.totalSpent == SumPrices(s.items)
    && s.itemCount == |s.items|
  }

  /** Every summary lists only items of its own store. */
  lemma {:induction false} SummaryItemsShareStore(items: seq<GroceryItem>, i: nat, j: nat)
    requires i < |GetStoreSummary(items)| && j < |GetStoreSummary(items)[i].items|
    ensures GetStoreSummary(items)[i].items[j].store == GetStoreSummary(items)[i].store
    ensures GetStoreSummary(items)[i].items[j] in items
  {
    GetStoreSummaryCorrect(items);
  }

  /** Each reduce step adds the item's price to exactly one running total. */
  lemma {:induction false} AddItemTotal(acc: seq<StoreSummary>, x: GroceryItem)
    ensures Sum(AddItem(acc, x), TotalOf) == Sum(acc, TotalOf) + x.price
  {
    match IndexOf(StoresOf(acc), x.store)
    case Some(i) =>
      SumUpdate(acc, i, acc[i].(totalSpent := acc[i].totalSpent + x.price,
                                itemCount := acc[i].itemCount + 1,
                                items := acc[i].items + [x]), TotalOf);
    case None =>
      SumSnoc(acc, StoreSummary(x.store, 0.0 + x.price, 0 + 1, [x]), TotalOf);
  }

  /** The totals of all summaries add up to the sum of all input prices. */
  lemma {:induction false} TotalsAddUp(items: seq<GroceryItem>)
    ensures Sum(GetStoreSummary(items), TotalOf) == SumPrices(items)
  {
    if |items| > 0 {
      var p, x := items[..|items| - 1], items[|items| - 1];
      assert items == p + [x];
      TotalsAddUp(p);
      SumSnoc(p, x, PriceOf);
      AddItemTotal(GetStoreSummary(p), x);
    }
  }
}

=== FILE: store_summary.dfy ===
/** The store-summary view: the grand total over all stores, the display order
    of the store cards, the expand/collapse toggle and the collapsed preview. */
module StoreSummaryView {
  import opened Wrappers
  import opened Seqs
  import opened Sorting
  import opened Items
  import opened StoreAggregate
  import opened ItemEditing

  /** `summary.reduce((sum, store) => sum + store.totalSpent, 0)`. */
  function GrandTotal(summary: seq<StoreSummary>): real {
    Sum(summary, TotalOf)
  }

  /** The grand total shown over the summary of some items is what those items cost. */
  lemma {:induction false} GrandTotalIsSpend(items: seq<GroceryItem>)
    ensures GrandTotal(GetStoreSummary(items)) == SumPrices(items)
  {
    TotalsAddUp(items);
  }

  /** `summary.sort((a, b) => b.totalSpent - a.totalSpent)`. */
  function DisplayOrder(summary: seq<StoreSummary>): (r: seq<StoreSummary>)
    ensures |r| == |summary|
  {
    SortDesc(summary, TotalOf)
  }

  /** The cards are a permutation of the summary, highest total first, and
      stores with equal totals keep their summary order. */
  lemma {:induction false} DisplayOrderCorrect(summary: seq<StoreSummary>)
    ensures multiset(DisplayOrder(summary)) == multiset(summary)
    ensures NonIncreasing(DisplayOrder(summary), TotalOf)
    ensures forall v :: Select(DisplayOrder(summary), TotalOf, v) == Select(summary, TotalOf, v)
    ensures GrandTotal(DisplayOrder(summary)) == GrandTotal(summary)
  {
    SortDescCorrect(summary, TotalOf);
    SumPermutation(DisplayOrder(summary), summary, TotalOf);
  }

  /** The view state: the expanded store card and the inline item editor. */
  datatype ViewState = ViewState(expandedStore: Option<string>, edit: EditState)

  /** `handleStoreClick`: clicking the expanded store collapses it, clicking any
      other store expands that one; either way an open editor is closed. */
  function HandleStoreClick(s: ViewState, store: string): (r: ViewState)
    ensures s.expandedStore == Some(store) ==> r.expandedStore == None
    ensures s.expandedStore != Some(store) ==> r.expandedStore == Some(store)
    ensures r.edit == Idle
  {
    ViewState(if s.expandedStore == Some(store) then None else Some(store), Idle)
  }

  /** Two clicks on the same store: back to collapsed, unless it started expanded. */
  lemma {:induction false} ClickTwice(s: ViewState, store: string)
    ensures HandleStoreClick(HandleStoreClick(s, store), store).expandedStore
         == (if s.expandedStore == Some(store) then Some(store) else None)
  {
  }

  /** The badges of a collapsed card: up to four item names and a "+n more" count. */
  datatype Preview = Preview(names: seq<string>, more: Option<nat>)

  /** `store.items.slice(0, 4)` and the `store.items.length > 4` badge. */
  function PreviewOf(items: seq<GroceryItem>): (p: Preview)
    ensures |p.names| == (if |items| < 4 then |items| else 4)
    ensures forall i :: 0 <= i < |p.names| ==> p.names[i] == items[i].itemName
    ensures p.more.Some? <==> |items| > 4
    ensures |p.names| + p.more.GetOr(0) == |items|
  {
    var shown := if |items| < 4 then items else items[..4];
    Preview(seq(|shown|, i requires 0 <= i < |shown| => shown[i].itemName),
            if |items| > 4 then Some(|items| - 4) else None)
  }
}

=== FILE: text.dfy ===
/** The string operations the source relies on: JavaScript's `trim`,
    `toLowerCase`, `includes` and `startsWith`, Python's `in`, `lower`,
    `split(c)[-1]` and `",".join`. */
module Text {

  /** White space and line terminators as JavaScript's `String.prototype.trim` removes them. */
  predicate IsSpace(c: char) {
    || c == ' ' || c == '\t' || c == '\n' || c == '\r' || c == '\U{000B}' || c == '\U{000C}'
    || c == '\U{00A0}' || c == '\U{1680}' || ('\U{2000}' <= c <= '\U{200A}')
    || c == '\U{2028}' || c == '\U{2029}' || c == '\U{202F}' || c == '\U{205F}'
    || c == '\U{3000}' || c == '\U{FEFF}'
  }

  /** Lower-case mapping of the ASCII letters; every other character is kept. */
  function LowerChar(c: char): char {
    if 'A' <= c <= 'Z' then (c as int + 32) as char else c
  }

  function Lower(s: string): string {
    seq(|s|, i requires 0 <= i < |s| => LowerChar(s[i]))
  }

  /** Leading white space removed: the result is the longest suffix of `s` that
      does not start with white space, and everything cut off is white space. */
  function TrimStart(s: string): (r: string)
    ensures |r| <= |s| && r == s[|s| - |r|..]
    ensures forall k :: 0 <= k < |s| - |r| ==> IsSpace(s[k])
    ensures |r| > 0 ==> !IsSpace(r[0])
  {
    if |s| > 0 && IsSpace(s[0]) then TrimStart(s[1..]) else s
  }

  /** Trailing white space removed: the longest prefix of `s` that does not end
      with white space, and everything cut off is white space. */
  function TrimEnd(s: string): (r: string)
    ensures |r| <= |s| && r == s[..|r|]
    ensures forall k :: |r| <= k < |s| ==> IsSpace(s[k])
    ensures |r| > 0 ==> !IsSpace(r[|r| - 1])
  {
    if |s| > 0 && IsSpace(s[|s| - 1]) then TrimEnd(s[..|s| - 1]) else s
  }

  /** JavaScript's `trim`: a slice `s[i..j]` of the input with only white space
      outside it and no white space at either end of it. */
  function Trim(s: string): (r: string)
    ensures exists i :: 0 <= i && OccursAt(s, r, i)
    ensures |r| > 0 ==> !IsSpace(r[0]) && !IsSpace(r[|r| - 1])
    ensures (forall k :: 0 <= k < |s| ==> IsSpace(s[k])) ==> r == []
  {
    var t := TrimStart(s);
    var r := TrimEnd(t);
    assert OccursAt(s, r, |s| - |t|);
    r
  }

  /** `item.toLowerCase().trim()`: the key the source normalises names with. */
  function Normalize(s: string): string {
    Trim(Lower(s))
  }

  predicate IsPrefix(p: string, s: string) {
    |p| <= |s| && s[..|p|] == p
  }

  /** `sub` is the slice of `s` that starts at index `i`. */
  predicate OccursAt(s: string, sub: string, i: int) {
    0 <= i && i + |sub| <= |s| && s[i..i + |sub|] == sub
  }

  /** `s.includes(sub)` / `sub in s`, computed by trying every start position in turn. */
  predicate Contains(s: string, sub: string) {
    IsPrefix(sub, s) || (|s| > 0 && Contains(s[1..], sub))
  }

  /** `Contains` holds exactly when `sub` occurs in `s` at some position. */
  lemma {:induction false} ContainsIff(s: string, sub: string)
    ensures Contains(s, sub) <==> exists i :: OccursAt(s, sub, i)
  {
    if IsPrefix(sub, s) {
      assert OccursAt(s, sub, 0);
    } else if |s| == 0 {
      assert forall i :: !OccursAt(s, sub, i);
    } else {
      ContainsIff(s[1..], sub);
      forall i | OccursAt(s[1..], sub, i) ensures OccursAt(s, sub, i + 1) {
        assert s[1..][i..i + |sub|] == s[i + 1..i + 1 + |sub|];
      }
      forall i | OccursAt(s, sub, i) ensures OccursAt(s[1..], sub, i - 1) {
        assert s[1..][i - 1..i - 1 + |sub|] == s[i..i + |sub|];
      }
    }
  }

  /** `s.split(c)[-1]`: the longest suffix of `s` that does not contain `c`;
      when it is shorter than `s`, the character before it is `c`. */
  function AfterLast(s: string, c: char): (r: string)
    ensures c !in r
    ensures |r| <= |s| && r == s[|s| - |r|..]
    ensures |r| < |s| ==> s[|s| - |r| - 1] == c
  {
    if |s| == 0 then ""
    else if s[|s| - 1] == c then ""
    else AfterLast(s[..|s| - 1], c) + [s[|s| - 1]]
  }

  /** When `c` sits at `k` and not after it, `split(c)[-1]` is what follows `k`. */
  lemma {:induction false} AfterLastAt(s: string, c: char, k: nat)
    requires k < |s| && s[k] == c && c !in s[k + 1..]
    ensures AfterLast(s, c) == s[k + 1..]
  {
    var r := AfterLast(s, c);
    if |r| != |s| - k - 1 {
      assert false;
    }
  }

  /** A string without `c` is its own last part. */
  lemma {:induction false} AfterLastNone(s: string, c: char)
    requires c !in s
    ensures AfterLast(s, c) == s
  {
  }

  /** Python's `sep.join(parts)`. */
  function Join(parts: seq<string>, sep: string): string {
    if |parts| == 0 then ""
    else if |parts| == 1 then parts[0]
    else parts[0] + sep + Join(parts[1..], sep)
  }

  /** Python's `s.split(c)` with a one-character separator: the pieces
      between consecutive occurrences of `c`, never an empty list. */
  function Split(s: string, c: char): (r: seq<string>)
    ensures |r| >= 1
    ensures forall i :: 0 <= i < |r| ==> c !in r[i]
  {
    if |s| == 0 then [""]
    else if s[0] == c then [""] + Split(s[1..], c)
    else
      var t := Split(s[1..], c);
      [[s[0]] + t[0]] + t[1..]
  }

  /** Joining the pieces with the separator gives the string back. */
  lemma {:induction false} SplitJoin(s: string, c: char)
    ensures Join(Split(s, c), [c]) == s
  {
    if |s| > 0 {
      var t := Split(s[1..], c);
      SplitJoin(s[1..], c);
      if s[0] == c {
        assert Split(s, c)[1..] == t;
      } else if |t| > 1 {
        assert Split(s, c)[1..] == t[1..];
        assert Join(t, [c]) == t[0] + [c] + Join(t[1..], [c]);
      }
    }
  }
}

=== FILE: user_management.dfy ===
/** The admin's user panel: the add-user form with its guard and reset, and
    the inline editor whose save sends a password only when one was typed. */
module UserManagement {
  import opened Wrappers
  import Accounts
  import Server

  datatype NewUser = NewUser(username: string, password: string, role: string)

  /** `editingUser`: a listed user with a password box, empty on entry. */
  datatype EditedUser = EditedUser(id: int, username: string, role: string, password: string)

  /** The body of `api.updateUser`. */
  datatype UpdateData = UpdateData(username: string, role: string, password: Option<string>)

  /** The panel's state: the add form, whether it is shown, and the user being edited. */
  datatype Panel = Panel(newUser: NewUser, showAddForm: bool, editing: Option<EditedUser>)

  function EmptyNewUser(): NewUser {
    NewUser("", "", "user")
  }

  /** `handleAddUser`'s guard: the user to create, or `None` when the username
      or password is empty. The role is never checked. */
  function AddRequest(p: Panel): (r: Option<NewUser>)
    ensures r.None? <==> p.newUser.username == "" || p.newUser.password == ""
    ensures r.Some? ==> r.value == p.newUser
  {
    if p.newUser.username == "" || p.newUser.password == "" then None else Some(p.newUser)
  }

  /** The panel after `createUser` settles: on success the form is cleared to
      role "user" and hidden; on failure nothing changes. */
  function AfterAdd(p: Panel, succeeded: bool): (r: Panel)
    ensures succeeded ==> r.newUser == NewUser("", "", "user") && !r.showAddForm && r.editing == p.editing
    ensures !succeeded ==> r == p
  {
    if succeeded then p.(newUser := EmptyNewUser(), showAddForm := false) else p
  }

  /** `handleEditUser`: the listed user with an empty password box. */
  function HandleEditUser(p: Panel, u: Accounts.User): (r: Panel)
    ensures r.editing == Some(EditedUser(u.id, u.username, u.role, ""))
    ensures r.newUser == p.newUser && r.showAddForm == p.showAddForm
  {
    p.(editing := Some(EditedUser(u.id, u.username, u.role, "")))
  }

  /** `updateData`: username and role always, the password only when typed. */
  function BuildUpdateData(e: EditedUser): (r: UpdateData)
    ensures r.username == e.username && r.role == e.role
    ensures r.password.Some? <==> e.password != ""
    ensures r.password.Some? ==> r.password.value == e.password
  {
    UpdateData(e.username, e.role, if e.password != "" then Some(e.password) else None)
  }

  /** `handleSaveEdit`: nothing is sent when no user is being edited. */
  function SaveRequest(p: Panel): (r: Option<(int, UpdateData)>)
    ensures r.None? <==> p.editing.None?
    ensures r.Some? ==> r.value == (p.editing.value.id, BuildUpdateData(p.editing.value))
  {
    match p.editing
    case None => None
    case Some(e) => Some((e.id, BuildUpdateData(e)))
  }

  /** The panel after `updateUser` settles: the editor closes on success only. */
  function AfterSaveEdit(p: Panel, succeeded: bool): (r: Panel)
    ensures succeeded ==> r.editing.None? && r.newUser == p.newUser && r.showAddForm == p.showAddForm
    ensures !succeeded ==> r == p
  {
    if succeeded then p.(editing := None) else p
  }

  /** What the admin endpoint does with a save from the panel. */
  function SendUpdate(db: Accounts.Db, admin: Server.Caller, id: int, d: UpdateData, hash: string -> string): Server.Outcome {
    Server.UpdateUserEndpoint(db, admin, id, Some(d.username), d.password, Some(d.role), hash)
  }

  /** Opening a user and saving without typing a password keeps every stored
      password hash; the request always carries a field, so "No fields to
      update" cannot come from this panel. */
  lemma {:induction false} EditWithoutPasswordKeepsHash(db: Accounts.Db, admin: Server.Caller, p: Panel, u: Accounts.User,
                                     hash: string -> string)
    ensures var q := HandleEditUser(p, u);
            var req := SaveRequest(q).value;
            var r := SendUpdate(db, admin, req.0, req.1, hash);
            && req.1.password.None?
            && |r.db.users| == |db.users|
            && (forall j :: 0 <= j < |db.users| ==> r.db.users[j].passwordHash == db.users[j].passwordHash)
            && r.error != Some(HttpError(400, "No fields to update"))
  {
    var q := HandleEditUser(p, u);
    var req := SaveRequest(q).value;
    assert Accounts.UpdateFields(Some(req.1.username), req.1.password, Some(req.1.role)) != [];
  }

  /** Typing a new password and saving, as an admin, for a user that exists
      and keeps a free username, stores the hash of exactly that password. */
  lemma {:induction false} EditWithPasswordSetsHash(db: Accounts.Db, admin: Server.Caller, u: Accounts.User, typed: string,
                                 hash: string -> string, k: nat)
    requires admin.role == Some("admin") && typed != ""
    requires k < |db.users| && db.users[k].id == u.id
    requires forall j :: 0 <= j < |db.users| && db.users[j].id != u.id ==> db.users[j].username != u.username
    ensures var e := EditedUser(u.id, u.username, u.role, typed);
            var r := SendUpdate(db, admin, u.id, BuildUpdateData(e), hash);
            r.error.None? && r.db.users[k].passwordHash == hash(typed) && r.db.users[k].username == u.username
  {
    var e := EditedUser(u.id, u.username, u.role, typed);
    assert Accounts.UpdateFields(Some(u.username), Some(typed), Some(u.role)) != [];
    assert !Accounts.UsernameClash(db, u.id, Some(u.username));
  }
}

=== FILE: wrappers.dfy ===
/** Optional values, used wherever the source reads a field that may be missing
    (a JSON key, a nullable column, a `None` argument). */
module Wrappers {

  datatype Option<T> = None | Some(value: T) {

    /** The value, or `default` when absent (Python's `dict.get(key, default)`). */
    function GetOr(default: T): T {
      match this
      case Some(v) => v
      case None => default
    }
  }

  /** The outcome of an operation that can fail with a message (a rejected
      promise, a `(False, message)` pair, a raised exception). */
  datatype Result<T> = Success(value: T) | Failure(error: string)

  /** An HTTP error as the backend raises it: a status code and a detail message. */
  datatype HttpError = HttpError(status: nat, detail: string)
}
